=== FILE: README.md ===
# A Dafny model of the GNN introduction's interactive figures

The article "A Gentle Introduction to Graph Neural Networks" ships a
molecule playground and a handful of small interactive illustrations. This
project models their data logic and proves properties of it. It covers:

- **Property maps and one-hot cycling** (`Props`). A node's or an edge's
  `properties` object is an ordered map from category name to number, and
  clicking cycles the category that holds 1 (graph.ts `oneHotIdx`,
  `progressOneHotIdx`).
- **The tensor bridge** (`Featurization`). `graphToTensors` turns a graph
  into the seven arrays the graph network reads; `tensorsToGraph` turns
  them back. The round trip keeps counts, values and endpoints, and renames
  keys positionally.
- **The molecule editor** (`Bonds`, `Editor`). The `Graph` class edits its
  node and edge lists in response to drags, clicks and close buttons. Each
  chemical bond is stored as two directed edges with equal properties; the
  model states that pairing as an invariant and proves every edit keeps it.
  The reverse-edge lookup as written does not keep it; see Findings.
- **Shared helpers** (`Utils`, `PlaygroundUtil`, `Strings`). These cover
  `makeGraph`, `range`, `shuffle`, `oneSwap` and `transposeArray`, plus
  `getKeyByValue` and the bookkeeping of `setDataInitPos`. `Strings` holds
  the JavaScript string behaviour they rely on: number-to-string, default
  `sort` order, `trim` and `split`.
- **Three click-driven figures** (`GraphToTensor`, `ShuffleSm`,
  `ImageAsGraph`, with `LinkIds`). Each figure is a class whose fields are
  the shared `nodes`/`links` arrays the page mutates, plus `pixels`/`pairs`
  for the image figure. Their click and hover handlers are methods that keep
  the figure's invariants.

Object identity is modelled explicitly. A playground node carries a `uid`
standing for the JavaScript object, and edges name their endpoints by uid.
The figures identify nodes and pixels by their position. Random numbers
(the `random` table, `Math.random`, `d3.shuffle`) are parameters. The float
layout arithmetic is a function parameter `place`.

## Model

| member | source | states |
|---|---|---|
| Props.Keys | visualizations/playground/graph.ts:374 | `Object.keys`: one key per entry, in insertion order |
| Props.Values | visualizations/playground/featurization.ts:46 | `Object.values`: one value per entry, in key order |
| Props.OneHotIdx | visualizations/playground/graph.ts:373-377 | the position of the first key whose value is 1, or -1 when none is; no earlier key holds 1 |
| Props.NextOneHot | visualizations/playground/graph.ts:380-387 | after one step the keys are unchanged and exactly one entry is 1, at (old position + 1) mod key count; if no entry was 1 the first key becomes 1; an empty map gains the key "undefined" |
| Props.OneHotAtIdx | visualizations/playground/graph.ts:373-377 | on a one-hot map `oneHotIdx` finds the hot position |
| Props.OneHotDetermined | visualizations/playground/graph.ts:385-386 | two maps with the same keys, hot at the same place, are equal |
| Props.IterateOneHot | visualizations/playground/graph.ts:380-387 | k steps move the hot entry k positions on, wrapping round, and keep the keys |
| Props.AdvanceIsMod | visualizations/playground/graph.ts:385 | k positions on from r is (r + k) mod n |
| Props.AdvanceFull | visualizations/playground/graph.ts:385 | as many positions on as there are keys is the start again |
| Props.SuccIsMod | visualizations/playground/graph.ts:385 | the next position, wrapping round, is `(idx + 1) % keys.length`, also from -1 |
| Props.IterateStep | visualizations/playground/graph.ts:380-387 | one step from a map hot at n keeps the keys and makes it hot at n + 1, wrapping round |
| Props.FullCycle | visualizations/playground/graph.ts:380-387 | as many steps as there are keys restore a one-hot map |
| Props.IterateFull | visualizations/playground/graph.ts:380-387 | after one step per key the map is hot again where it started, with the same keys |
| Props.StepMoves | visualizations/playground/graph.ts:384-386 | with two or more keys a single step always changes the map |
| Editor.Progress | visualizations/playground/graph.ts:380-387 | the zero-then-set loop computes exactly `NextOneHot` of its input |
| Strings.NatToString | visualizations/playground/featurization.ts:80 | the decimal string of a number: digits only, no leading zero |
| Strings.NatToStringInjective | visualizations/playground/featurization.ts:80 | different numbers print differently |
| Strings.LexLessIrreflexive | visualizations/shuffle-sm.js:56 | default `sort` order: no string precedes itself |
| Strings.LexLessAsymmetric | visualizations/shuffle-sm.js:56 | default `sort` order: never both ways |
| Strings.LexLessTotal | visualizations/shuffle-sm.js:56 | default `sort` order: distinct strings are ordered one way or the other |
| Strings.LexLessTransitive | visualizations/shuffle-sm.js:56 | default `sort` order is transitive |
| Strings.DigitOrder | visualizations/graph-to-tensor.js:47 | on one-digit numbers the string order is the numeric order |
| Strings.SortPairSymmetric | visualizations/graph-to-tensor.js:47 | `[a, b].sort()` does not depend on the order of a and b |
| Strings.SortPairMembers | visualizations/graph-to-tensor.js:47 | `[a, b].sort()` holds a and b |
| Strings.SortPairSmall | visualizations/shuffle-sm.js:39 | for one-digit node numbers `sort()` puts the smaller first |
| Strings.TrimStart | visualizations/image-as-graph.js:28 | drops exactly the leading white space (every ECMAScript white space and line terminator, Unicode ones included) |
| Strings.TrimEnd | visualizations/image-as-graph.js:28 | drops exactly the trailing white space (every ECMAScript white space and line terminator, Unicode ones included) |
| Strings.Trim | visualizations/image-as-graph.js:28 | the result is the input with the leading and trailing white space removed and starts and ends with non-space |
| Strings.TrimUnicodeSpace | visualizations/image-as-graph.js:28 | a no-break space in front and an ideographic space behind are trimmed like ASCII spaces |
| Strings.FirstIndex | visualizations/image-as-graph.js:77 | the first separator position, or the length when there is none |
| Strings.Split | visualizations/image-as-graph.js:77 | `split` on one character: at least one part, no part holds the separator, and joining the parts gives the input back |
| Strings.SplitJoin | visualizations/image-as-graph.js:77 | splitting a join of separator-free parts gives the parts back |
| Featurization.MakeTestConfig | visualizations/playground/featurization.ts:26-32 | node and edge defaults are the same map, keys prop_0, prop_2, prop_3, prop_4, one-hot at prop_0 |
| Featurization.GraphToTensors | visualizations/playground/featurization.ts:42-68 | seven tensors in the order nodes, edges, receivers, senders, globals, n_node, n_edge, with their dtypes; one row of property values per node and per edge; receivers and senders are the positions of each edge's target and source; globals `[[0]]`, n_node and n_edge the counts |
| Featurization.PropKeyInjective | visualizations/playground/featurization.ts:80 | different positions give different `prop_${k}` keys |
| Featurization.Positional | visualizations/playground/featurization.ts:80 | the decoded map holds the row's values in order under prop_0, prop_1, ..., with distinct keys |
| Featurization.Decoded | visualizations/playground/featurization.ts:70-98 | on success, node j is at position j with row j's values under prop_0, prop_1, ..., and edge i, for each step of the `n_edge` loop, has entry i of `senders` and `receivers` as endpoints and row i of `edges` as properties; it fails exactly when fewer than seven tensors are given, `nodes` is a non-empty flat list (its entries are numbers, on which the inner `forEach` throws), or some loop step lacks its row or entries |
| Featurization.TensorsToGraph | visualizations/playground/featurization.ts:70-98 | the node and edge loops compute `Decoded`, failures included (see Left out for short endpoint arrays) |
| Featurization.RowProps | visualizations/playground/featurization.ts:80 | the `forEach` over a row builds `Positional(row)` |
| Featurization.RoundTrip | visualizations/playground/featurization.ts:42-98 | decoding an encoding succeeds and keeps node and edge counts, value sequences and endpoint positions; keys become prop_0.. |
| Featurization.RoundTripEndpoints | visualizations/playground/featurization.ts:52-56 | when node identities are positions the endpoints come back unchanged |
| Featurization.DefaultKeysRenamed | visualizations/playground/featurization.ts:28-29 | prop_0, prop_2, prop_3, prop_4 come back as prop_0..prop_3 with the same values, so the map differs |
| Featurization.EncodeTwoCarbons | visualizations/playground/featurization.ts:42-68 | a concrete two-atom molecule encodes to the expected arrays |
| Featurization.TwoCarbonFeatures | visualizations/playground/featurization.ts:42-68 | two atoms and two bonds with one-hot properties give feature rows [1, 0] each and counts 2 and 2 |
| Featurization.TwoCarbonIndices | visualizations/playground/featurization.ts:42-68 | the bond from the first atom to the second and the one back give receivers [1, 0] and senders [0, 1] |
| GraphData.PosOf | visualizations/playground/graph.ts:315 | `indexOf`: the first position holding the node, or -1 |
| GraphData.PosOfDistinct | visualizations/playground/graph.ts:315 | without repeats, `indexOf` of a node is its position |
| GraphData.Uids | visualizations/playground/graph.ts:315 | the list's node identities, in order |
| GraphData.PosOfFound | visualizations/playground/graph.ts:315 | `indexOf` finds a node exactly when the list holds it |
| GraphData.Without | visualizations/playground/graph.ts:315 | `splice(k, 1)`: one shorter, the other entries in order |
| Bonds.Fwd | visualizations/playground/graph.ts:209-220 | the edges read forwards as bonds, position by position |
| Bonds.Bwd | visualizations/playground/graph.ts:209-220 | the edges read backwards as bonds, position by position |
| Bonds.ReverseEdgeAsWritten | visualizations/playground/graph.ts:396-398 | `find`: the first edge with swapped endpoints, or -1 |
| Bonds.ReverseEdge | visualizations/playground/graph.ts:396-398 | corrected lookup: the first edge with swapped endpoints and equal properties, or -1 |
| Bonds.ReverseEdgeFound | visualizations/playground/graph.ts:389-392 | in a paired list without self-loops every edge's partner exists and is another edge |
| Bonds.ReverseEdgeFoundAfterRemoval | visualizations/playground/graph.ts:322-324 | after the first splice the partner is still found |
| Bonds.FwdBwdWithout | visualizations/playground/graph.ts:322 | splicing out an edge removes exactly its bond from both readings |
| Bonds.RemovePairKeepsPaired | visualizations/playground/graph.ts:320-329 | removing an edge, then its partner, keeps the list paired |
| Bonds.AppendPairKeepsPaired | visualizations/playground/graph.ts:209-220 | pushing a bond as its two directed edges keeps the list paired |
| Bonds.UpdatePairKeepsPaired | visualizations/playground/graph.ts:388-392 | giving an edge and its partner the same new properties keeps the list paired |
| Bonds.Detach | visualizations/playground/graph.ts:314 | the filter keeps exactly the edges not touching the node and no more edges than there were |
| Bonds.DetachCount | visualizations/playground/graph.ts:314 | the filter drops exactly as many edges as touch the node |
| Bonds.FwdConcat | visualizations/playground/graph.ts:314 | reading a concatenation forwards or backwards reads each part |
| Bonds.DetachFwd | visualizations/playground/graph.ts:314 | after the filter each bond not at the node keeps its count, and bonds at the node are gone (forward reading) |
| Bonds.DetachBwd | visualizations/playground/graph.ts:314 | the same for the backward reading |
| Bonds.DetachKeepsPaired | visualizations/playground/graph.ts:312-319 | removing every edge of a node keeps the list paired |
| Bonds.ClickAsWritten | visualizations/playground/graph.ts:379-398 | the click as written keeps the list length |
| Bonds.TwoBondsPaired | visualizations/playground/graph.ts:209-220 | the two-bond list of the finding is paired and has no self-loop |
| Bonds.TypeSteps | visualizations/playground/graph.ts:380-387 | one step takes bond type A to B and B to C |
| Bonds.StepTo | visualizations/playground/graph.ts:380-387 | one step takes a one-hot map to the map with the same keys hot one position further on |
| Bonds.ClickTwoBonds | visualizations/playground/graph.ts:389-398 | on the two-bond list the lookup as written pairs edge 0 with edge 1, and the click gives 0->1 B, 1->0 C, 0->1 B, 1->0 A |
| Bonds.ClickedUnpaired | visualizations/playground/graph.ts:389-398 | that list is not paired: edge 0 has no partner |
| Bonds.ClickAsWrittenBreaksPairing | visualizations/playground/graph.ts:389-398 | the lookup as written picks the other bond's edge, and the click leaves the list unpaired |
| Bonds.ClickCorrectedOnTwoBonds | visualizations/playground/graph.ts:396-398 | the corrected lookup picks the true partner |
| Bonds.RemoveAsWritten | visualizations/playground/graph.ts:320-329 | removing an edge as written (the edge, then the first edge with swapped endpoints, or the last edge when there is none) leaves two edges fewer, or none |
| Bonds.RemoveAsWrittenBreaksPairing | visualizations/playground/graph.ts:322-324 | on the paired two-bond list, removing edge 0 as written leaves 0->1 B, 1->0 A, which is not paired |
| Bonds.RemovedUnpaired | visualizations/playground/graph.ts:322-324 | that remaining list is not paired |
| Bonds.BondThenJoinPaired | visualizations/playground/graph.ts:209-220 | the list the mouse leaves after a join, a click on the bond and a second join is paired and has no self-loop |
| Bonds.ClickTopBreaksPairing | visualizations/playground/graph.ts:389-398 | clicking its top visible edge, edge 2 (0->1 A), as written also advances the first 1->0 edge, of the other bond, giving 0->1 B, 1->0 C, 0->1 B, 1->0 A, which is not paired |
| Bonds.RemoveTopBreaksPairing | visualizations/playground/graph.ts:322-324 | removing its top visible edge, edge 2, as written also removes the first 1->0 edge and leaves 0->1 B, 1->0 A, which is not paired |
| Editor.FreshUid | visualizations/playground/graph.ts:196-208 | a new node object differs from every node in the list |
| Editor.WellFormedLinked | visualizations/playground/featurization.ts:52-56 | the editor's data has every endpoint in its node list, so it can be encoded |
| Editor.Graph.constructor | visualizations/playground/graph.ts:36-41 | any graph is taken: data and snapshot are the given graph, mode Add, no callback yet; the editor is valid exactly when that graph is well formed and committed |
| Editor.Graph.SetMode | visualizations/playground/graph.ts:118-120 | the mode changes and nothing else |
| Editor.Graph.ClickEdge | visualizations/playground/graph.ts:295-298 | edge k and its partner (another edge) both advance one step, nothing else changes, both end with equal properties, pairing kept |
| Editor.ClickPairKept | visualizations/playground/graph.ts:295-298 | the partner found is another edge, and advancing both keeps the data well formed and committed |
| Editor.Graph.DragStart | visualizations/playground/graph.ts:189-224 | in Add mode a new node (id = node count, default properties, pointer position, adding) and two dotted edges new -> d, d -> new are appended; in Remove mode nothing changes |
| Editor.Graph.Dragged | visualizations/playground/graph.ts:226-234 | in Add mode only the last node's x, y follow the pointer |
| Editor.Graph.DragEnd | visualizations/playground/graph.ts:236-272 | click: node k advances and the data is as before the drag otherwise; drop on another node: that node and d are joined by two solid edges; else the new node stays, started at the drop point, edges solid; the callback gets the data in every case |
| Editor.Graph.EndAsClick | visualizations/playground/graph.ts:241-247 | node k advances and the provisional node and edges are popped |
| Editor.Graph.EndByConnecting | visualizations/playground/graph.ts:249-262 | the provisional edges now join the hovered node and d; the new node is popped |
| Editor.Graph.EndByKeeping | visualizations/playground/graph.ts:255-262 | the new node stays with its start position at the drop point; its edges become solid |
| Editor.Graph.RemoveNode | visualizations/playground/graph.ts:312-319 | the node is spliced out and every edge touching it filtered out; pairing kept; callback called |
| Editor.Graph.RemoveEdge | visualizations/playground/graph.ts:320-329 | the edge and then its partner in the remaining list are spliced out; pairing kept; callback called |
| Editor.RemoveNodeKept | visualizations/playground/graph.ts:312-319 | dropping a node with every edge touching it keeps the data well formed and committed |
| Editor.DetachedEndpoints | visualizations/playground/graph.ts:312-319 | every edge left after the filter joins two nodes that remain |
| Editor.WithoutDistinct | visualizations/playground/graph.ts:312-319 | splicing out a node keeps the node identifiers distinct |
| Editor.RemovePairKept | visualizations/playground/graph.ts:320-329 | the partner is found in the remaining list, and dropping both keeps the data well formed and committed |
| Editor.Graph.UpdateData | visualizations/playground/graph.ts:366-371 | data and snapshot become the given graph, whatever it is; the editor is valid afterwards exactly when that graph is well formed and committed |
| Editor.Graph.ResetData | visualizations/playground/graph.ts:400-402 | data returns to the snapshot; the snapshot and the callback log are unchanged |
| Editor.RemainingUid | visualizations/playground/graph.ts:315 | splicing out a node leaves every other node in the list |
| Editor.ClickEnd | visualizations/playground/graph.ts:241-247 | popping after a click restores the pre-drag lists with node k advanced, well formed |
| Editor.ConnectEnd | visualizations/playground/graph.ts:249-262 | rewiring the last two edges to the hovered node gives the pre-drag lists plus one solid bond, well formed |
| Editor.KeepEnd | visualizations/playground/graph.ts:255-262 | keeping the node gives the pre-drag lists plus the node and one solid bond, well formed |
| Utils.AddNeighbor | utils.ts:40-54 | each direction is added unless present; the neighbour lists and link list stay consistent; exactly the new directions are added |
| Utils.AddHalf | utils.ts:46-53 | one direction is added unless present, the lists stay sound, and only (a, b) is new |
| Utils.AddEdges | utils.ts:58-65 | one loop pass adds the self-link when asked for and the drawn link unless it is the node itself; consistency kept; nothing else is new |
| Utils.MakeGraph | utils.ts:27-69 | numNodes nodes numbered 0..n-1; symmetric duplicate-free neighbour lists; the links are exactly the neighbour entries, each once; d is a neighbour of c exactly when c got its self-link (asked for, and c < expNumEdges) or some pass i linked node i mod n and its draw, in either direction, when they differ; self-loops everywhere when asked for and enough edges are drawn, none otherwise |
| Utils.ExpectedStep | utils.ts:57-65 | one more pass adds exactly the self-link of node i mod n and the link to its draw |
| Utils.Range | utils.ts:75-77 | 0 .. n-1 in order |
| Utils.SwapPermutes | utils.ts:86 | a swap keeps the length and the multiset of entries |
| Utils.ShuffledPermutes | utils.ts:83-89 | shuffling keeps the multiset of entries |
| Utils.ShuffledIdentity | utils.ts:83-89 | with every draw at its own position the shuffle changes nothing |
| Utils.Shuffle | utils.ts:83-89 | the array in place becomes the Fisher-Yates result for the draws, a permutation of the old contents; it returns the same array |
| Utils.OneSwap | utils.ts:95-101 | positions i and j are exchanged in place and nothing else moves; it returns the same array |
| Utils.Transpose | utils.ts:103-105 | row i of the result is column i of the input |
| Utils.TransposeTwice | utils.ts:103-105 | transposing a rectangular array twice gives it back |
| PlaygroundUtil.GetKeyByValue | visualizations/playground/util.ts:89-91 | some key is returned exactly when some value equals the given one, and it is the first such key |
| PlaygroundUtil.GetKeyOfValue | visualizations/playground/util.ts:89-91 | when no value occurs twice, looking up an entry's value returns exactly that entry's key |
| PlaygroundUtil.PlacedNodes | visualizations/playground/util.ts:64-79 | one visited node per node, in order |
| PlaygroundUtil.PlacedNodesSettle | visualizations/playground/util.ts:64-79 | after a pass all nodes are processed; each node that was not now has id j and sits at its start position, and keeps its identity and properties; processed nodes are unchanged |
| PlaygroundUtil.PlacedNodesIdempotent | visualizations/playground/util.ts:64-79 | a second pass changes nothing |
| PlaygroundUtil.SetDataInitPos | visualizations/playground/util.ts:59-81 | every graph of the array gets its nodes placed, in place; nothing else of a graph changes |
| LinkIds.LinkId | visualizations/graph-to-tensor.js:47-48 | the identifier holds a space between the two numbers |
| LinkIds.LinkIdSymmetric | visualizations/shuffle-sm.js:39-40 | both orientations share one identifier |
| LinkIds.LinkIdDetermines | visualizations/shuffle-sm.js:39-40 | equal identifiers come from the same unordered pair |
| GraphToTensor.DrawValue | visualizations/graph-to-tensor.js:49 | a value 0..2, and the draw counter advances by one or two |
| GraphToTensor.MakeLinks | visualizations/graph-to-tensor.js:44-52 | the nested loop builds the row-by-row link list with the random counter starting at 3 |
| GraphToTensor.DrawLinkValue | visualizations/graph-to-tensor.js:49 | value and counter are those of the draw rule: 2 below 0.1, else 1 below 0.2 on the next draw, else 0 |
| GraphToTensor.RowShape | visualizations/graph-to-tensor.js:44-52 | each row keeps the links higher -> lower, in order, with identifiers, covering every pair so far |
| GraphToTensor.AppendLink | visualizations/graph-to-tensor.js:44-52 | appending one pair's link keeps the list shaped, increasing and covering |
| GraphToTensor.RowsShape | visualizations/graph-to-tensor.js:44-52 | the same across all rows |
| GraphToTensor.InitialLinks | visualizations/graph-to-tensor.js:44-52 | one link per pair of distinct nodes, from the higher to the lower, with distinct identifiers and a value 0..2 |
| GraphToTensor.SetValueKeepsIds | visualizations/graph-to-tensor.js:236 | changing a value keeps the links well formed; a link's identifier is its own |
| GraphToTensor.NextBit | visualizations/graph-to-tensor.js:231 | a node's or the global's value flips between 0 and 1 |
| GraphToTensor.NextLinkValue | visualizations/graph-to-tensor.js:231-235 | a link value stays in 0..2; a numeric click never gives 0; a self-link drops to 0; otherwise it changes |
| GraphToTensor.ThreeClicksCycle | visualizations/graph-to-tensor.js:231 | three clicks in the drawing restore a link |
| GraphToTensor.NumClicksAlternate | visualizations/graph-to-tensor.js:231-235 | numeric clicks alternate 1 and 2 |
| GraphToTensor.LastNonZeroUnique | visualizations/graph-to-tensor.js:209 | at most one link is the last non-zero one |
| GraphToTensor.LastNonZeroExists | visualizations/graph-to-tensor.js:209 | if some link is non-zero, a last non-zero link exists |
| GraphToTensor.Figure.constructor | visualizations/graph-to-tensor.js:39-52 | eight nodes with the initial values, the drawn links, global 0 |
| GraphToTensor.Figure.IncClickNode | visualizations/graph-to-tensor.js:230-240 | only the node's value flips |
| GraphToTensor.Figure.IncClickGlobal | visualizations/graph-to-tensor.js:230-240 | only the global's value flips |
| GraphToTensor.Figure.IncClickLink | visualizations/graph-to-tensor.js:230-240 | every link with the clicked identifier takes the next value, which is link k alone |
| GraphToTensor.SyncTouchesOnly | visualizations/graph-to-tensor.js:230-240 | with distinct identifiers, syncing by the clicked identifier changes the clicked link alone |
| GraphToTensor.SyncByIdForm | visualizations/graph-to-tensor.js:230-240 | changing link k alone is the same as changing every link with k's identifier |
| GraphToTensor.Figure.SetHoverNode | visualizations/graph-to-tensor.js:242-252 | node k alone among nodes is hovered, the global is not, links unchanged |
| GraphToTensor.Figure.SetHoverGlobal | visualizations/graph-to-tensor.js:242-252 | the global alone is hovered; no node or link is |
| GraphToTensor.Figure.SetHoverLink | visualizations/graph-to-tensor.js:242-252 | exactly the links with k's identifier (link k alone) are hovered; no node, not the global |
| GraphToTensor.RehoverLinks | visualizations/graph-to-tensor.js:247-249 | every link's hover flag becomes the predicate's verdict on it and nothing else changes |
| GraphToTensor.HoverTouchesOnly | visualizations/graph-to-tensor.js:247-249 | hovering by link k's identifier hovers link k and no other |
| GraphToTensor.RelabelKeeps | visualizations/graph-to-tensor.js:208-252 | changing only hover or last-mark flags keeps the links well formed |
| GraphToTensor.Figure.MarkLast | visualizations/graph-to-tensor.js:208-209 | exactly the last link with non-zero value is marked |
| GraphToTensor.MarkLastOf | visualizations/graph-to-tensor.js:208-209 | every mark is cleared and exactly the last link with a non-zero value is marked |
| GraphToTensor.Unhovered | visualizations/graph-to-tensor.js:243 | every node's hover cleared, nothing else |
| GraphToTensor.SyncById | visualizations/graph-to-tensor.js:236 | links with the identifier take the value, the others are unchanged |
| ShuffleSm.CrossRowsShape | visualizations/shuffle-sm.js:38-44 | a times n fresh links from the first a rows, and every ordered pair among them is present |
| ShuffleSm.InitialLinks | visualizations/shuffle-sm.js:38-44 | every ordered pair, self-pairs included, has its link; both orientations start equal; self-pairs start at 0 |
| ShuffleSm.SameIdSamePair | visualizations/shuffle-sm.js:39-40 | links sharing an identifier join the same two nodes |
| ShuffleSm.FreshLinks | visualizations/shuffle-sm.js:41 | `(i + j) % 2` gives both orientations one value and self-pairs 0 |
| ShuffleSm.NextBit | visualizations/shuffle-sm.js:233 | the value advances modulo 2 |
| ShuffleSm.ClickedValue | visualizations/shuffle-sm.js:233-235 | a clicked self-pair is forced to 0; any other link flips |
| ShuffleSm.TwoClicksRestore | visualizations/shuffle-sm.js:233 | two clicks restore a link between distinct nodes |
| ShuffleSm.SyncById | visualizations/shuffle-sm.js:236 | links with the identifier take the value; the others are unchanged |
| ShuffleSm.SyncKeepsInvariants | visualizations/shuffle-sm.js:232-237 | syncing by identifier keeps both orientations equal and self-pairs at 0 |
| ShuffleSm.HoverNodes | visualizations/shuffle-sm.js:243 | every node's hover set by the given rule, nothing else |
| ShuffleSm.HoverLinks | visualizations/shuffle-sm.js:247 | every link's hover set by the given rule, nothing else |
| ShuffleSm.Figure.constructor | visualizations/shuffle-sm.js:35-44 | four nodes with values 0,1,1,0 and letters A-D; links of all ordered pairs |
| ShuffleSm.InitialNodes | visualizations/shuffle-sm.js:34 | four nodes numbered 0 .. 3, values 0, 1, 1, 0, letters A .. D, each value a bit |
| ShuffleSm.Figure.IncClickNode | visualizations/shuffle-sm.js:232-240 | only the node's value flips |
| ShuffleSm.Figure.IncClickLink | visualizations/shuffle-sm.js:232-240 | all links with the clicked identifier, both orientations, take the clicked value (0 for a self-pair); orientations stay equal |
| ShuffleSm.Figure.SetHoverNode | visualizations/shuffle-sm.js:242-256 | node k alone is hovered, and exactly k's self-pair link |
| ShuffleSm.Figure.SetHoverLink | visualizations/shuffle-sm.js:242-256 | exactly the two orientations of the pair are hovered; only a self-pair's node is hovered |
| ShuffleSm.RehoverKeeps | visualizations/shuffle-sm.js:242-256 | changing only hover flags keeps the links well formed, symmetric and self-pairs off |
| ShuffleSm.SameIdIffPair | visualizations/shuffle-sm.js:37-40 | two links share an identifier exactly when they join the same pair of nodes, in either order |
| ShuffleSm.Insert | visualizations/shuffle-sm.js:54-57 | placing a string into a strictly decreasing list keeps it strictly decreasing, adding the string unless present |
| ShuffleSm.Thumbnails | visualizations/shuffle-sm.js:54-59 | the thumbnails are the distinct shuffle strings, strictly decreasing in `sort` order |
| ShuffleSm.DescendingUnique | visualizations/shuffle-sm.js:54-57 | only one strictly decreasing list has a given set of strings, so sort-reverse-dedup gives that list |
| ImageAsGraph.GridShape | visualizations/image-as-graph.js:77-81 | one pixel per character, row-major, `isOn` exactly for '0' |
| ImageAsGraph.GridAt | visualizations/image-as-graph.js:77-86 | for rows of width w, column i of row j is pixel `j*w + i` |
| ImageAsGraph.GridSize | visualizations/image-as-graph.js:77-81 | rows of width w give rows times w pixels |
| ImageAsGraph.ParseImage | visualizations/image-as-graph.js:77-86 | the nested loops and the numbering give the row-major grid with `pixelIndex` = position |
| ImageAsGraph.ReadGrid | visualizations/image-as-graph.js:77-81 | the nested loops push one pixel per character, row after row, `isOn` exactly for '0' |
| ImageAsGraph.NumberPixels | visualizations/image-as-graph.js:83-86 | every pixel's `pixelIndex` becomes its position and nothing else changes |
| ImageAsGraph.Dist | visualizations/image-as-graph.js:92 | distance 0 exactly for the same coordinates |
| ImageAsGraph.DistSymmetric | visualizations/image-as-graph.js:92 | the distance is symmetric, and 1 exactly for the eight neighbours |
| ImageAsGraph.DistZeroSame | visualizations/image-as-graph.js:89-94 | in the grid a pixel is at distance 0 only from itself |
| ImageAsGraph.PairRowsWellFormed | visualizations/image-as-graph.js:89-94 | every pair joins two pixels and carries their distance |
| ImageAsGraph.PairRowsOrdered | visualizations/image-as-graph.js:89 | the pairs follow the cross product's order, so none repeats |
| ImageAsGraph.PairRowsCover | visualizations/image-as-graph.js:89 | every ordered pair of pixels is present |
| ImageAsGraph.MakePairs | visualizations/image-as-graph.js:89-94 | the loops build the cross product with distances |
| ImageAsGraph.LinksOf | visualizations/image-as-graph.js:173-179 | a link exactly for each pair at distance 1 with the smaller index first |
| ImageAsGraph.LinksOrdered | visualizations/image-as-graph.js:173-175 | links keep the pairs' order |
| ImageAsGraph.LinksExactly | visualizations/image-as-graph.js:173-179 | link (x, y) exists exactly when x < y and the pixels are neighbours, and no link repeats |
| ImageAsGraph.LinkFromPair | visualizations/image-as-graph.js:173-179 | every pair passing the filters gives its link |
| ImageAsGraph.Built | visualizations/image-as-graph.js:77-179 | the built picture is numbered, row-major, its pairs ordered and well formed, its links the neighbour pairs |
| ImageAsGraph.Flip | visualizations/image-as-graph.js:211 | only pixel k's `isOn` changes, to its negation |
| ImageAsGraph.FlipTwice | visualizations/image-as-graph.js:210-213 | two clicks restore the picture |
| ImageAsGraph.Picture.constructor | visualizations/image-as-graph.js:22-179 | pixels, pairs and links as parsed and built from the trimmed image text |
| ImageAsGraph.Picture.Click | visualizations/image-as-graph.js:210-213 | the clicked pixel flips; pairs and links stay |
| ImageAsGraph.FlipConsistent | visualizations/image-as-graph.js:210-213 | flipping a pixel keeps the picture consistent |
| ImageAsGraph.SameGeometry | visualizations/image-as-graph.js:77-179 | pixels with the same coordinates and indices keep the pairs and links consistent |
| ImageAsGraph.SamePairs | visualizations/image-as-graph.js:260-262 | pairs with the same ends and distances keep the picture consistent |
| ImageAsGraph.Picture.UpdateActivePair | visualizations/image-as-graph.js:260-262 | exactly the chosen pair and its reverse become active |

## Left out

- Rendering: all d3 selections, SVG attributes, colours, `render`, `updateSelectionsToMatchData`, the close-button geometry, and the thumbnails' and figures' drawing.
- The force simulation and all layout maths, including `restart`, `tick`, the floor-of-float positions and `getCircXY` in `setDataInitPos`; the layout result is the parameter `place`.
- Display-only flags the editor sets: `outline`, `hidden`, `pointer_events`, `highlighted`, `hasClose`. The `hoverNode` tracking of `mouseoverNode`/`mouseoutNode` is a parameter of `DragEnd`.
- `copy` (JSON deep copy) is value identity here: the model's graphs are values, so a copy and the original never share state.
- PlaygroundUtil.SetDataInitPos: distinct graphs of the array are distinct values; aliasing between them is not modelled.
- Editor.Graph: edits between d3's drag start and drag end (mode change, removals, clicks) are excluded by precondition, because d3 delivers one node's start, drags and end without interleaving.
- Editor.Graph: the constructor and UpdateData accept any graph, but the gestures (clicks, drags, removals, mode changes) are modelled only on well-formed, committed data (no repeated node, edges between listed nodes, no self-loop, bonds paired, no dotted edge, no node being added), as the loader provides; what the page does on other data is not modelled.
- Editor.Graph.ResetData: goes through `updateData`, which does not call `molEditedCallback`, so the callback log is unchanged.
- Editor.Graph.ClickEdge: uses the corrected reverse-edge lookup (see Findings); `Bonds.ClickAsWritten` models the lookup as written.
- Editor.Graph.RemoveEdge: uses the corrected reverse-edge lookup on the remaining list (see Findings); `Bonds.RemoveAsWritten` models the removal as written, which can leave the bonds unpaired.
- Editor.RemovePairKept: proves the pairing kept for the corrected lookup only; with the lookup as written it can fail, as `Bonds.RemoveAsWrittenBreaksPairing` shows.
- Featurization.Decoded / Featurization.TensorsToGraph: a `senders` or `receivers` tensor that is not a flat list or is shorter than the `n_edge` count makes the model fail, where the source reads `undefined` (or a nested list) as the endpoint and returns the graph; only a missing `edges` row makes the source throw.
- Property values are integers; the tensors are float32 and the page compares values with `==` and `===`, which agree with integer equality on the 0/1 values the editor and the figures use, but fractional values are not modelled.
- An edge's identity is its position in the list; `indexOf(d)` on an edge is that position.
- Utils.MakeGraph: requires a draw in 0 .. numNodes-1 for every edge attempt; past the end of the 100-entry `random` table the source would read `undefined` and throw. It also requires numNodes > 0 when edges are asked for: with no nodes, `i % 0` is NaN, `nodes[NaN]` is undefined and `addNeighbor` throws.
- Utils.OneSwap: requires in-range indices, so the empty array is excluded: there both draws are 0, and the source writes `undefined` at index 0, growing the array to length 1, which a fixed-size array cannot do.
- ImageAsGraph.Picture.constructor: makes one pixel per character; on image text with a character above U+FFFF the source's `split('')` makes one pixel per UTF-16 code unit, two for that character, which is not modelled.
- Strings: strings are sequences of Unicode characters, not UTF-16 code units, so `split('')`, `length` and `<` (and the default sort) differ from JavaScript's on characters above U+FFFF; every string the figures compare or split (the image text, shuffle strings, link identifiers) is ASCII.
- Utils.Transpose: requires at least one row, since on an empty array `array[0].map` throws, and every row at least as long as the first; shorter rows would give `undefined` entries.
- `Math.random`, `d3.shuffle` and the `random` table are parameters (`draws`, the shuffle strings).
- ShuffleSm.Thumbnails: computes the list by inserting into a decreasing list rather than sorting, reversing and deduplicating. `DescendingUnique` shows both give the same list. The conversion of each thumbnail string into a digit array and the `setPermutation` animation are not modelled.
- ImageAsGraph: the pixel label `str`, the pair drawing positions, `updateActivePixel` (styling only) and the first `updateActivePair(pairs[202])` call, which needs the 25-pixel picture, are not modelled; the picture is modelled for any image text whose characters lie below U+10000 (the figure's text is ASCII).
- `molEditedCallback` is recorded as the sequence `edits` of graphs it receives; what the page does with them (the model inference) is not part of this model.

## Findings

| source | as written | input that shows it | evidently intended | confidence | as-written member | corrected member |
|---|---|---|---|---|---|---|
| visualizations/playground/graph.ts:396-398 (used at 389-392 and 322-324) | `reverseEdge` returns the first edge with swapped endpoints, ignoring its properties, so clicking one of two bonds between the same atoms advances one direction of each bond | with the mouse (edges from the higher to the lower atom are hidden, and the last visible edge drawn is on top): drag from atom 1 onto atom 0, click the bond (both edges become B), drag again, then click the top visible edge, edge 2 (0->1 A): edges 0->1 B, 1->0 B, 0->1 A, 1->0 A become 0->1 B, 1->0 C, 0->1 B, 1->0 A, and neither 0->1 B edge has a 1->0 B partner | the partner edge, with swapped endpoints AND equal properties, so that both directions of a bond stay equal | not executed | Bonds.ClickTopBreaksPairing | Bonds.ReverseEdge |
| visualizations/playground/graph.ts:322-324 (uses 396-398) | removing an edge also removes the first remaining edge with swapped endpoints, whatever its properties, so removing one of two bonds between the same atoms removes one direction of each bond | the same joins and click, then in Remove mode remove the top visible edge, edge 2 (0->1 A), of 0->1 B, 1->0 B, 0->1 A, 1->0 A: the first 1->0 edge goes with it, leaving 0->1 B, 1->0 A, one direction of each bond | remove the partner edge, with swapped endpoints and equal properties, so that the remaining bonds stay paired | not executed | Bonds.RemoveTopBreaksPairing | Editor.RemovePairKept |

=== FILE: bonds.dfy ===
/** The editor stores every chemical bond as two directed edges, one each
    way, that must carry the same properties. This module states that
    pairing as an invariant of an edge list. It also gives the reverse-edge
    lookup (graph.ts `reverseEdge`) both as written and in a corrected form,
    and proves which list edits keep the pairing. */
module Bonds {
  import opened Props
  import opened GraphData

  /** A directed bond: source, target and properties, without display flags. */
  datatype Bond = Bond(src: int, tgt: int, props: Props)

  /** The bonds of the edges, read forwards. */
  function Fwd(es: seq<Edge>): (bs: seq<Bond>)
    ensures |bs| == |es|
    ensures forall i :: 0 <= i < |es| ==> bs[i] == Bond(es[i].src, es[i].tgt, es[i].props)
  {
    seq(|es|, i requires 0 <= i < |es| => Bond(es[i].src, es[i].tgt, es[i].props))
  }

  /** The bonds of the edges, each read backwards. */
  function Bwd(es: seq<Edge>): (bs: seq<Bond>)
    ensures |bs| == |es|
    ensures forall i :: 0 <= i < |es| ==> bs[i] == Bond(es[i].tgt, es[i].src, es[i].props)
  {
    seq(|es|, i requires 0 <= i < |es| => Bond(es[i].tgt, es[i].src, es[i].props))
  }

  /** Every directed edge has a reverse with the same properties, counting
      multiplicity: reading all edges backwards gives the same bonds. */
  predicate Paired(es: seq<Edge>)
  {
    multiset(Fwd(es)) == multiset(Bwd(es))
  }

  /** No edge joins a node to itself. */
  predicate NoSelfLoops(es: seq<Edge>)
  {
    forall i :: 0 <= i < |es| ==> es[i].src != es[i].tgt
  }

  /** graph.ts `reverseEdge` as written: the first edge whose endpoints are
      e's swapped, or -1 (`find` returns undefined). */
  function ReverseEdgeAsWritten(es: seq<Edge>, e: Edge): (r: int)
    ensures -1 <= r < |es|
    ensures r >= 0 ==> es[r].src == e.tgt && es[r].tgt == e.src
    ensures forall j :: 0 <= j < |es| && (r == -1 || j < r) ==> !(es[j].src == e.tgt && es[j].tgt == e.src)
  {
    if |es| == 0 then -1
    else if es[0].src == e.tgt && es[0].tgt == e.src then 0
    else
      var r := ReverseEdgeAsWritten(es[1..], e);
      if r == -1 then -1 else r + 1
  }

  /** The corrected lookup: the first edge whose endpoints are e's swapped
      AND whose properties equal e's, so that it is e's partner. */
  function ReverseEdge(es: seq<Edge>, e: Edge): (r: int)
    ensures -1 <= r < |es|
    ensures r >= 0 ==> es[r].src == e.tgt && es[r].tgt == e.src && es[r].props == e.props
    ensures forall j :: 0 <= j < |es| && (r == -1 || j < r) ==>
      !(es[j].src == e.tgt && es[j].tgt == e.src && es[j].props == e.props)
  {
    if |es| == 0 then -1
    else if es[0].src == e.tgt && es[0].tgt == e.src && es[0].props == e.props then 0
    else
      var r := ReverseEdge(es[1..], e);
      if r == -1 then -1 else r + 1
  }

  /** In a paired list every edge's partner is found, and is another edge. */
  lemma ReverseEdgeFound(es: seq<Edge>, k: int)
    requires Paired(es) && NoSelfLoops(es) && 0 <= k < |es|
    ensures 0 <= ReverseEdge(es, es[k]) < |es| && ReverseEdge(es, es[k]) != k
  {
    var b := Fwd(es)[k];
    assert b in multiset(Fwd(es));
    assert b in multiset(Bwd(es));
    var j :| 0 <= j < |es| && Bwd(es)[j] == b;
    assert es[j].src == es[k].tgt && es[j].tgt == es[k].src && es[j].props == es[k].props;
  }

  /** Without edge k, the list still holds a partner of edge k. */
  lemma ReverseEdgeFoundAfterRemoval(es: seq<Edge>, k: int)
    requires Paired(es) && NoSelfLoops(es) && 0 <= k < |es|
    ensures 0 <= ReverseEdge(Without(es, k), es[k]) < |es| - 1
  {
    ReverseEdgeFound(es, k);
    var j := ReverseEdge(es, es[k]);
    var rest := Without(es, k);
    var j' := if j < k then j else j - 1;
    assert rest[j'] == es[j];
  }

  /** Removing entry k from a list removes one copy of it from its multiset. */
  lemma MultisetWithout<T>(s: seq<T>, k: int)
    requires 0 <= k < |s|
    ensures multiset(Without(s, k)) == multiset(s) - multiset{s[k]}
  {
    assert s == s[..k] + [s[k]] + s[k + 1..];
  }

  /** Reading the edges commutes with removing one of them. */
  lemma ReadWithout(es: seq<Edge>, k: int)
    requires 0 <= k < |es|
    ensures Fwd(Without(es, k)) == Without(Fwd(es), k)
    ensures Bwd(Without(es, k)) == Without(Bwd(es), k)
  {
  }

  lemma FwdBwdWithout(es: seq<Edge>, k: int)
    requires 0 <= k < |es|
    ensures multiset(Fwd(Without(es, k))) == multiset(Fwd(es)) - multiset{Fwd(es)[k]}
    ensures multiset(Bwd(Without(es, k))) == multiset(Bwd(es)) - multiset{Bwd(es)[k]}
  {
    ReadWithout(es, k);
    MultisetWithout(Fwd(es), k);
    MultisetWithout(Bwd(es), k);
  }

  /** Removing an edge and then its partner keeps the list paired. */
  lemma {:induction false} RemovePairKeepsPaired(es: seq<Edge>, k: int)
    requires Paired(es) && NoSelfLoops(es) && 0 <= k < |es|
    ensures var rest := Without(es, k);
      0 <= ReverseEdge(rest, es[k]) < |rest| &&
      Paired(Without(rest, ReverseEdge(rest, es[k])))
  {
    ReverseEdgeFoundAfterRemoval(es, k);
    var rest := Without(es, k);
    var r := ReverseEdge(rest, es[k]);
    FwdBwdWithout(es, k);
    FwdBwdWithout(rest, r);
    var e, f := es[k], rest[r];
    assert Fwd(es)[k] == Bwd(rest)[r] == Bond(e.src, e.tgt, e.props);
    assert Bwd(es)[k] == Fwd(rest)[r] == Bond(e.tgt, e.src, e.props);
  }

  /** Appending a bond as its two directed edges keeps the list paired. */
  lemma AppendPairKeepsPaired(es: seq<Edge>, a: int, b: int, p: Props, d1: bool, d2: bool)
    requires Paired(es)
    ensures Paired(es + [Edge(a, b, p, d1), Edge(b, a, p, d2)])
  {
    var two := [Edge(a, b, p, d1), Edge(b, a, p, d2)];
    FwdConcat(es, two);
    assert Fwd(two) == [Bond(a, b, p), Bond(b, a, p)];
    assert Bwd(two) == [Bond(b, a, p), Bond(a, b, p)];
    assert multiset(Fwd(two)) == multiset(Bwd(two));
  }

  /** Giving an edge and its partner the same new properties keeps the list paired. */
  lemma UpdatePairKeepsPaired(es: seq<Edge>, k: int, r: int, q: Props)
    requires Paired(es) && 0 <= k < |es| && 0 <= r < |es| && k != r
    requires es[r].src == es[k].tgt && es[r].tgt == es[k].src && es[r].props == es[k].props
    ensures Paired(es[k := es[k].(props := q)][r := es[r].(props := q)])
  {
    var es' := es[k := es[k].(props := q)][r := es[r].(props := q)];
    var e := es[k];
    assert Fwd(es') == Fwd(es)[k := Bond(e.src, e.tgt, q)][r := Bond(e.tgt, e.src, q)];
    assert Bwd(es') == Bwd(es)[k := Bond(e.tgt, e.src, q)][r := Bond(e.src, e.tgt, q)];
  }

  /** An edge touches node u when u is its source or its target. */
  predicate Touches(e: Edge, u: int)
  {
    e.src == u || e.tgt == u
  }

  /** `edges.filter(e => e.source != d && e.target != d)`. */
  function Detach(es: seq<Edge>, u: int): (r: seq<Edge>)
    ensures |r| <= |es|
    ensures forall j :: 0 <= j < |r| ==> !Touches(r[j], u)
    ensures forall j :: 0 <= j < |r| ==> r[j] in es
    ensures forall j :: 0 <= j < |es| && !Touches(es[j], u) ==> es[j] in r
  {
    if |es| == 0 then []
    else (if Touches(es[0], u) then [] else [es[0]]) + Detach(es[1..], u)
  }

  /** The number of edges touching u. */
  function Degree(es: seq<Edge>, u: int): nat
  {
    if |es| == 0 then 0 else (if Touches(es[0], u) then 1 else 0) + Degree(es[1..], u)
  }

  /** Detaching u removes exactly the edges that touch it. */
  lemma {:induction false} DetachCount(es: seq<Edge>, u: int)
    ensures |Detach(es, u)| == |es| - Degree(es, u)
  {
    if |es| > 0 {
      DetachCount(es[1..], u);
    }
  }

  lemma FwdConcat(a: seq<Edge>, b: seq<Edge>)
    ensures Fwd(a + b) == Fwd(a) + Fwd(b) && Bwd(a + b) == Bwd(a) + Bwd(b)
  {
  }

  /** Counting x in a list with one more bond in front. */
  lemma CountCons(b: Bond, t: seq<Bond>, x: Bond)
    ensures multiset([b] + t)[x] == (if b == x then 1 else 0) + multiset(t)[x]
  {
    assert multiset([b] + t) == multiset{b} + multiset(t);
  }

  /** Counting x among the bonds of a non-empty list: the head's share plus
      the rest's, forwards and backwards. */
  lemma CountHead(es: seq<Edge>, x: Bond)
    requires |es| > 0
    ensures multiset(Fwd(es))[x] ==
      (if Bond(es[0].src, es[0].tgt, es[0].props) == x then 1 else 0) + multiset(Fwd(es[1..]))[x]
    ensures multiset(Bwd(es))[x] ==
      (if Bond(es[0].tgt, es[0].src, es[0].props) == x then 1 else 0) + multiset(Bwd(es[1..]))[x]
  {
    assert es == [es[0]] + es[1..];
    FwdConcat([es[0]], es[1..]);
    CountCons(Bond(es[0].src, es[0].tgt, es[0].props), Fwd(es[1..]), x);
    CountCons(Bond(es[0].tgt, es[0].src, es[0].props), Bwd(es[1..]), x);
  }

  /** Detaching u from a non-empty list keeps the head exactly when it does
      not touch u. */
  lemma DetachHead(es: seq<Edge>, u: int)
    requires |es| > 0
    ensures Detach(es, u) == if Touches(es[0], u) then Detach(es[1..], u) else [es[0]] + Detach(es[1..], u)
  {
    assert [] + Detach(es[1..], u) == Detach(es[1..], u);
  }

  /** The bonds that survive detaching u, counted one by one. */
  lemma {:induction false} DetachFwd(es: seq<Edge>, u: int, x: Bond)
    ensures multiset(Fwd(Detach(es, u)))[x] ==
      if x.src == u || x.tgt == u then 0 else multiset(Fwd(es))[x]
  {
    if |es| > 0 {
      DetachFwd(es[1..], u, x);
      CountHead(es, x);
      DetachHead(es, u);
      if !Touches(es[0], u) {
        CountHead([es[0]] + Detach(es[1..], u), x);
        assert ([es[0]] + Detach(es[1..], u))[1..] == Detach(es[1..], u);
      }
    }
  }

  lemma {:induction false} DetachBwd(es: seq<Edge>, u: int, x: Bond)
    ensures multiset(Bwd(Detach(es, u)))[x] ==
      if x.src == u || x.tgt == u then 0 else multiset(Bwd(es))[x]
  {
    if |es| > 0 {
      DetachBwd(es[1..], u, x);
      CountHead(es, x);
      DetachHead(es, u);
      if !Touches(es[0], u) {
        CountHead([es[0]] + Detach(es[1..], u), x);
        assert ([es[0]] + Detach(es[1..], u))[1..] == Detach(es[1..], u);
      }
    }
  }

  /** Removing every edge that touches a node keeps the list paired. */
  lemma DetachKeepsPaired(es: seq<Edge>, u: int)
    requires Paired(es)
    ensures Paired(Detach(es, u))
  {
    forall x: Bond ensures multiset(Fwd(Detach(es, u)))[x] == multiset(Bwd(Detach(es, u)))[x] {
      DetachFwd(es, u, x);
      DetachBwd(es, u, x);
    }
  }

  // ---------------------------------------------------------------------
  // The lookup as written loses the pairing
  // ---------------------------------------------------------------------

  /** Clicking edge k as graph.ts does: edge k and the first edge with swapped
      endpoints each advance their own one-hot property. (The lookup runs
      after edge k has advanced; it ignores properties, so it finds the same
      edge as a lookup before.) */
  function ClickAsWritten(es: seq<Edge>, k: int): (r: seq<Edge>)
    requires 0 <= k < |es|
    requires ReverseEdgeAsWritten(es, es[k]) >= 0
    ensures |r| == |es|
  {
    var es1 := es[k := es[k].(props := NextOneHot(es[k].props))];
    var j := ReverseEdgeAsWritten(es, es[k]);
    es1[j := es1[j].(props := NextOneHot(es1[j].props))]
  }

  /** The `removeEdge` closure as written (graph.ts:320-329): splice out
      edge k, look its reverse up in what is left with `reverseEdge` as
      written, and splice that out; when none is found, `indexOf` gives -1
      and `splice(-1, 1)` drops the last edge. */
  function RemoveAsWritten(es: seq<Edge>, k: int): (r: seq<Edge>)
    requires 0 <= k < |es|
    ensures |r| == if |es| >= 2 then |es| - 2 else 0
  {
    var rest := Without(es, k);
    var j := ReverseEdgeAsWritten(rest, es[k]);
    if j >= 0 then Without(rest, j)
    else if |rest| > 0 then Without(rest, |rest| - 1)
    else rest
  }

  /** Bond types 0, 1 and 2 of a four-type bond map. */
  const TypeA: Props := [Prop("prop_0", 1), Prop("prop_2", 0), Prop("prop_3", 0), Prop("prop_4", 0)]
  const TypeB: Props := [Prop("prop_0", 0), Prop("prop_2", 1), Prop("prop_3", 0), Prop("prop_4", 0)]
  const TypeC: Props := [Prop("prop_0", 0), Prop("prop_2", 0), Prop("prop_3", 1), Prop("prop_4", 0)]

  /** Two bonds between atoms 0 and 1, one of type A and one of type B. In
      the editor: drag from atom 1 onto atom 0 twice (each drag ends with the
      edges 0 -> 1, 1 -> 0), then click the second 0 -> 1 edge once; the
      click as written advances it and the first 1 -> 0 edge. Edges running
      from the higher to the lower atom are hidden (graph.ts:86), and the four
      edges lie on one line, so the mouse reaches only edge 2 of this list:
      edge 0, clicked below, lies under it. BondThenJoin is the list on
      which the mouse itself shows the finding. */
  const TwoBonds: seq<Edge> :=
    [Edge(0, 1, TypeA, false), Edge(1, 0, TypeB, false), Edge(0, 1, TypeB, false), Edge(1, 0, TypeA, false)]

  /** TwoBonds is paired: it is two bonds of type A, appended as pairs, with
      the middle pair advanced together. */
  lemma TwoBondsPaired()
    ensures Paired(TwoBonds) && NoSelfLoops(TwoBonds)
  {
    var one := [Edge(0, 1, TypeA, false), Edge(1, 0, TypeA, false)];
    AppendPairKeepsPaired([], 0, 1, TypeA, false, false);
    assert [] + one == one;
    AppendPairKeepsPaired(one, 0, 1, TypeA, false, false);
    var two := one + [Edge(0, 1, TypeA, false), Edge(1, 0, TypeA, false)];
    UpdatePairKeepsPaired(two, 1, 2, TypeB);
    assert two[1 := two[1].(props := TypeB)][2 := two[2].(props := TypeB)] == TwoBonds;
  }

  /** One step moves a one-hot map to the map with the same keys that is hot
      one position further on. */
  lemma StepTo(p: Props, q: Props, n: int)
    requires OneHotAt(p, n) && OneHotAt(q, Succ(n, |p|)) && Keys(p) == Keys(q)
    ensures NextOneHot(p) == q
  {
    OneHotAtIdx(p, n);
    OneHotDetermined(NextOneHot(p), q, Succ(n, |p|));
  }

  lemma TypeSteps()
    ensures NextOneHot(TypeA) == TypeB && NextOneHot(TypeB) == TypeC
  {
    assert Keys(TypeA) == Keys(TypeB) == Keys(TypeC) == ["prop_0", "prop_2", "prop_3", "prop_4"];
    StepTo(TypeA, TypeB, 0);
    StepTo(TypeB, TypeC, 1);
  }

  /** TwoBonds after clicking edge 0 as written. */
  const ClickedTwoBonds: seq<Edge> :=
    [Edge(0, 1, TypeB, false), Edge(1, 0, TypeC, false), Edge(0, 1, TypeB, false), Edge(1, 0, TypeA, false)]

  /** The lookup as written pairs edge 0 with edge 1, which belongs to the
      other bond. */
  lemma ClickTwoBonds()
    ensures ReverseEdgeAsWritten(TwoBonds, TwoBonds[0]) == 1
    ensures ClickAsWritten(TwoBonds, 0) == ClickedTwoBonds
  {
    TypeSteps();
  }

  /** 0 -> 1 holds type B while 1 -> 0 holds only types C and A: edge 0 has
      no partner, so the list cannot be paired. */
  lemma ClickedUnpaired()
    ensures !Paired(ClickedTwoBonds)
  {
    var c := ClickedTwoBonds;
    assert TypeC != TypeB by { assert TypeC[1] != TypeB[1]; }
    assert TypeA != TypeB by { assert TypeA[0] != TypeB[0]; }
    assert ReverseEdge(c[3..], c[0]) == -1;
    assert ReverseEdge(c[1..], c[0]) == -1 by { assert c[1..][1..][1..] == c[3..]; }
    assert ReverseEdge(c, c[0]) == -1;
    if Paired(c) {
      ReverseEdgeFound(c, 0);
    }
  }

  /** Clicking the first edge as written advances it and the FIRST 1 -> 0
      edge, which belongs to the other bond, so the two directions no longer
      agree. */
  lemma ClickAsWrittenBreaksPairing()
    ensures Paired(TwoBonds) && NoSelfLoops(TwoBonds)
    ensures ReverseEdgeAsWritten(TwoBonds, TwoBonds[0]) == 1
    ensures !Paired(ClickAsWritten(TwoBonds, 0))
  {
    TwoBondsPaired();
    ClickTwoBonds();
    ClickedUnpaired();
  }

  /** TwoBonds after removing edge 0 as written: the 1 -> 0 edge of type B
      goes with it, and the type-B 0 -> 1 and type-A 1 -> 0 edges are left. */
  const RemovedTwoBonds: seq<Edge> := [Edge(0, 1, TypeB, false), Edge(1, 0, TypeA, false)]

  /** Removing edge 0 of TwoBonds as written removes one direction of each
      bond, and what is left is not paired. */
  lemma RemoveAsWrittenBreaksPairing()
    ensures Paired(TwoBonds) && NoSelfLoops(TwoBonds)
    ensures RemoveAsWritten(TwoBonds, 0) == RemovedTwoBonds
    ensures !Paired(RemoveAsWritten(TwoBonds, 0))
  {
    TwoBondsPaired();
    var rest := Without(TwoBonds, 0);
    assert rest == [Edge(1, 0, TypeB, false), Edge(0, 1, TypeB, false), Edge(1, 0, TypeA, false)];
    assert ReverseEdgeAsWritten(rest, TwoBonds[0]) == 0;
    assert Without(rest, 0) == RemovedTwoBonds;
    RemovedUnpaired();
  }

  /** 0 -> 1 of type B has no 1 -> 0 partner of type B. */
  lemma RemovedUnpaired()
    ensures !Paired(RemovedTwoBonds)
  {
    var c := RemovedTwoBonds;
    assert TypeA != TypeB by { assert TypeA[0] != TypeB[0]; }
    assert ReverseEdge(c[1..], c[0]) == -1;
    assert ReverseEdge(c, c[0]) == -1;
    if Paired(c) {
      ReverseEdgeFound(c, 0);
    }
  }

  /** The corrected lookup finds edge 3, the true partner of edge 0, and
      clicking with it keeps the list paired. */
  lemma ClickCorrectedOnTwoBonds()
    ensures ReverseEdge(TwoBonds, TwoBonds[0]) == 3
  {
    var e := TwoBonds[0];
    assert TypeB != TypeA by { assert TypeB[0] != TypeA[0]; }
    assert ReverseEdge(TwoBonds[3..], e) == 0;
    assert ReverseEdge(TwoBonds[2..], e) == 1 by { assert TwoBonds[2..][1..] == TwoBonds[3..]; }
    assert ReverseEdge(TwoBonds[1..], e) == 2 by { assert TwoBonds[1..][1..] == TwoBonds[2..]; }
  }

  /** The edges the mouse leaves: drag from atom 1 onto atom 0 (edges
      0 -> 1, 1 -> 0 of type A), click the bond (its visible 0 -> 1 edge; it
      and its partner advance to B), drag again (a second pair of type A).
      The top visible edge is then edge 2, 0 -> 1 of type A. */
  const BondThenJoin: seq<Edge> :=
    [Edge(0, 1, TypeB, false), Edge(1, 0, TypeB, false), Edge(0, 1, TypeA, false), Edge(1, 0, TypeA, false)]

  lemma BondThenJoinPaired()
    ensures Paired(BondThenJoin) && NoSelfLoops(BondThenJoin)
  {
    var one := [Edge(0, 1, TypeA, false), Edge(1, 0, TypeA, false)];
    AppendPairKeepsPaired([], 0, 1, TypeA, false, false);
    assert [] + one == one;
    UpdatePairKeepsPaired(one, 0, 1, TypeB);
    var bond := one[0 := one[0].(props := TypeB)][1 := one[1].(props := TypeB)];
    AppendPairKeepsPaired(bond, 0, 1, TypeA, false, false);
    assert bond + [Edge(0, 1, TypeA, false), Edge(1, 0, TypeA, false)] == BondThenJoin;
  }

  /** Clicking the top visible edge, edge 2, as written advances it and the
      FIRST 1 -> 0 edge, which belongs to the other bond: the result is
      ClickedTwoBonds, which is not paired. */
  lemma ClickTopBreaksPairing()
    ensures Paired(BondThenJoin) && NoSelfLoops(BondThenJoin)
    ensures ReverseEdgeAsWritten(BondThenJoin, BondThenJoin[2]) == 1
    ensures ClickAsWritten(BondThenJoin, 2) == ClickedTwoBonds
    ensures !Paired(ClickAsWritten(BondThenJoin, 2))
  {
    BondThenJoinPaired();
    TypeSteps();
    ClickedUnpaired();
  }

  /** Removing the top visible edge, edge 2, as written also removes the
      first 1 -> 0 edge, of the other bond: the result is RemovedTwoBonds,
      which is not paired. */
  lemma RemoveTopBreaksPairing()
    ensures Paired(BondThenJoin) && NoSelfLoops(BondThenJoin)
    ensures RemoveAsWritten(BondThenJoin, 2) == RemovedTwoBonds
    ensures !Paired(RemoveAsWritten(BondThenJoin, 2))
  {
    BondThenJoinPaired();
    var rest := Without(BondThenJoin, 2);
    assert rest == [Edge(0, 1, TypeB, false), Edge(1, 0, TypeB, false), Edge(1, 0, TypeA, false)];
    assert ReverseEdgeAsWritten(rest, BondThenJoin[2]) == 1;
    assert Without(rest, 1) == RemovedTwoBonds;
    RemovedUnpaired();
  }
}

=== FILE: editor.dfy ===
/** The molecule editor of the playground (graph.ts `Graph`): the list edits
    it makes to its graph data in response to drags, clicks and the close
    buttons, without the d3 rendering and the force simulation. */
module Editor {
  import opened Results
  import opened Props
  import opened GraphData
  import opened Bonds
  import opened Featurization

  /** graph.ts `Mode`. */
  datatype Mode = Add | Remove

  /** A drag in Add mode that has started and not yet ended: the graph data
      before it started, the dragged node d (by identity) and the pointer
      position at the start. */
  datatype Gesture = Gesture(pre: GraphData, d: int, sx: real, sy: real)

  /** An identity that no node of the list has: a new JavaScript object. */
  function FreshUid(nodes: seq<Node>): (u: int)
    ensures forall j :: 0 <= j < |nodes| ==> nodes[j].uid < u
  {
    if |nodes| == 0 then 0
    else
      var rest := FreshUid(nodes[1..]);
      if nodes[0].uid < rest then rest else nodes[0].uid + 1
  }

  /** The data the editor keeps between gestures: no repeated node, every
      edge between two nodes of the list, no self-loop, and each bond stored
      as two directed edges with equal properties. */
  predicate WellFormed(g: GraphData)
  {
    DistinctUids(g.nodes) &&
    (forall i :: 0 <= i < |g.edges| ==> g.edges[i].src in Uids(g.nodes) && g.edges[i].tgt in Uids(g.nodes)) &&
    NoSelfLoops(g.edges) && Paired(g.edges)
  }

  /** No node is still being added and no edge is still dotted. */
  predicate Committed(g: GraphData)
  {
    (forall j :: 0 <= j < |g.nodes| ==> !g.nodes[j].adding) &&
    (forall i :: 0 <= i < |g.edges| ==> !g.edges[i].dotted)
  }

  /** The editor's data can be handed to the encoder. */
  lemma WellFormedLinked(g: GraphData)
    requires WellFormed(g)
    ensures Linked(g)
  {
    forall i | 0 <= i < |g.edges|
      ensures PosOf(g.nodes, g.edges[i].src) >= 0 && PosOf(g.nodes, g.edges[i].tgt) >= 0
    {
      PosOfFound(g.nodes, g.edges[i].src);
      PosOfFound(g.nodes, g.edges[i].tgt);
    }
  }

  /** The node that a drag start in Add mode appends (graph.ts:196-207),
      with its current position x, y and the given `adding` flag. */
  function NewNode(gs: Gesture, cfg: Config, x: real, y: real, initX: real, initY: real, adding: bool): Node
  {
    Node(FreshUid(gs.pre.nodes), Some(|gs.pre.nodes|), cfg.nodeDefaultProps, x, y, initX, initY, false, adding)
  }

  /** The two edges that join the new node u and d: u -> d, then d -> u. */
  function NewEdges(u: int, d: int, cfg: Config, dotted: bool): seq<Edge>
  {
    [Edge(u, d, cfg.edgeDefaultProps, dotted), Edge(d, u, cfg.edgeDefaultProps, dotted)]
  }

  /** The data during a drag: the data before it, plus the provisional node
      (wherever the pointer has moved it) and its two dotted edges. */
  predicate DuringGesture(g: GraphData, gs: Gesture, cfg: Config)
  {
    WellFormed(gs.pre) && Committed(gs.pre) && gs.d in Uids(gs.pre.nodes) &&
    |g.nodes| == |gs.pre.nodes| + 1 &&
    g.nodes[..|gs.pre.nodes|] == gs.pre.nodes &&
    g.nodes[|gs.pre.nodes|] == NewNode(gs, cfg, g.nodes[|gs.pre.nodes|].x, g.nodes[|gs.pre.nodes|].y, gs.sx, gs.sy, true) &&
    g.edges == gs.pre.edges + NewEdges(FreshUid(gs.pre.nodes), gs.d, cfg, true)
  }

  /** graph.ts:240: a drag that ends within 20 units of the dragged node on
      both axes is a click. */
  predicate IsClick(d: Node, px: real, py: real)
  {
    -20.0 < d.x - px < 20.0 && -20.0 < d.y - py < 20.0
  }

  /** The nested `progress` of graph.ts `progressOneHotIdx`: zero every key,
      then set the key after the current one-hot key, wrapping round. */
  method Progress(p: Props) returns (q: Props)
    ensures q == NextOneHot(p)
  {
    var idx := OneHotIdx(p);
    q := p;
    var i := 0;
    while i < |q|
      invariant 0 <= i <= |q| == |p|
      invariant forall j :: 0 <= j < |q| ==> q[j].key == p[j].key
      invariant forall j :: 0 <= j < i ==> q[j].value == 0
    {
      q := q[i := Prop(q[i].key, 0)];
      i := i + 1;
    }
    if |q| == 0 {
      // keys[NaN] is undefined, and the assignment adds that key
      q := [Prop("undefined", 1)];
    } else {
      var next := (idx + 1) % |q|;
      SuccIsMod(idx, |q|);
      q := q[next := Prop(q[next].key, 1)];
      assert Keys(q) == Keys(NextOneHot(p));
      OneHotDetermined(q, NextOneHot(p), next);
    }
  }

  class Graph {
    var data: GraphData
    var origData: GraphData
    var mode: Mode
    const config: Config
    /** The graphs passed to `molEditedCallback`, oldest first. */
    var edits: seq<GraphData>
    /** The drag in progress, if any: d3 always delivers start, any number
        of drags, then end, for one node at a time. */
    ghost var gesture: Option<Gesture>

    ghost predicate Valid()
      reads this
    {
      WellFormed(data) && WellFormed(origData) && Committed(origData) &&
      match gesture
      case None => Committed(data)
      case Some(gs) => mode == Add && DuringGesture(data, gs, config)
    }

    /** graph.ts constructor: any data is taken as it is, with a snapshot of
        it; the editor is in a valid state exactly when that data is well
        formed and committed. */
    constructor (g: GraphData, cfg: Config)
      ensures data == g && origData == g && config == cfg
      ensures mode == Add && edits == [] && gesture == None
      ensures Valid() <==> WellFormed(g) && Committed(g)
    {
      data := g;
      origData := g;
      config := cfg;
      mode := Add;
      edits := [];
      gesture := None;
    }

    method SetMode(m: Mode)
      requires Valid() && gesture.None?
      modifies this
      ensures mode == m
      ensures data == old(data) && origData == old(origData) && edits == old(edits) && gesture == old(gesture)
      ensures Valid()
    {
      mode := m;
    }

    /** A click on edge k advances its properties and those of its partner,
        the reverse edge with the same properties (corrected lookup, see
        Bonds.ClickAsWrittenBreaksPairing). The callback is not called. */
    method ClickEdge(k: int)
      requires Valid() && gesture.None? && 0 <= k < |data.edges|
      modifies this
      ensures var es := old(data.edges);
        var j := ReverseEdge(es, es[k]);
        0 <= j < |es| && j != k &&
        data == old(data).(edges := es[k := es[k].(props := NextOneHot(es[k].props))]
                                     [j := es[j].(props := NextOneHot(es[j].props))])
      ensures data.edges[k].props == data.edges[ReverseEdge(old(data.edges), old(data.edges[k]))].props
      ensures origData == old(origData) && mode == old(mode) && edits == old(edits) && gesture == old(gesture)
      ensures Valid()
    {
      var es := data.edges;
      ReverseEdgeFound(es, k);
      var j := ReverseEdge(es, es[k]);
      var q := Progress(es[k].props);
      var r := Progress(es[j].props);
      ClickPairKept(data, k);
      data := data.(edges := es[k := es[k].(props := q)][j := es[j].(props := r)]);
    }

    /** d3 drag start on node k. In Add mode a provisional node is appended
        with id = the node count, default properties and the pointer position,
        joined to node k by two dotted edges, new -> d then d -> new. */
    method DragStart(k: int, px: real, py: real)
      requires Valid() && gesture.None? && 0 <= k < |data.nodes|
      modifies this
      ensures old(mode) == Add ==>
        var gs := Gesture(old(data), old(data.nodes[k].uid), px, py);
        gesture == Some(gs) &&
        data.nodes == old(data.nodes) + [NewNode(gs, config, px, py, px, py, true)] &&
        data.edges == old(data.edges) + NewEdges(FreshUid(old(data.nodes)), old(data.nodes[k].uid), config, true)
      ensures old(mode) == Remove ==> data == old(data) && gesture == None
      ensures origData == old(origData) && mode == old(mode) && edits == old(edits)
      ensures Valid()
    {
      if mode == Add {
        var d := data.nodes[k].uid;
        var u := FreshUid(data.nodes);
        var gs := Gesture(data, d, px, py);
        var n := NewNode(gs, config, px, py, px, py, true);
        assert Uids(data.nodes + [n]) == Uids(data.nodes) + [u];
        AppendPairKeepsPaired(data.edges, u, d, config.edgeDefaultProps, true, true);
        gesture := Some(gs);
        data := GraphData(data.nodes + [n], data.edges + NewEdges(u, d, config, true));
        assert data.nodes[..|gs.pre.nodes|] == gs.pre.nodes;
      }
    }

    /** d3 drag: in Add mode the provisional (last) node follows the pointer. */
    method Dragged(px: real, py: real)
      requires Valid() && (mode == Add ==> gesture.Some?)
      modifies this
      ensures old(mode) == Add ==>
        var last := |old(data.nodes)| - 1;
        0 <= last && data == old(data).(nodes := old(data.nodes)[last := old(data.nodes)[last].(x := px, y := py)])
      ensures old(mode) == Remove ==> data == old(data)
      ensures origData == old(origData) && mode == old(mode) && edits == old(edits) && gesture == old(gesture)
      ensures Valid()
    {
      if mode == Add {
        var last := |data.nodes| - 1;
        data := data.(nodes := data.nodes[last := data.nodes[last].(x := px, y := py)]);
        assert data.nodes[..|gesture.value.pre.nodes|] == gesture.value.pre.nodes;
        assert Uids(data.nodes) == Uids(old(data.nodes));
      }
    }

    /** d3 drag end on node k, with the pointer at px, py and `hover` the
        node under the pointer, if any. A click advances node k's properties
        and drops the provisional node and edges; a drop on another node
        joins that node and k instead; otherwise the provisional node stays.
        The callback receives the data in every case, in both modes. */
    method DragEnd(k: int, px: real, py: real, hover: Option<int>)
      requires Valid() && 0 <= k < |data.nodes|
      requires mode == Add ==>
        gesture.Some? && data.nodes[k].uid == gesture.value.d &&
        (hover.Some? ==> hover.value in Uids(gesture.value.pre.nodes))
      modifies this
      ensures old(mode) == Add && IsClick(old(data.nodes[k]), px, py) ==>
        var pre := old(gesture).value.pre;
        k < |pre.nodes| &&
        data == GraphData(pre.nodes[k := pre.nodes[k].(props := NextOneHot(pre.nodes[k].props))], pre.edges)
      ensures old(mode) == Add && !IsClick(old(data.nodes[k]), px, py) && hover.Some? && hover.value != old(gesture).value.d ==>
        var gs := old(gesture).value;
        data == GraphData(gs.pre.nodes, gs.pre.edges + NewEdges(hover.value, gs.d, config, false))
      ensures old(mode) == Add && !IsClick(old(data.nodes[k]), px, py) && !(hover.Some? && hover.value != old(gesture).value.d) ==>
        var gs := old(gesture).value;
        var last := old(data.nodes[|data.nodes| - 1]);
        data == GraphData(gs.pre.nodes + [NewNode(gs, config, last.x, last.y, px, py, false)],
                          gs.pre.edges + NewEdges(FreshUid(gs.pre.nodes), gs.d, config, false))
      ensures old(mode) == Remove ==> data == old(data)
      ensures edits == old(edits) + [data]
      ensures origData == old(origData) && mode == old(mode) && gesture == None
      ensures Valid()
    {
      if mode == Add {
        var dn := data.nodes[k];
        if -20.0 < dn.x - px < 20.0 && -20.0 < dn.y - py < 20.0 {
          EndAsClick(k);
        } else if hover.Some? && hover.value != dn.uid {
          EndByConnecting(hover.value);
        } else {
          EndByKeeping(px, py);
        }
      }
      edits := edits + [data];
    }

    /** The click branch of a drag end: node k advances, and the provisional
        node and its two edges are popped. */
    method EndAsClick(k: int)
      requires Valid() && gesture.Some? && 0 <= k < |data.nodes| && data.nodes[k].uid == gesture.value.d
      modifies this
      ensures var pre := old(gesture).value.pre;
        k < |pre.nodes| &&
        data == GraphData(pre.nodes[k := pre.nodes[k].(props := NextOneHot(pre.nodes[k].props))], pre.edges)
      ensures origData == old(origData) && mode == old(mode) && edits == old(edits) && gesture == None
      ensures Valid()
    {
      ghost var gs := gesture.value;
      ghost var g0 := data;
      var n, m := |data.nodes|, |data.edges|;
      var dn := data.nodes[k];
      var q := Progress(dn.props);
      ClickEnd(g0, gs, config, k, q);
      var nodes := data.nodes[k := dn.(props := q)];
      data := GraphData(nodes[..n - 1], data.edges[..m - 2]);
      assert data == GraphData(g0.nodes[k := g0.nodes[k].(props := q)][..|g0.nodes| - 1], g0.edges[..|g0.edges| - 2]);
      gesture := None;
    }

    /** The connect branch: the last edge d -> new now ends at the hovered
        node h, the one before it runs from h back to d, and the provisional
        node is popped. */
    method EndByConnecting(h: int)
      requires Valid() && gesture.Some? && h in Uids(gesture.value.pre.nodes) && h != gesture.value.d
      modifies this
      ensures var gs := old(gesture).value;
        data == GraphData(gs.pre.nodes, gs.pre.edges + NewEdges(h, gs.d, config, false))
      ensures origData == old(origData) && mode == old(mode) && edits == old(edits) && gesture == None
      ensures Valid()
    {
      ghost var gs := gesture.value;
      ghost var g0 := data;
      ConnectEnd(g0, gs, config, h);
      var n, m := |data.nodes|, |data.edges|;
      var es := data.edges;
      var lastEdge := es[m - 1].(tgt := h);
      var secondEdge := es[m - 2].(src := lastEdge.tgt, tgt := lastEdge.src);
      es := es[m - 2 := secondEdge][m - 1 := lastEdge];
      var nodes := data.nodes[..n - 1];
      nodes := nodes[|nodes| - 1 := nodes[|nodes| - 1].(adding := false)];
      es := es[m - 1 := es[m - 1].(dotted := false)][m - 2 := es[m - 2].(dotted := false)];
      data := GraphData(nodes, es);
      gesture := None;
    }

    /** The keep branch: the provisional node stays, its start position set
        to where the drag ended, and its edges become solid. */
    method EndByKeeping(px: real, py: real)
      requires Valid() && gesture.Some?
      modifies this
      ensures var gs := old(gesture).value;
        var last := old(data.nodes[|data.nodes| - 1]);
        data == GraphData(gs.pre.nodes + [NewNode(gs, config, last.x, last.y, px, py, false)],
                          gs.pre.edges + NewEdges(FreshUid(gs.pre.nodes), gs.d, config, false))
      ensures origData == old(origData) && mode == old(mode) && edits == old(edits) && gesture == None
      ensures Valid()
    {
      ghost var gs := gesture.value;
      ghost var g0 := data;
      KeepEnd(g0, gs, config, px, py);
      var n, m := |data.nodes|, |data.edges|;
      var es := data.edges;
      var nodes := data.nodes[n - 1 := data.nodes[n - 1].(initX := px, initY := py)];
      nodes := nodes[|nodes| - 1 := nodes[|nodes| - 1].(adding := false)];
      es := es[m - 1 := es[m - 1].(dotted := false)][m - 2 := es[m - 2].(dotted := false)];
      data := GraphData(nodes, es);
      gesture := None;
    }

    /** The close button of node k: every edge touching it goes, then the
        node itself; the callback receives the data. */
    method RemoveNode(k: int)
      requires Valid() && gesture.None? && 0 <= k < |data.nodes|
      modifies this
      ensures data == GraphData(Without(old(data.nodes), k), Detach(old(data.edges), old(data.nodes[k].uid)))
      ensures edits == old(edits) + [data]
      ensures origData == old(origData) && mode == old(mode) && gesture == old(gesture)
      ensures Valid()
    {
      var u := data.nodes[k].uid;
      RemoveNodeKept(data, k);
      data := GraphData(Without(data.nodes, k), Detach(data.edges, u));
      edits := edits + [data];
    }

    /** The close button of edge k: the edge goes, then its partner in the
        remaining list; the callback receives the data. */
    method RemoveEdge(k: int)
      requires Valid() && gesture.None? && 0 <= k < |data.edges|
      modifies this
      ensures var rest := Without(old(data.edges), k);
        var j := ReverseEdge(rest, old(data.edges[k]));
        0 <= j < |rest| && data == old(data).(edges := Without(rest, j))
      ensures edits == old(edits) + [data]
      ensures origData == old(origData) && mode == old(mode) && gesture == old(gesture)
      ensures Valid()
    {
      var e := data.edges[k];
      var rest := Without(data.edges, k);
      RemovePairKept(data, k);
      var j := ReverseEdge(rest, e);
      data := data.(edges := Without(rest, j));
      edits := edits + [data];
    }

    /** graph.ts `updateData`: new data, whatever it is, and a snapshot of
        it to reset to; the editor is valid afterwards exactly when that data
        is well formed and committed. */
    method UpdateData(g: GraphData)
      requires gesture.None?
      modifies this
      ensures data == g && origData == g
      ensures mode == old(mode) && edits == old(edits) && gesture == old(gesture)
      ensures Valid() <==> WellFormed(g) && Committed(g)
    {
      data := g;
      origData := g;
    }

    /** graph.ts `resetData`: back to the snapshot, which stays as it was.
        It goes through `updateData`, which does not call the callback. */
    method ResetData()
      requires Valid() && gesture.None?
      modifies this
      ensures data == old(origData) && origData == old(origData)
      ensures mode == old(mode) && edits == old(edits) && gesture == old(gesture)
      ensures Valid()
    {
      UpdateData(origData);
    }
  }

  /** Removing a node with every edge touching it keeps the data well
      formed and committed. */
  lemma RemoveNodeKept(g: GraphData, k: int)
    requires WellFormed(g) && Committed(g) && 0 <= k < |g.nodes|
    ensures var g' := GraphData(Without(g.nodes, k), Detach(g.edges, g.nodes[k].uid));
      WellFormed(g') && Committed(g')
  {
    var u := g.nodes[k].uid;
    var es := Detach(g.edges, u);
    var ns := Without(g.nodes, k);
    DetachKeepsPaired(g.edges, u);
    DetachedEndpoints(g, k);
    WithoutDistinct(g.nodes, k);
    assert forall i :: 0 <= i < |es| ==> !es[i].dotted by {
      assert forall i :: 0 <= i < |es| ==> es[i] in g.edges;
    }
  }

  /** After node k and its edges go, every edge left joins two remaining
      nodes. */
  lemma DetachedEndpoints(g: GraphData, k: int)
    requires WellFormed(g) && 0 <= k < |g.nodes|
    ensures var es := Detach(g.edges, g.nodes[k].uid);
      forall i :: 0 <= i < |es| ==> es[i].src in Uids(Without(g.nodes, k)) && es[i].tgt in Uids(Without(g.nodes, k))
  {
    var es := Detach(g.edges, g.nodes[k].uid);
    forall i | 0 <= i < |es|
      ensures es[i].src in Uids(Without(g.nodes, k)) && es[i].tgt in Uids(Without(g.nodes, k))
    {
      assert es[i] in g.edges;
      RemainingUid(g.nodes, k, es[i].src);
      RemainingUid(g.nodes, k, es[i].tgt);
    }
  }

  /** Dropping a node keeps the identifiers distinct. */
  lemma WithoutDistinct(nodes: seq<Node>, k: int)
    requires DistinctUids(nodes) && 0 <= k < |nodes|
    ensures DistinctUids(Without(nodes, k))
  {
    var ns := Without(nodes, k);
    forall i, j | 0 <= i < j < |ns|
      ensures ns[i].uid != ns[j].uid
    {
      assert ns[i] == nodes[if i < k then i else i + 1];
      assert ns[j] == nodes[if j < k then j else j + 1];
    }
  }

  /** Advancing an edge and its partner together keeps the data well formed
      and committed. */
  lemma ClickPairKept(g: GraphData, k: int)
    requires WellFormed(g) && Committed(g) && 0 <= k < |g.edges|
    ensures var es := g.edges;
      var j := ReverseEdge(es, es[k]);
      0 <= j < |es| && j != k &&
      var g' := g.(edges := es[k := es[k].(props := NextOneHot(es[k].props))][j := es[j].(props := NextOneHot(es[j].props))]);
      WellFormed(g') && Committed(g')
  {
    var es := g.edges;
    ReverseEdgeFound(es, k);
    var j := ReverseEdge(es, es[k]);
    UpdatePairKeepsPaired(es, k, j, NextOneHot(es[k].props));
    var es' := es[k := es[k].(props := NextOneHot(es[k].props))][j := es[j].(props := NextOneHot(es[j].props))];
    assert forall i :: 0 <= i < |es| ==> es'[i].src == es[i].src && es'[i].tgt == es[i].tgt && es'[i].dotted == es[i].dotted;
  }

  /** Removing an edge and then its partner keeps the data well formed and
      committed. */
  lemma RemovePairKept(g: GraphData, k: int)
    requires WellFormed(g) && Committed(g) && 0 <= k < |g.edges|
    ensures var rest := Without(g.edges, k);
      var j := ReverseEdge(rest, g.edges[k]);
      0 <= j < |rest| &&
      WellFormed(g.(edges := Without(rest, j))) && Committed(g.(edges := Without(rest, j)))
  {
    RemovePairKeepsPaired(g.edges, k);
    var rest := Without(g.edges, k);
    var j := ReverseEdge(rest, g.edges[k]);
    var es := Without(rest, j);
    forall i | 0 <= i < |es|
      ensures es[i] in g.edges
    {
      assert es[i] in rest;
    }
  }

  /** A node other than the one removed is still in the list. */
  lemma RemainingUid(nodes: seq<Node>, k: int, x: int)
    requires DistinctUids(nodes) && 0 <= k < |nodes|
    requires x in Uids(nodes) && x != nodes[k].uid
    ensures x in Uids(Without(nodes, k))
  {
    var j :| 0 <= j < |nodes| && Uids(nodes)[j] == x;
    var j' := if j < k then j else j - 1;
    assert Without(nodes, k)[j'] == nodes[j];
  }

  /** The click branch of a drag end: dropping the provisional node and its
      edges after advancing node k gives the data before the drag with only
      node k's properties changed. */
  lemma ClickEnd(g: GraphData, gs: Gesture, cfg: Config, k: int, q: Props)
    requires DuringGesture(g, gs, cfg) && 0 <= k < |g.nodes| && g.nodes[k].uid == gs.d
    ensures k < |gs.pre.nodes| && |g.edges| >= 2
    ensures var r := GraphData(g.nodes[k := g.nodes[k].(props := q)][..|g.nodes| - 1], g.edges[..|g.edges| - 2]);
      r == GraphData(gs.pre.nodes[k := gs.pre.nodes[k].(props := q)], gs.pre.edges) &&
      WellFormed(r) && Committed(r)
  {
    var pre := gs.pre;
    assert Uids(g.nodes) == Uids(pre.nodes) + [FreshUid(pre.nodes)];
    assert k < |pre.nodes| by {
      assert g.nodes[|pre.nodes|].uid == FreshUid(pre.nodes);
      assert gs.d in Uids(pre.nodes);
    }
    var r := GraphData(g.nodes[k := g.nodes[k].(props := q)][..|g.nodes| - 1], g.edges[..|g.edges| - 2]);
    assert r.nodes == pre.nodes[k := pre.nodes[k].(props := q)];
    assert r.edges == pre.edges;
    assert Uids(r.nodes) == Uids(pre.nodes);
  }

  /** The connect branch: the provisional edges now join the hovered node h
      and d, and the provisional node is dropped. */
  lemma ConnectEnd(g: GraphData, gs: Gesture, cfg: Config, h: int)
    requires DuringGesture(g, gs, cfg) && h in Uids(gs.pre.nodes) && h != gs.d
    ensures |g.nodes| >= 1 && |g.edges| >= 2
    ensures var m := |g.edges|;
      var lastEdge := g.edges[m - 1].(tgt := h);
      var secondEdge := g.edges[m - 2].(src := lastEdge.tgt, tgt := lastEdge.src);
      var es := g.edges[m - 2 := secondEdge][m - 1 := lastEdge];
      var ns := g.nodes[..|g.nodes| - 1];
      var r := GraphData(ns[|ns| - 1 := ns[|ns| - 1].(adding := false)],
                         es[m - 1 := es[m - 1].(dotted := false)][m - 2 := es[m - 2].(dotted := false)]);
      |ns| >= 1 && r == GraphData(gs.pre.nodes, gs.pre.edges + NewEdges(h, gs.d, cfg, false)) &&
      WellFormed(r) && Committed(r)
  {
    var pre := gs.pre;
    var m := |g.edges|;
    var lastEdge := g.edges[m - 1].(tgt := h);
    var secondEdge := g.edges[m - 2].(src := lastEdge.tgt, tgt := lastEdge.src);
    var es := g.edges[m - 2 := secondEdge][m - 1 := lastEdge];
    var ns := g.nodes[..|g.nodes| - 1];
    assert ns == pre.nodes;
    assert |ns| >= 1 by { assert gs.d in Uids(pre.nodes); }
    assert ns[|ns| - 1].(adding := false) == ns[|ns| - 1];
    assert ns[|ns| - 1 := ns[|ns| - 1].(adding := false)] == pre.nodes;
    assert es[m - 1 := es[m - 1].(dotted := false)][m - 2 := es[m - 2].(dotted := false)]
      == pre.edges + NewEdges(h, gs.d, cfg, false);
    AppendPairKeepsPaired(pre.edges, h, gs.d, cfg.edgeDefaultProps, false, false);
  }

  /** The keep branch: the provisional node stays, with its start position
      set to where the drag ended, and its edges become solid. */
  lemma KeepEnd(g: GraphData, gs: Gesture, cfg: Config, px: real, py: real)
    requires DuringGesture(g, gs, cfg)
    ensures |g.nodes| >= 1 && |g.edges| >= 2
    ensures var n, m := |g.nodes|, |g.edges|;
      var ns := g.nodes[n - 1 := g.nodes[n - 1].(initX := px, initY := py)];
      var es := g.edges;
      var r := GraphData(ns[|ns| - 1 := ns[|ns| - 1].(adding := false)],
                         es[m - 1 := es[m - 1].(dotted := false)][m - 2 := es[m - 2].(dotted := false)]);
      r == GraphData(gs.pre.nodes + [NewNode(gs, cfg, g.nodes[n - 1].x, g.nodes[n - 1].y, px, py, false)],
                     gs.pre.edges + NewEdges(FreshUid(gs.pre.nodes), gs.d, cfg, false)) &&
      WellFormed(r) && Committed(r)
  {
    var pre := gs.pre;
    var n, m := |g.nodes|, |g.edges|;
    var u := FreshUid(pre.nodes);
    var nn := NewNode(gs, cfg, g.nodes[n - 1].x, g.nodes[n - 1].y, px, py, false);
    var ns := g.nodes[n - 1 := g.nodes[n - 1].(initX := px, initY := py)];
    assert g.nodes == pre.nodes + [g.nodes[n - 1]];
    assert ns[|ns| - 1 := ns[|ns| - 1].(adding := false)] == pre.nodes + [nn];
    assert Uids(pre.nodes + [nn]) == Uids(pre.nodes) + [u];
    var es := g.edges;
    assert es[m - 1 := es[m - 1].(dotted := false)][m - 2 := es[m - 2].(dotted := false)]
      == pre.edges + NewEdges(u, gs.d, cfg, false);
    AppendPairKeepsPaired(pre.edges, u, gs.d, cfg.edgeDefaultProps, false, false);
  }
}

=== FILE: featurization.dfy ===
/** The tensor bridge of the playground (featurization.ts): a graph becomes
    the seven named arrays the graph network takes as input, and such arrays
    become a graph again. */
module Featurization {
  import opened Props
  import opened Results
  import opened GraphData
  import opened Strings

  /** A tensor's value: a list of rows, or a flat list of numbers. */
  datatype TensorValue = Matrix(rows: seq<seq<int>>) | Vector(items: seq<int>)

  /** `{name, dtype, value}` as `wrapVal` builds it. */
  datatype Tensor = Tensor(name: string, dtype: string, value: TensorValue)

  /** Default property maps for new nodes and new edges. */
  datatype Config = Config(nodeDefaultProps: Props, edgeDefaultProps: Props)

  /** The order in which the encoder lists its tensors and the decoder reads them. */
  const TensorNames: seq<string> := ["nodes", "edges", "receivers", "senders", "globals", "n_node", "n_edge"]

  /** `makeTestConfig`: both defaults are the map
      {prop_0: 1, prop_2: 0, prop_3: 0, prop_4: 0}. */
  function MakeTestConfig(): (c: Config)
    ensures c.nodeDefaultProps == c.edgeDefaultProps
    ensures Keys(c.nodeDefaultProps) == ["prop_0", "prop_2", "prop_3", "prop_4"]
    ensures DistinctKeys(c.nodeDefaultProps) && OneHotAt(c.nodeDefaultProps, 0)
  {
    var p := [Prop("prop_0", 1), Prop("prop_2", 0), Prop("prop_3", 0), Prop("prop_4", 0)];
    assert Keys(p) == ["prop_0", "prop_2", "prop_3", "prop_4"];
    Config(p, p)
  }

  // ---------------------------------------------------------------------
  // Encoding
  // ---------------------------------------------------------------------

  /** `graphToTensors`. A row of `nodes` or `edges` is `Object.values` of the
      element's properties; `receivers` and `senders` hold the position, in
      the same node list, of each edge's target and source (the `index` the
      layout gives every node it simulates). `globals` is a fixed placeholder. */
  function GraphToTensors(g: GraphData): (ts: seq<Tensor>)
    requires Linked(g)
    ensures |ts| == 7
    ensures forall k :: 0 <= k < 7 ==> ts[k].name == TensorNames[k]
    ensures ts[0].dtype == ts[1].dtype == ts[4].dtype == "float32"
    ensures ts[2].dtype == ts[3].dtype == ts[5].dtype == ts[6].dtype == "int32"
    ensures ts[0].value.Matrix? && |ts[0].value.rows| == |g.nodes|
    ensures forall j :: 0 <= j < |g.nodes| ==> ts[0].value.rows[j] == Values(g.nodes[j].props)
    ensures ts[1].value.Matrix? && |ts[1].value.rows| == |g.edges|
    ensures forall i :: 0 <= i < |g.edges| ==> ts[1].value.rows[i] == Values(g.edges[i].props)
    ensures ts[2].value.Vector? && |ts[2].value.items| == |g.edges|
    ensures ts[3].value.Vector? && |ts[3].value.items| == |g.edges|
    ensures forall i :: 0 <= i < |g.edges| ==>
      var r, s := ts[2].value.items[i], ts[3].value.items[i];
      0 <= r < |g.nodes| && g.nodes[r].uid == g.edges[i].tgt &&
      0 <= s < |g.nodes| && g.nodes[s].uid == g.edges[i].src
    ensures ts[4].value == Matrix([[0]])
    ensures ts[5].value == Vector([|g.nodes|]) && ts[6].value == Vector([|g.edges|])
  {
    var nodes := seq(|g.nodes|, j requires 0 <= j < |g.nodes| => Values(g.nodes[j].props));
    var edges := seq(|g.edges|, i requires 0 <= i < |g.edges| => Values(g.edges[i].props));
    var receivers := seq(|g.edges|, i requires 0 <= i < |g.edges| => PosOf(g.nodes, g.edges[i].tgt));
    var senders := seq(|g.edges|, i requires 0 <= i < |g.edges| => PosOf(g.nodes, g.edges[i].src));
    [ Tensor("nodes", "float32", Matrix(nodes)),
      Tensor("edges", "float32", Matrix(edges)),
      Tensor("receivers", "int32", Vector(receivers)),
      Tensor("senders", "int32", Vector(senders)),
      Tensor("globals", "float32", Matrix([[0]])),
      Tensor("n_node", "int32", Vector([|g.nodes|])),
      Tensor("n_edge", "int32", Vector([|g.edges|])) ]
  }

  // ---------------------------------------------------------------------
  // Decoding
  // ---------------------------------------------------------------------

  datatype DecodeError =
    | TooFewTensors          // the destructuring finds no `n_edge` tensor
    | Malformed(tensor: string) // a row or entry the loop reads is missing or has the wrong shape

  /** The key the decoder gives the k-th value of a row: `prop_${k}`. */
  function PropKey(k: nat): string
  {
    "prop_" + NatToString(k)
  }

  lemma PropKeyInjective(a: nat, b: nat)
    requires PropKey(a) == PropKey(b)
    ensures a == b
  {
    assert NatToString(a) == PropKey(a)[5..] == PropKey(b)[5..] == NatToString(b);
    NatToStringInjective(a, b);
  }

  /** The property map the decoder builds from one row: the values in order,
      under the keys prop_0, prop_1, ... */
  function Positional(row: seq<int>): (p: Props)
    ensures Values(p) == row
    ensures forall k :: 0 <= k < |p| ==> p[k].key == PropKey(k)
    ensures DistinctKeys(p)
  {
    var p := seq(|row|, k requires 0 <= k < |row| => Prop(PropKey(k), row[k]));
    forall a, b | 0 <= a < b < |p| ensures p[a].key != p[b].key {
      if p[a].key == p[b].key {
        PropKeyInjective(a, b);
      }
    }
    p
  }

  /** The rows `forEach` visits: a list of rows, or an empty flat list.
      A non-empty flat list has numbers for rows, on which `forEach` throws. */
  function RowsOf(v: TensorValue): Option<seq<seq<int>>>
  {
    match v
    case Matrix(rows) => Some(rows)
    case Vector(items) => if |items| == 0 then Some([]) else None
  }

  /** The number of times `for (let i = 0; i < tNumEdges.value; i++)` runs.
      The comparison turns the array into the string of its entries joined
      by commas and then into a number: one entry gives that entry, no entry
      gives 0, and several give NaN, against which `<` is false. */
  function EdgeCount(v: TensorValue): (m: nat)
  {
    match v
    case Vector(items) => if |items| == 1 && items[0] > 0 then items[0] else 0
    case Matrix(rows) => if |rows| == 1 && |rows[0]| == 1 && rows[0][0] > 0 then rows[0][0] else 0
  }

  /** The node `tensorsToGraph` pushes for row j: only `properties` is set.
      The node's identity is its position in the decoded list. */
  function DecodedNode(j: nat, row: seq<int>): Node
  {
    Node(j, None, Positional(row), 0.0, 0.0, 0.0, 0.0, false, false)
  }

  /** Step i of the edge loop finds row i of `edges` and entry i of
      `senders` and `receivers`. */
  predicate EdgeReadable(ts: seq<Tensor>, i: nat)
    requires |ts| >= 7
  {
    ts[1].value.Matrix? && i < |ts[1].value.rows| &&
    ts[3].value.Vector? && i < |ts[3].value.items| &&
    ts[2].value.Vector? && i < |ts[2].value.items|
  }

  /** The graph `tensorsToGraph` returns, or the reason it cannot. Edge i
      reads row i of `edges` and entry i of `senders` and `receivers`, for
      i below the `n_edge` count; the `globals` and `n_node` tensors are not
      read. */
  function Decoded(ts: seq<Tensor>): (r: Result<GraphData, DecodeError>)
    ensures r.Success? ==> |ts| >= 7 && RowsOf(ts[0].value).Some?
    ensures r.Success? ==> |r.value.nodes| == |RowsOf(ts[0].value).value|
    ensures r.Success? ==> |r.value.edges| == EdgeCount(ts[6].value)
    ensures r.Success? ==> forall j :: 0 <= j < |r.value.nodes| ==>
      r.value.nodes[j].uid == j && r.value.nodes[j].props == Positional(RowsOf(ts[0].value).value[j])
    ensures r.Success? ==> forall i :: 0 <= i < |r.value.edges| ==>
      EdgeReadable(ts, i) &&
      r.value.edges[i].src == ts[3].value.items[i] && r.value.edges[i].tgt == ts[2].value.items[i] &&
      r.value.edges[i].props == Positional(ts[1].value.rows[i])
    ensures r.Failure? <==>
      |ts| < 7 || RowsOf(ts[0].value).None? ||
      (EdgeCount(ts[6].value) > 0 && !EdgeReadable(ts, EdgeCount(ts[6].value) - 1))
  {
    if |ts| < 7 then Failure(TooFewTensors)
    else if RowsOf(ts[0].value).None? then Failure(Malformed("nodes"))
    else
      var nrows := RowsOf(ts[0].value).value;
      var m := EdgeCount(ts[6].value);
      var nodes := seq(|nrows|, j requires 0 <= j < |nrows| => DecodedNode(j, nrows[j]));
      if m == 0 then Success(GraphData(nodes, []))
      else if !ts[1].value.Matrix? || |ts[1].value.rows| < m then Failure(Malformed("edges"))
      else if !ts[3].value.Vector? || |ts[3].value.items| < m then Failure(Malformed("senders"))
      else if !ts[2].value.Vector? || |ts[2].value.items| < m then Failure(Malformed("receivers"))
      else
        var erows, senders, receivers := ts[1].value.rows, ts[3].value.items, ts[2].value.items;
        var edges := seq(m, i requires 0 <= i < m =>
          Edge(senders[i], receivers[i], Positional(erows[i]), false));
        Success(GraphData(nodes, edges))
  }

  /** `tensorsToGraph`: pushes one node per row of the nodes tensor and one
      edge per step of the `n_edge` loop, writing each row's values under
      prop_0, prop_1, ... */
  method TensorsToGraph(ts: seq<Tensor>) returns (r: Result<GraphData, DecodeError>)
    ensures r == Decoded(ts)
  {
    if |ts| < 7 {
      return Failure(TooFewTensors);
    }
    var rows := RowsOf(ts[0].value);
    if rows.None? {
      return Failure(Malformed("nodes"));
    }
    var nrows := rows.value;
    var nodes: seq<Node> := [];
    var j := 0;
    while j < |nrows|
      invariant 0 <= j <= |nrows|
      invariant nodes == seq(j, q requires 0 <= q < j => DecodedNode(q, nrows[q]))
    {
      var props := RowProps(nrows[j]);
      nodes := nodes + [Node(j, None, props, 0.0, 0.0, 0.0, 0.0, false, false)];
      j := j + 1;
    }
    var m := EdgeCount(ts[6].value);
    var edges: seq<Edge> := [];
    var i := 0;
    while i < m
      invariant 0 <= i <= m && |edges| == i
      invariant i > 0 ==> ts[1].value.Matrix? && |ts[1].value.rows| >= m
      invariant i > 0 ==> ts[3].value.Vector? && |ts[3].value.items| >= m
      invariant i > 0 ==> ts[2].value.Vector? && |ts[2].value.items| >= m
      invariant forall q :: 0 <= q < i ==>
        edges[q] == Edge(ts[3].value.items[q], ts[2].value.items[q], Positional(ts[1].value.rows[q]), false)
    {
      if !ts[1].value.Matrix? || |ts[1].value.rows| < m {
        return Failure(Malformed("edges"));
      }
      if !ts[3].value.Vector? || |ts[3].value.items| < m {
        return Failure(Malformed("senders"));
      }
      if !ts[2].value.Vector? || |ts[2].value.items| < m {
        return Failure(Malformed("receivers"));
      }
      var source := ts[3].value.items[i];
      var target := ts[2].value.items[i];
      var props := RowProps(ts[1].value.rows[i]);
      edges := edges + [Edge(source, target, props, false)];
      i := i + 1;
    }
    r := Success(GraphData(nodes, edges));
    if m > 0 {
      assert edges == seq(m, q requires 0 <= q < m =>
        Edge(ts[3].value.items[q], ts[2].value.items[q], Positional(ts[1].value.rows[q]), false));
    }
  }

  /** `row.forEach((j, prop) => { properties[`prop_${prop}`] = j })`. */
  method RowProps(row: seq<int>) returns (p: Props)
    ensures p == Positional(row)
  {
    p := [];
    var k := 0;
    while k < |row|
      invariant 0 <= k <= |row|
      invariant p == seq(k, q requires 0 <= q < k => Prop(PropKey(q), row[q]))
    {
      p := p + [Prop(PropKey(k), row[k])];
      k := k + 1;
    }
  }

  // ---------------------------------------------------------------------
  // Round trip
  // ---------------------------------------------------------------------

  /** Decoding an encoding keeps the number of nodes and edges, every node's
      and edge's property values in order, and every edge's endpoints: the
      decoded edge's source and target are the positions of the original
      endpoints. The keys come back renamed prop_0, prop_1, ... */
  lemma {:induction false} RoundTrip(g: GraphData)
    requires Linked(g)
    ensures Decoded(GraphToTensors(g)).Success?
    ensures var d := Decoded(GraphToTensors(g)).value;
      |d.nodes| == |g.nodes| && |d.edges| == |g.edges| &&
      (forall j :: 0 <= j < |g.nodes| ==>
        Values(d.nodes[j].props) == Values(g.nodes[j].props) &&
        Keys(d.nodes[j].props) == seq(|g.nodes[j].props|, k requires 0 <= k < |g.nodes[j].props| => PropKey(k)) &&
        d.nodes[j].uid == j) &&
      (forall i :: 0 <= i < |g.edges| ==>
        Values(d.edges[i].props) == Values(g.edges[i].props) &&
        0 <= d.edges[i].src < |g.nodes| && g.nodes[d.edges[i].src].uid == g.edges[i].src &&
        0 <= d.edges[i].tgt < |g.nodes| && g.nodes[d.edges[i].tgt].uid == g.edges[i].tgt)
  {
    var ts := GraphToTensors(g);
    assert RowsOf(ts[0].value) == Some(ts[0].value.rows);
    assert EdgeCount(ts[6].value) == |g.edges|;
    var d := Decoded(ts).value;
    forall j | 0 <= j < |g.nodes|
      ensures Keys(d.nodes[j].props) == seq(|g.nodes[j].props|, k requires 0 <= k < |g.nodes[j].props| => PropKey(k))
    {
      assert d.nodes[j] == DecodedNode(j, ts[0].value.rows[j]);
    }
  }

  /** When node identities are positions, as for a freshly decoded graph,
      a round trip returns every edge's endpoints unchanged. */
  lemma RoundTripEndpoints(g: GraphData)
    requires Linked(g) && forall j :: 0 <= j < |g.nodes| ==> g.nodes[j].uid == j
    ensures Decoded(GraphToTensors(g)).Success?
    ensures forall i :: 0 <= i < |g.edges| ==>
      Decoded(GraphToTensors(g)).value.edges[i].src == g.edges[i].src &&
      Decoded(GraphToTensors(g)).value.edges[i].tgt == g.edges[i].tgt
  {
    RoundTrip(g);
  }

  /** The test configuration's keys prop_0, prop_2, prop_3, prop_4 come back
      from a round trip as prop_0, prop_1, prop_2, prop_3: the values survive,
      the names do not. */
  lemma DefaultKeysRenamed(g: GraphData, j: nat)
    requires Linked(g) && j < |g.nodes| && g.nodes[j].props == MakeTestConfig().nodeDefaultProps
    ensures Values(Decoded(GraphToTensors(g)).value.nodes[j].props) == [1, 0, 0, 0]
    ensures Keys(Decoded(GraphToTensors(g)).value.nodes[j].props) == ["prop_0", "prop_1", "prop_2", "prop_3"]
    ensures Decoded(GraphToTensors(g)).value.nodes[j].props != g.nodes[j].props
  {
    RoundTrip(g);
    RenamedDefaults(Decoded(GraphToTensors(g)).value.nodes[j].props, g.nodes[j].props);
  }

  /** Properties with the default values under positional keys are not the defaults. */
  lemma RenamedDefaults(p: Props, q: Props)
    requires q == MakeTestConfig().nodeDefaultProps
    requires Values(p) == Values(q) && Keys(p) == seq(|q|, k requires 0 <= k < |q| => PropKey(k))
    ensures Values(p) == [1, 0, 0, 0]
    ensures Keys(p) == ["prop_0", "prop_1", "prop_2", "prop_3"]
    ensures p != q
  {
    assert Values(q) == [1, 0, 0, 0];
    FirstFourKeys();
    assert Keys(p)[1] == "prop_1" != Keys(q)[1];
  }

  /** The keys the decoder gives a row of four values. */
  lemma FirstFourKeys()
    ensures seq(4, k requires 0 <= k < 4 => PropKey(k)) == ["prop_0", "prop_1", "prop_2", "prop_3"]
  {
    assert PropKey(0) == "prop_0" && PropKey(1) == "prop_1" && PropKey(2) == "prop_2" && PropKey(3) == "prop_3";
  }

  /** Two carbon atoms joined by one single bond, stored as its two directed
      edges, encode to the arrays the model expects. */
  lemma EncodeTwoCarbons(g: GraphData)
    requires g == GraphData(
      [Node(7, Some(0), [Prop("C", 1), Prop("N", 0)], 0.0, 0.0, 0.0, 0.0, true, false),
       Node(9, Some(1), [Prop("C", 1), Prop("N", 0)], 0.0, 0.0, 0.0, 0.0, true, false)],
      [Edge(7, 9, [Prop("single", 1), Prop("double", 0)], false),
       Edge(9, 7, [Prop("single", 1), Prop("double", 0)], false)])
    ensures Linked(g)
    ensures GraphToTensors(g)[0].value == Matrix([[1, 0], [1, 0]])
    ensures GraphToTensors(g)[1].value == Matrix([[1, 0], [1, 0]])
    ensures GraphToTensors(g)[3].value == Vector([0, 1]) && GraphToTensors(g)[2].value == Vector([1, 0])
    ensures GraphToTensors(g)[5].value == Vector([2]) && GraphToTensors(g)[6].value == Vector([2])
  {
    assert PosOf(g.nodes, 7) == 0 && PosOf(g.nodes, 9) == 1;
    TwoCarbonFeatures(g);
    TwoCarbonIndices(g);
  }

  /** The feature rows of the two-carbon example. */
  lemma TwoCarbonFeatures(g: GraphData)
    requires Linked(g) && |g.nodes| == 2 && |g.edges| == 2
    requires forall j :: 0 <= j < 2 ==> g.nodes[j].props == [Prop("C", 1), Prop("N", 0)]
    requires forall i :: 0 <= i < 2 ==> g.edges[i].props == [Prop("single", 1), Prop("double", 0)]
    ensures GraphToTensors(g)[0].value == Matrix([[1, 0], [1, 0]])
    ensures GraphToTensors(g)[1].value == Matrix([[1, 0], [1, 0]])
    ensures GraphToTensors(g)[5].value == Vector([2]) && GraphToTensors(g)[6].value == Vector([2])
  {
    var ts := GraphToTensors(g);
    assert Values([Prop("C", 1), Prop("N", 0)]) == [1, 0];
    assert Values([Prop("single", 1), Prop("double", 0)]) == [1, 0];
    assert ts[0].value.rows == [[1, 0], [1, 0]];
    assert ts[1].value.rows == [[1, 0], [1, 0]];
  }

  /** The receiver and sender positions of the two-carbon example: the bond
      from the first atom to the second and the one back. */
  lemma TwoCarbonIndices(g: GraphData)
    requires Linked(g) && |g.nodes| == 2 && |g.edges| == 2
    requires g.nodes[0].uid == 7 && g.nodes[1].uid == 9
    requires g.edges[0].src == 7 && g.edges[0].tgt == 9 && g.edges[1].src == 9 && g.edges[1].tgt == 7
    ensures GraphToTensors(g)[3].value == Vector([0, 1]) && GraphToTensors(g)[2].value == Vector([1, 0])
  {
    var ts := GraphToTensors(g);
    assert ts[2].value.items == [1, 0];
    assert ts[3].value.items == [0, 1];
  }
}

=== FILE: graph_data.dfy ===
/** The playground's graph data (util.ts `Node`, `Edge`, `GraphData`).

    JavaScript nodes are objects and edges point at them by reference. Here a
    node carries `uid`, which stands for the object's identity: two entries
    with the same uid are the same object. The `id` field is the separate,
    visible number the code assigns (and which can repeat, see the editor),
    and an edge names its endpoints by uid. */
module GraphData {
  import opened Props
  import opened Results

  /** A node object. `id` is undefined (None) until it is assigned;
      coordinates that are undefined are 0.0, which JavaScript also treats
      as false in `if (d.initX)`. `processed` and `adding` are the flags
      that the loader and the editor set; an undefined flag is false. */
  datatype Node = Node(
    uid: int,
    id: Option<int>,
    props: Props,
    x: real, y: real,
    initX: real, initY: real,
    processed: bool,
    adding: bool)

  /** A directed edge from the node with uid `src` to the node with uid `tgt`.
      `dotted` marks an edge the editor has not committed yet. */
  datatype Edge = Edge(src: int, tgt: int, props: Props, dotted: bool)

  datatype GraphData = GraphData(nodes: seq<Node>, edges: seq<Edge>)

  /** `nodes.indexOf(node)` for the node with identity u: its first position,
      or -1 when no entry is that node. */
  function PosOf(nodes: seq<Node>, u: int): (r: int)
    ensures -1 <= r < |nodes|
    ensures r >= 0 ==> nodes[r].uid == u
    ensures forall j :: 0 <= j < |nodes| && (r == -1 || j < r) ==> nodes[j].uid != u
  {
    if |nodes| == 0 then -1
    else if nodes[0].uid == u then 0
    else
      var r := PosOf(nodes[1..], u);
      if r == -1 then -1 else r + 1
  }

  /** Each node object occurs once in the list. */
  predicate DistinctUids(nodes: seq<Node>)
  {
    forall i, j :: 0 <= i < j < |nodes| ==> nodes[i].uid != nodes[j].uid
  }

  /** Every edge joins two nodes of the list. */
  predicate Linked(g: GraphData)
  {
    forall i :: 0 <= i < |g.edges| ==> PosOf(g.nodes, g.edges[i].src) >= 0 && PosOf(g.nodes, g.edges[i].tgt) >= 0
  }

  /** In a list without repeated objects the position of a node is the one
      place that holds it. */
  lemma PosOfDistinct(nodes: seq<Node>, j: int)
    requires DistinctUids(nodes) && 0 <= j < |nodes|
    ensures PosOf(nodes, nodes[j].uid) == j
  {
  }

  /** The identities of the nodes, in list order. */
  function Uids(nodes: seq<Node>): (us: seq<int>)
    ensures |us| == |nodes|
    ensures forall j :: 0 <= j < |nodes| ==> us[j] == nodes[j].uid
  {
    seq(|nodes|, j requires 0 <= j < |nodes| => nodes[j].uid)
  }

  /** `indexOf` finds a node exactly when some entry is that node. */
  lemma {:induction false} PosOfFound(nodes: seq<Node>, u: int)
    ensures PosOf(nodes, u) >= 0 <==> u in Uids(nodes)
  {
    if u in Uids(nodes) {
      var j :| 0 <= j < |nodes| && Uids(nodes)[j] == u;
      assert nodes[j].uid == u;
    }
  }

  /** `splice(k, 1)`: the list without position k, the rest in order. */
  function Without<T>(s: seq<T>, k: int): (r: seq<T>)
    requires 0 <= k < |s|
    ensures |r| == |s| - 1
    ensures forall j :: 0 <= j < |r| ==> r[j] == (if j < k then s[j] else s[j + 1])
  {
    s[..k] + s[k + 1..]
  }
}

=== FILE: graph_to_tensor.dfy ===
/** The "graph to tensor" illustration (graph-to-tensor.js): eight nodes,
    one link per unordered pair of distinct nodes, and a global value, whose
    values the reader changes by clicking and whose entries light up on
    hover. Only the data is modelled, not the drawing. */
module GraphToTensor {
  import opened LinkIds

  /** A node: its number, its value (0 or 1) and whether it is hovered. */
  datatype FNode = FNode(i: nat, v: int, hover: bool)

  /** A link from node a to node b, with its identifier, its value (0, 1 or
      2), its hover flag and whether it is the last non-zero link. */
  datatype FLink = FLink(a: nat, b: nat, linkId: string, v: int, hover: bool, isLast: bool)

  /** The node values the figure starts with (graph-to-tensor.js:40). */
  const InitialValues: seq<int> := [0, 1, 1, 0, 0, 1, 1, 1]

  /** `random[c] < bound`; an entry past the table is undefined, and the
      comparison is then false. */
  predicate Below(draws: seq<real>, c: nat, bound: real)
  {
    c < |draws| && draws[c] < bound
  }

  /** A fresh link from a to b with value v. */
  function NewLink(a: nat, b: nat, v: int): FLink
  {
    FLink(a, b, LinkId(a, b), v, false, false)
  }

  /** One link's value drawn from the table at counter c (graph-to-tensor.js:49),
      and the counter afterwards. */
  function DrawValue(draws: seq<real>, c: nat): (r: (int, nat))
    ensures 0 <= r.0 <= 2 && c < r.1 <= c + 2
  {
    if Below(draws, c, 0.1) then (2, c + 1)
    else if Below(draws, c + 1, 0.2) then (1, c + 2)
    else (0, c + 2)
  }

  /** graph-to-tensor.js:49: a value of 2 with probability 0.1, else 1 with
      probability 0.2, else 0, consuming one or two draws from counter c. */
  method DrawLinkValue(draws: seq<real>, c: nat) returns (v: int, c': nat)
    ensures (v, c') == DrawValue(draws, c)
  {
    v := 0;
    c' := c;
    var first := Below(draws, c', 0.1);
    c' := c' + 1;
    if first {
      v := 2;
    } else {
      var second := Below(draws, c', 0.2);
      c' := c' + 1;
      if second {
        v := 1;
      }
    }
  }

  /** Row a of `d3.cross(nodes, nodes)`, columns 0 .. b-1, appended to the
      links and counter in acc; only pairs with a > column make a link. */
  function Row(a: nat, b: nat, draws: seq<real>, acc: (seq<FLink>, nat)): (seq<FLink>, nat)
    decreases b
  {
    if b == 0 then acc
    else
      var (ls, c) := Row(a, b - 1, draws, acc);
      if a <= b - 1 then (ls, c)
      else
        var (v, c') := DrawValue(draws, c);
        (ls + [NewLink(a, b - 1, v)], c')
  }

  /** Rows 0 .. a-1 of the cross product of n nodes, counter starting at 3. */
  function Rows(a: nat, n: nat, draws: seq<real>): (seq<FLink>, nat)
  {
    if a == 0 then ([], 3) else Row(a - 1, n, draws, Rows(a - 1, n, draws))
  }

  /** The link list built at graph-to-tensor.js:44-52 for n nodes. */
  method MakeLinks(n: nat, draws: seq<real>) returns (links: seq<FLink>)
    ensures links == Rows(n, n, draws).0
  {
    links := [];
    var c: nat := 3;
    var a := 0;
    while a < n
      invariant 0 <= a <= n
      invariant (links, c) == Rows(a, n, draws)
    {
      var b := 0;
      while b < n
        invariant 0 <= b <= n
        invariant (links, c) == Row(a, b, draws, Rows(a, n, draws))
      {
        if a > b {
          var v;
          v, c := DrawLinkValue(draws, c);
          links := links + [NewLink(a, b, v)];
        }
        b := b + 1;
      }
      a := a + 1;
    }
  }

  /** (a, b) comes before (a', b') in row-major order. */
  predicate PairLess(x: FLink, y: FLink)
  {
    x.a < y.a || (x.a == y.a && x.b < y.b)
  }

  /** Every link joins a higher to a lower node, comes before row a column
      b, carries its identifier, a value 0 .. 2 and no flags. */
  predicate Shaped(ls: seq<FLink>, a: nat, b: nat)
  {
    forall k :: 0 <= k < |ls| ==>
      ls[k].b < ls[k].a && (ls[k].a < a || (ls[k].a == a && ls[k].b < b)) &&
      ls[k].linkId == LinkId(ls[k].a, ls[k].b) && 0 <= ls[k].v <= 2 && !ls[k].hover && !ls[k].isLast
  }

  predicate Increasing(ls: seq<FLink>)
  {
    forall k, k' :: 0 <= k < k' < |ls| ==> PairLess(ls[k], ls[k'])
  }

  /** Some link runs from x to y. */
  ghost predicate HasLink(ls: seq<FLink>, x: nat, y: nat)
  {
    exists k :: 0 <= k < |ls| && ls[k].a == x && ls[k].b == y
  }

  /** Every pair y < x before row a column b has its link. */
  ghost predicate Covers(ls: seq<FLink>, a: nat, b: nat)
  {
    forall x: nat, y: nat :: y < x && (x < a || (x == a && y < b)) ==> HasLink(ls, x, y)
  }

  lemma {:induction false} RowShape(a: nat, b: nat, draws: seq<real>, acc: (seq<FLink>, nat))
    requires Shaped(acc.0, a, 0) && Increasing(acc.0) && Covers(acc.0, a, 0)
    ensures var ls := Row(a, b, draws, acc).0;
      Shaped(ls, a, b) && Increasing(ls) && Covers(ls, a, b)
    decreases b
  {
    if b > 0 {
      RowShape(a, b - 1, draws, acc);
      var r := Row(a, b - 1, draws, acc);
      if a > b - 1 {
        var d := DrawValue(draws, r.1);
        assert Row(a, b, draws, acc).0 == r.0 + [NewLink(a, b - 1, d.0)];
        AppendLink(r.0, a, b - 1, d.0);
      } else {
        assert Row(a, b, draws, acc).0 == r.0;
      }
    }
  }

  /** Appending the link of row a column b keeps the list shaped, increasing
      and covering, one column further. */
  lemma AppendLink(ls: seq<FLink>, a: nat, b: nat, v: int)
    requires b < a && 0 <= v <= 2
    requires Shaped(ls, a, b) && Increasing(ls) && Covers(ls, a, b)
    ensures var ls' := ls + [NewLink(a, b, v)];
      Shaped(ls', a, b + 1) && Increasing(ls') && Covers(ls', a, b + 1)
  {
    var ls' := ls + [NewLink(a, b, v)];
    assert Shaped(ls', a, b + 1) by {
      assert forall k :: 0 <= k < |ls| ==> ls'[k] == ls[k];
    }
    AppendIncreasing(ls, a, b, v);
    AppendCovers(ls, a, b, v);
  }

  lemma AppendIncreasing(ls: seq<FLink>, a: nat, b: nat, v: int)
    requires Shaped(ls, a, b) && Increasing(ls)
    ensures Increasing(ls + [NewLink(a, b, v)])
  {
    var ls' := ls + [NewLink(a, b, v)];
    forall k, k' | 0 <= k < k' < |ls'| ensures PairLess(ls'[k], ls'[k']) {
      assert ls'[k] == ls[k];
      if k' < |ls| {
        assert ls'[k'] == ls[k'];
      }
    }
  }

  lemma AppendCovers(ls: seq<FLink>, a: nat, b: nat, v: int)
    requires Covers(ls, a, b)
    ensures Covers(ls + [NewLink(a, b, v)], a, b + 1)
  {
    var ls' := ls + [NewLink(a, b, v)];
    assert HasLink(ls', a, b) by { assert ls'[|ls|].a == a && ls'[|ls|].b == b; }
    forall x: nat, y: nat | y < x && (x < a || (x == a && y < b + 1)) ensures HasLink(ls', x, y) {
      if x < a || y < b {
        assert HasLink(ls, x, y);
        var k :| 0 <= k < |ls| && ls[k].a == x && ls[k].b == y;
        assert ls'[k] == ls[k];
      }
    }
  }

  lemma {:induction false} RowsShape(a: nat, n: nat, draws: seq<real>)
    requires a <= n
    ensures var ls := Rows(a, n, draws).0;
      Shaped(ls, a, 0) && Increasing(ls) && Covers(ls, a, 0)
  {
    if a > 0 {
      RowsShape(a - 1, n, draws);
      RowShape(a - 1, n, draws, Rows(a - 1, n, draws));
      var ls := Rows(a, n, draws).0;
      forall x: nat, y: nat | y < x && x < a ensures HasLink(ls, x, y) {
        assert x < a - 1 || (x == a - 1 && y < n);
      }
    }
  }

  /** The initial links: each joins a higher-numbered node to a lower one,
      every pair of distinct nodes has its link, and no two links share an
      identifier, so each unordered pair appears exactly once. */
  lemma InitialLinks(n: nat, draws: seq<real>)
    ensures var ls := Rows(n, n, draws).0;
      (forall k :: 0 <= k < |ls| ==>
        ls[k].b < ls[k].a < n && ls[k].linkId == LinkId(ls[k].a, ls[k].b) &&
        0 <= ls[k].v <= 2 && !ls[k].hover && !ls[k].isLast) &&
      (forall x: nat, y: nat :: y < x < n ==> HasLink(ls, x, y)) &&
      DistinctIds(ls)
  {
    RowsShape(n, n, draws);
    var ls := Rows(n, n, draws).0;
    forall k, k' | 0 <= k < k' < |ls| ensures ls[k].linkId != ls[k'].linkId {
      if ls[k].linkId == ls[k'].linkId {
        LinkIdDetermines(ls[k].a, ls[k].b, ls[k'].a, ls[k'].b);
      }
    }
  }

  /** No two links share an identifier. */
  predicate DistinctIds(ls: seq<FLink>)
  {
    forall k, k' :: 0 <= k < k' < |ls| ==> ls[k].linkId != ls[k'].linkId
  }

  /** The figure's links: each from a higher to a lower of n nodes, with its
      identifier and a value 0 .. 2, and no identifier twice. */
  predicate WellLinked(ls: seq<FLink>, n: nat)
  {
    (forall k :: 0 <= k < |ls| ==>
      ls[k].b < ls[k].a < n && ls[k].linkId == LinkId(ls[k].a, ls[k].b) && 0 <= ls[k].v <= 2) &&
    DistinctIds(ls)
  }

  /** Giving link k a new value keeps the links well formed, and link k is
      the only one with its identifier. */
  lemma SetValueKeepsIds(ls: seq<FLink>, k: int, x: int, n: nat)
    requires WellLinked(ls, n) && 0 <= k < |ls| && 0 <= x <= 2
    ensures WellLinked(ls[k := ls[k].(v := x)], n)
    ensures forall t :: 0 <= t < |ls| && t != k ==> ls[t].linkId != ls[k].linkId
  {
  }

  /** Syncing every link with link k's identifier to k's new value changes
      link k alone, since identifiers are distinct. */
  lemma SyncTouchesOnly(links: seq<FLink>, k: int, d: FLink, ls: seq<FLink>)
    requires DistinctIds(links) && 0 <= k < |links| && d.linkId == links[k].linkId
    requires |ls| == |links|
    requires forall t :: 0 <= t < |links| ==>
      ls[t] == if links[k := d][t].linkId == d.linkId then links[k := d][t].(v := d.v) else links[k := d][t]
    ensures ls == links[k := d]
  {
    forall t | 0 <= t < |links|
      ensures ls[t] == links[k := d][t]
    {
      if t != k {
        assert links[t].linkId != links[k].linkId by {
          if t < k {} else {}
        }
      }
    }
  }

  /** The new links, written link by link against the old ones. */
  lemma SyncByIdForm(links: seq<FLink>, k: int, x: int, ls: seq<FLink>)
    requires DistinctIds(links) && 0 <= k < |links|
    requires ls == links[k := links[k].(v := x)]
    ensures forall j :: 0 <= j < |links| ==>
      ls[j] == if links[j].linkId == links[k].linkId then links[j].(v := x) else links[j]
  {
    forall j | 0 <= j < |links| && j != k
      ensures links[j].linkId != links[k].linkId
    {
      if j < k {} else {}
    }
  }

  /** Hovering every link with link k's identifier hovers link k alone. */
  lemma HoverTouchesOnly(links: seq<FLink>, k: int, ls: seq<FLink>)
    requires DistinctIds(links) && 0 <= k < |links| && |ls| == |links|
    requires forall j :: 0 <= j < |links| ==> ls[j].hover == (links[j].linkId == links[k].linkId)
    ensures forall j :: 0 <= j < |links| ==> (ls[j].hover <==> j == k)
  {
    forall j | 0 <= j < |links| && j != k
      ensures !ls[j].hover
    {
      if j < k {} else {}
    }
  }

  /** `d.v = (d.v + 1) % 2` for a node or the global. */
  function NextBit(v: int): (r: int)
    requires 0 <= v <= 1
    ensures 0 <= r <= 1 && r != v
  {
    (v + 1) % 2
  }

  /** A link's new value after a click (graph-to-tensor.js:231-235): the
      next of 0, 1, 2; a self-link drops to 0; a click in the numeric list
      never leaves 0, taking 1 instead. */
  function NextLinkValue(v: int, selfLink: bool, fromNum: bool): (r: int)
    requires 0 <= v <= 2
    ensures 0 <= r <= 2
    ensures fromNum ==> r != 0
    ensures selfLink && !fromNum ==> r == 0
    ensures !selfLink && !fromNum ==> r != v
  {
    var r := (v + 1) % 3;
    var r := if selfLink then 0 else r;
    if r == 0 && fromNum then 1 else r
  }

  /** Three clicks on a link in the drawing cycle its value back. */
  lemma ThreeClicksCycle(v: int)
    requires 0 <= v <= 2
    ensures NextLinkValue(NextLinkValue(NextLinkValue(v, false, false), false, false), false, false) == v
  {
  }

  /** Clicks in the numeric list alternate between 1 and 2. */
  lemma NumClicksAlternate(v: int)
    requires 0 <= v <= 2
    ensures NextLinkValue(v, false, true) == (if v == 1 then 2 else 1)
  {
  }

  /** The last non-zero link in list order (`links.filter(d => d.v).slice(-1)`). */
  predicate IsLastNonZero(ls: seq<FLink>, k: int)
  {
    0 <= k < |ls| && ls[k].v != 0 && forall j :: k < j < |ls| ==> ls[j].v == 0
  }

  /** At most one link is the last non-zero one, and there is one as soon as
      some link is non-zero. */
  lemma LastNonZeroUnique(ls: seq<FLink>, k: int, j: int)
    requires IsLastNonZero(ls, k) && IsLastNonZero(ls, j)
    ensures k == j
  {
  }

  lemma {:induction false} LastNonZeroExists(ls: seq<FLink>, k: int)
    requires 0 <= k < |ls| && ls[k].v != 0
    ensures exists j :: k <= j < |ls| && IsLastNonZero(ls, j)
    decreases |ls| - k
  {
    if !IsLastNonZero(ls, k) {
      var j :| k < j < |ls| && ls[j].v != 0;
      LastNonZeroExists(ls, j);
    }
  }

  class Figure {
    var nodes: seq<FNode>
    var links: seq<FLink>
    var globalV: int
    var globalHover: bool

    ghost predicate Valid()
      reads this
    {
      (forall k :: 0 <= k < |nodes| ==> nodes[k].i == k && 0 <= nodes[k].v <= 1) &&
      WellLinked(links, |nodes|) &&
      0 <= globalV <= 1
    }

    /** The figure as first drawn, with `draws` for the `random` table. */
    constructor (draws: seq<real>)
      ensures |nodes| == |InitialValues|
      ensures forall k :: 0 <= k < |nodes| ==> nodes[k] == FNode(k, InitialValues[k], false)
      ensures links == Rows(|InitialValues|, |InitialValues|, draws).0
      ensures globalV == 0 && !globalHover
      ensures Valid()
    {
      var ls := MakeLinks(|InitialValues|, draws);
      nodes := seq(|InitialValues|, k requires 0 <= k < |InitialValues| => FNode(k, InitialValues[k], false));
      links := ls;
      globalV := 0;
      globalHover := false;
      InitialLinks(|InitialValues|, draws);
    }

    method IncClickNode(k: int)
      requires Valid() && 0 <= k < |nodes|
      modifies this
      ensures nodes == old(nodes)[k := old(nodes[k]).(v := NextBit(old(nodes[k].v)))]
      ensures links == old(links) && globalV == old(globalV) && globalHover == old(globalHover)
      ensures Valid()
    {
      nodes := nodes[k := nodes[k].(v := (nodes[k].v + 1) % 2)];
    }

    method IncClickGlobal()
      requires Valid()
      modifies this
      ensures globalV == NextBit(old(globalV))
      ensures nodes == old(nodes) && links == old(links) && globalHover == old(globalHover)
      ensures Valid()
    {
      globalV := (globalV + 1) % 2;
    }

    /** A click on link k, in the drawing or (fromNum) in the numeric list:
        the link takes its next value and every link with its identifier is
        set to it. Identifiers are distinct, so only link k changes. */
    method IncClickLink(k: int, fromNum: bool)
      requires Valid() && 0 <= k < |links|
      modifies this
      ensures |links| == |old(links)|
      ensures var d := old(links[k]);
        forall j :: 0 <= j < |links| ==>
          links[j] == if old(links[j]).linkId == d.linkId then old(links[j]).(v := NextLinkValue(d.v, d.a == d.b, fromNum)) else old(links[j])
      ensures links == old(links)[k := old(links[k]).(v := NextLinkValue(old(links[k].v), false, fromNum))]
      ensures nodes == old(nodes) && globalV == old(globalV) && globalHover == old(globalHover)
      ensures Valid()
    {
      var d := links[k];
      var v := (d.v + 1) % 3;
      if d.a == d.b {
        v := 0;
      }
      if v == 0 && fromNum {
        v := 1;
      }
      assert v == NextLinkValue(links[k].v, links[k].a == links[k].b, fromNum);
      d := d.(v := v);
      var ls := SyncById(links[k := d], d.linkId, v);
      SetValueKeepsIds(links, k, v, |nodes|);
      SyncTouchesOnly(links, k, d, ls);
      SyncByIdForm(links, k, v, ls);
      links := ls;
    }

    /** Hovering node k: no other node and not the global is hovered; the
        link flags stay as they were. */
    method SetHoverNode(k: int)
      requires Valid() && 0 <= k < |nodes|
      modifies this
      ensures |nodes| == |old(nodes)|
      ensures forall j :: 0 <= j < |nodes| ==> nodes[j] == old(nodes[j]).(hover := j == k)
      ensures !globalHover
      ensures links == old(links) && globalV == old(globalV)
      ensures Valid()
    {
      var ns := Unhovered(nodes);
      nodes := ns[k := ns[k].(hover := true)];
      globalHover := false;
    }

    /** Hovering the global: it alone is hovered, among nodes and links
        (no link has the global's identifier, which is undefined). */
    method SetHoverGlobal()
      requires Valid()
      modifies this
      ensures |nodes| == |old(nodes)| && |links| == |old(links)|
      ensures forall j :: 0 <= j < |nodes| ==> nodes[j] == old(nodes[j]).(hover := false)
      ensures forall j :: 0 <= j < |links| ==> links[j] == old(links[j]).(hover := false)
      ensures globalHover && globalV == old(globalV)
      ensures Valid()
    {
      nodes := Unhovered(nodes);
      globalHover := false;  // `globalVal.hover = false`, then `d.hover = true` with d the global
      globalHover := true;
      var ls := RehoverLinks(links, (e: FLink) => false);
      RelabelKeeps(links, ls, |nodes|);
      links := ls;
    }

    /** Hovering link k: no node and not the global is hovered, and exactly
        the links with k's identifier (k alone) are. */
    method SetHoverLink(k: int)
      requires Valid() && 0 <= k < |links|
      modifies this
      ensures |links| == |old(links)|
      ensures forall j :: 0 <= j < |links| ==> links[j] == old(links[j]).(hover := old(links[j]).linkId == old(links[k]).linkId)
      ensures forall j :: 0 <= j < |links| ==> (links[j].hover <==> j == k)
      ensures |nodes| == |old(nodes)| && forall j :: 0 <= j < |nodes| ==> nodes[j] == old(nodes[j]).(hover := false)
      ensures !globalHover && globalV == old(globalV)
      ensures Valid()
    {
      nodes := Unhovered(nodes);
      globalHover := false;
      var id := links[k].linkId;
      var ls := links[k := links[k].(hover := true)];
      ls := RehoverLinks(ls, (e: FLink) => e.linkId == id);
      RelabelKeeps(links, ls, |nodes|);
      HoverTouchesOnly(links, k, ls);
      links := ls;
    }

    /** graph-to-tensor.js:208-209: clear every `isLast`, then mark the last
        link whose value is non-zero. The page does this inside `render`,
        which runs on the first draw and after every click and hover; the
        click and hover methods here leave the marks as they were, and the
        page's sequence is such a method followed by MarkLast. */
    method MarkLast()
      requires Valid()
      modifies this
      ensures |links| == |old(links)|
      ensures forall j :: 0 <= j < |links| ==> links[j] == old(links[j]).(isLast := IsLastNonZero(old(links), j))
      ensures nodes == old(nodes) && globalV == old(globalV) && globalHover == old(globalHover)
      ensures Valid()
    {
      var ls := MarkLastOf(links);
      RelabelKeeps(links, ls, |nodes|);
      links := ls;
    }
  }

  /** `nodes.forEach(d => d.hover = false)` */
  method Unhovered(nodes: seq<FNode>) returns (ns: seq<FNode>)
    ensures |ns| == |nodes| && forall j :: 0 <= j < |nodes| ==> ns[j] == nodes[j].(hover := false)
  {
    ns := nodes;
    var j := 0;
    while j < |ns|
      invariant 0 <= j <= |ns| == |nodes|
      invariant forall t :: 0 <= t < j ==> ns[t] == nodes[t].(hover := false)
      invariant forall t :: j <= t < |ns| ==> ns[t] == nodes[t]
    {
      ns := ns[j := ns[j].(hover := false)];
      j := j + 1;
    }
  }

  /** `links.forEach(e => e.hover = f(e))` */
  method RehoverLinks(links: seq<FLink>, hovered: FLink -> bool) returns (ls: seq<FLink>)
    ensures |ls| == |links| && forall j :: 0 <= j < |links| ==> ls[j] == links[j].(hover := hovered(links[j]))
  {
    ls := links;
    var j := 0;
    while j < |ls|
      invariant 0 <= j <= |ls| == |links|
      invariant forall t :: 0 <= t < j ==> ls[t] == links[t].(hover := hovered(links[t]))
      invariant forall t :: j <= t < |ls| ==> ls[t] == links[t]
    {
      ls := ls[j := ls[j].(hover := hovered(ls[j]))];
      j := j + 1;
    }
  }

  /** graph-to-tensor.js:208-209 on a link list: clear every `isLast`, then
      mark the last link whose value is non-zero. */
  method MarkLastOf(links: seq<FLink>) returns (ls: seq<FLink>)
    ensures |ls| == |links|
    ensures forall j :: 0 <= j < |links| ==> ls[j] == links[j].(isLast := IsLastNonZero(links, j))
  {
    ls := links;
    var last := -1;
    var j := 0;
    while j < |ls|
      invariant 0 <= j <= |ls| == |links|
      invariant forall t :: 0 <= t < j ==> ls[t] == links[t].(isLast := false)
      invariant forall t :: j <= t < |ls| ==> ls[t] == links[t]
      invariant -1 <= last < j
      invariant last >= 0 ==> links[last].v != 0
      invariant forall t :: last < t < j ==> links[t].v == 0
    {
      ls := ls[j := ls[j].(isLast := false)];
      if ls[j].v != 0 {
        last := j;
      }
      j := j + 1;
    }
    if last >= 0 {
      ls := ls[last := ls[last].(isLast := true)];
    }
  }

  /** Changing only the display flags keeps the links well formed. */
  lemma RelabelKeeps(ls: seq<FLink>, ls': seq<FLink>, n: nat)
    requires WellLinked(ls, n) && |ls'| == |ls|
    requires forall j :: 0 <= j < |ls| ==>
      ls'[j].a == ls[j].a && ls'[j].b == ls[j].b && ls'[j].linkId == ls[j].linkId && ls'[j].v == ls[j].v
    ensures WellLinked(ls', n)
  {
  }

  /** `links.forEach(e => e.v = e.linkId == id ? v : e.v)` */
  method SyncById(links: seq<FLink>, id: string, v: int) returns (ls: seq<FLink>)
    ensures |ls| == |links|
    ensures forall t :: 0 <= t < |links| ==> ls[t] == if links[t].linkId == id then links[t].(v := v) else links[t]
  {
    ls := links;
    var j := 0;
    while j < |ls|
      invariant 0 <= j <= |ls| == |links|
      invariant forall t :: 0 <= t < j ==> ls[t] == if links[t].linkId == id then links[t].(v := v) else links[t]
      invariant forall t :: j <= t < |ls| ==> ls[t] == links[t]
    {
      if ls[j].linkId == id {
        ls := ls[j := ls[j].(v := v)];
      }
      j := j + 1;
    }
  }
}

=== FILE: image_as_graph.dfy ===
/** The "image as graph" illustration (image-as-graph.js): a small ASCII
    picture becomes a grid of pixels, every ordered pair of pixels gets its
    Chebyshev distance (the adjacency-matrix view), and the pairs at
    distance 1 become the links of the graph view. Clicking a pixel flips it;
    hovering a pair marks it and its reverse as active. Only the data is
    modelled, not the drawing, the force layout or the dragging. */
module ImageAsGraph {
  import opened Strings

  /** A pixel: its column i, its row j, whether it is on, and its position
      in the pixel list. */
  datatype Pixel = Pixel(i: nat, j: nat, isOn: bool, pixelIndex: nat)

  /** The pair (pixels[a], pixels[b]) of the cross product, by position,
      with its distance and whether it is the active pair. */
  datatype Pair = Pair(a: nat, b: nat, dist: nat, isActive: bool)

  /** A link of the graph view, from pixel source to pixel target. */
  datatype Link = Link(source: nat, target: nat)

  /** The template literal of image-as-graph.js:22-28: the rows, each on a
      line of its own. */
  const ImageText: string := "\n.0.0.\n.....\n..0..\n0...0\n.000.\n"

  /** Row j's pixels, before they are numbered. */
  function RowPixels(row: string, j: nat): seq<Pixel>
  {
    seq(|row|, i requires 0 <= i < |row| => Pixel(i, j, row[i] == '0', 0))
  }

  /** The pixels of the given rows, row after row, before they are numbered. */
  function GridPixels(rows: seq<string>): seq<Pixel>
  {
    if |rows| == 0 then [] else GridPixels(rows[..|rows| - 1]) + RowPixels(rows[|rows| - 1], |rows| - 1)
  }

  /** The pixels with `pixelIndex` set to their position (image-as-graph.js:83-86). */
  function Numbered(px: seq<Pixel>): seq<Pixel>
  {
    seq(|px|, k requires 0 <= k < |px| => px[k].(pixelIndex := k))
  }

  /** Row-major order: row by row, and left to right within a row. */
  predicate RowMajor(px: seq<Pixel>)
  {
    forall k, k' :: 0 <= k < k' < |px| ==> px[k].j < px[k'].j || (px[k].j == px[k'].j && px[k].i < px[k'].i)
  }

  /** The grid holds one pixel per character, in row-major order, and a
      pixel is on exactly when its character is '0'. */
  lemma {:induction false} GridShape(rows: seq<string>)
    ensures RowMajor(GridPixels(rows))
    ensures forall k :: 0 <= k < |GridPixels(rows)| ==>
      var p := GridPixels(rows)[k];
      p.j < |rows| && p.i < |rows[p.j]| && p.isOn == (rows[p.j][p.i] == '0')
    ensures forall j, i :: 0 <= j < |rows| && 0 <= i < |rows[j]| ==> Pixel(i, j, rows[j][i] == '0', 0) in GridPixels(rows)
  {
    if |rows| > 0 {
      var n := |rows| - 1;
      GridShape(rows[..n]);
      var prev, row := GridPixels(rows[..n]), RowPixels(rows[n], n);
      assert GridPixels(rows) == prev + row;
      forall j, i | 0 <= j < |rows| && 0 <= i < |rows[j]| ensures Pixel(i, j, rows[j][i] == '0', 0) in GridPixels(rows) {
        if j == n {
          assert row[i] == Pixel(i, j, rows[j][i] == '0', 0);
        } else {
          assert rows[..n][j] == rows[j];
        }
      }
    }
  }

  lemma MulMonotone(a: nat, b: nat, w: nat)
    requires a <= b
    ensures a * w <= b * w
  {
    assert b * w - a * w == (b - a) * w;
  }

  /** For a picture whose rows all have width w, there are |rows| * w
      pixels and the pixel of column i, row j is at position j * w + i. */
  lemma {:induction false} GridAt(rows: seq<string>, w: nat, j: nat, i: nat)
    requires forall r :: 0 <= r < |rows| ==> |rows[r]| == w
    requires j < |rows| && i < w
    ensures |GridPixels(rows)| == |rows| * w
    ensures j * w + i < |GridPixels(rows)| && GridPixels(rows)[j * w + i] == Pixel(i, j, rows[j][i] == '0', 0)
  {
    var n := |rows| - 1;
    var prev, row := GridPixels(rows[..n]), RowPixels(rows[n], n);
    assert GridPixels(rows) == prev + row;
    GridSize(rows[..n], w);
    assert |rows| * w == n * w + w;
    if j == n {
      assert (prev + row)[j * w + i] == row[i];
    } else {
      GridAt(rows[..n], w, j, i);
      MulMonotone(j + 1, n, w);
      assert rows[..n][j] == rows[j];
    }
  }

  lemma {:induction false} GridSize(rows: seq<string>, w: nat)
    requires forall r :: 0 <= r < |rows| ==> |rows[r]| == w
    ensures |GridPixels(rows)| == |rows| * w
  {
    if |rows| > 0 {
      var n := |rows| - 1;
      GridSize(rows[..n], w);
      assert |rows| * w == n * w + w;
    }
  }

  /** image-as-graph.js:77-86: `img.split('\n')`, one pixel per character
      of each row, then every pixel numbered by its position. */
  method ParseImage(img: string) returns (pixels: seq<Pixel>)
    ensures pixels == Numbered(GridPixels(Split(img, '\n')))
  {
    pixels := ReadGrid(Split(img, '\n'));
    pixels := NumberPixels(pixels);
  }

  /** The nested loop over rows and characters (image-as-graph.js:72-81). */
  method ReadGrid(rows: seq<string>) returns (pixels: seq<Pixel>)
    ensures pixels == GridPixels(rows)
  {
    pixels := [];
    var j := 0;
    while j < |rows|
      invariant 0 <= j <= |rows|
      invariant pixels == GridPixels(rows[..j])
    {
      var row := rows[j];
      var i := 0;
      while i < |row|
        invariant 0 <= i <= |row|
        invariant pixels == GridPixels(rows[..j]) + RowPixels(row, j)[..i]
      {
        pixels := pixels + [Pixel(i, j, row[i] == '0', 0)];
        assert RowPixels(row, j)[..i + 1] == RowPixels(row, j)[..i] + [Pixel(i, j, row[i] == '0', 0)];
        i := i + 1;
      }
      assert rows[..j + 1][..j] == rows[..j];
      assert RowPixels(row, j)[..i] == RowPixels(row, j);
      j := j + 1;
    }
    assert rows[..j] == rows;
  }

  /** `pixels.forEach((d, i) => d.pixelIndex = i)` (image-as-graph.js:83-86). */
  method NumberPixels(raw: seq<Pixel>) returns (pixels: seq<Pixel>)
    ensures pixels == Numbered(raw)
  {
    pixels := raw;
    var k := 0;
    while k < |pixels|
      invariant 0 <= k <= |pixels| == |raw|
      invariant forall t :: 0 <= t < k ==> pixels[t] == raw[t].(pixelIndex := t)
      invariant forall t :: k <= t < |pixels| ==> pixels[t] == raw[t]
    {
      pixels := pixels[k := pixels[k].(pixelIndex := k)];
      k := k + 1;
    }
  }

  function Abs(x: int): nat
  {
    if x < 0 then -x else x
  }

  /** `Math.max(Math.abs(a.i - b.i), Math.abs(a.j - b.j))` */
  function Dist(p: Pixel, q: Pixel): (d: nat)
    ensures d == 0 <==> p.i == q.i && p.j == q.j
    ensures d == 1 ==> p.i != q.i || p.j != q.j
  {
    var di, dj := Abs(p.i - q.i), Abs(p.j - q.j);
    if di < dj then dj else di
  }

  /** The distance is the Chebyshev distance: symmetric, and the pixels at
      distance 1 are exactly the eight neighbours. */
  lemma DistSymmetric(p: Pixel, q: Pixel)
    ensures Dist(p, q) == Dist(q, p)
    ensures Dist(p, q) == 1 <==>
      (p.i != q.i || p.j != q.j) && -1 <= p.i - q.i <= 1 && -1 <= p.j - q.j <= 1
  {
  }

  /** Pixels of a row-major list are at distance 0 only from themselves. */
  lemma DistZeroSame(px: seq<Pixel>, x: int, y: int)
    requires RowMajor(px) && 0 <= x < |px| && 0 <= y < |px|
    ensures Dist(px[x], px[y]) == 0 <==> x == y
  {
    if x < y {
      assert px[x].j < px[y].j || px[x].i < px[y].i;
    } else if y < x {
      assert px[y].j < px[x].j || px[y].i < px[x].i;
    }
  }

  /** Row a of the pair list: pixel a with every pixel, its distance set. */
  function PairRow(px: seq<Pixel>, a: nat): seq<Pair>
    requires a < |px|
  {
    seq(|px|, b requires 0 <= b < |px| => Pair(a, b, Dist(px[a], px[b]), false))
  }

  /** Rows 0 .. a-1 of `d3.cross(pixels, pixels)` with `dist` set. */
  function PairRows(px: seq<Pixel>, a: nat): seq<Pair>
    requires a <= |px|
  {
    if a == 0 then [] else PairRows(px, a - 1) + PairRow(px, a - 1)
  }

  /** Pair p comes before pair q in the cross product's order. */
  predicate Before(p: Pair, q: Pair)
  {
    p.a < q.a || (p.a == q.a && p.b < q.b)
  }

  /** Every pair comes before the ones after it, so no two pairs are of the
      same two pixels in the same order. */
  predicate Ordered(ps: seq<Pair>)
  {
    forall t, t' :: 0 <= t < t' < |ps| ==> Before(ps[t], ps[t'])
  }

  /** A well-formed pair of n pixels: both ends are pixels and its distance
      is theirs. */
  predicate PairOf(px: seq<Pixel>, p: Pair)
  {
    p.a < |px| && p.b < |px| && p.dist == Dist(px[p.a], px[p.b])
  }

  /** The first a rows hold well-formed inactive pairs from the pixels
      below a. */
  lemma {:induction false} PairRowsWellFormed(px: seq<Pixel>, a: nat)
    requires a <= |px|
    ensures forall t :: 0 <= t < |PairRows(px, a)| ==>
      PairOf(px, PairRows(px, a)[t]) && PairRows(px, a)[t].a < a && !PairRows(px, a)[t].isActive
  {
    if a > 0 {
      PairRowsWellFormed(px, a - 1);
      assert PairRows(px, a) == PairRows(px, a - 1) + PairRow(px, a - 1);
    }
  }

  /** The first a rows are in the cross product's order. */
  lemma {:induction false} PairRowsOrdered(px: seq<Pixel>, a: nat)
    requires a <= |px|
    ensures Ordered(PairRows(px, a))
  {
    if a > 0 {
      PairRowsOrdered(px, a - 1);
      PairRowsWellFormed(px, a - 1);
      var prev, row := PairRows(px, a - 1), PairRow(px, a - 1);
      assert PairRows(px, a) == prev + row;
    }
  }

  /** The first a rows hold the pair of every pixel below a with every pixel. */
  lemma {:induction false} PairRowsCover(px: seq<Pixel>, a: nat)
    requires a <= |px|
    ensures forall x, y :: 0 <= x < a && 0 <= y < |px| ==> Pair(x, y, Dist(px[x], px[y]), false) in PairRows(px, a)
  {
    forall x, y | 0 <= x < a && 0 <= y < |px|
      ensures Pair(x, y, Dist(px[x], px[y]), false) in PairRows(px, a)
    {
      PairRowsCoverAt(px, a, x, y);
    }
  }

  /** The same for one pair, by induction on the number of rows. */
  lemma {:induction false} PairRowsCoverAt(px: seq<Pixel>, a: nat, x: nat, y: nat)
    requires x < a <= |px| && y < |px|
    ensures Pair(x, y, Dist(px[x], px[y]), false) in PairRows(px, a)
  {
    if x < a - 1 {
      PairRowsCoverAt(px, a - 1, x, y);
    }
    PairRowsGrow(px, a, x, y);
  }

  /** Row a - 1 adds the pairs of pixel a - 1, and the earlier rows keep theirs. */
  lemma PairRowsGrow(px: seq<Pixel>, a: nat, x: nat, y: nat)
    requires 0 < a <= |px| && x < a && y < |px|
    requires x < a - 1 ==> Pair(x, y, Dist(px[x], px[y]), false) in PairRows(px, a - 1)
    ensures Pair(x, y, Dist(px[x], px[y]), false) in PairRows(px, a)
  {
    var prev, row := PairRows(px, a - 1), PairRow(px, a - 1);
    var p := Pair(x, y, Dist(px[x], px[y]), false);
    assert PairRows(px, a) == prev + row;
    if x == a - 1 {
      assert (prev + row)[|prev| + y] == row[y] == p;
    } else {
      var i :| 0 <= i < |prev| && prev[i] == p;
      assert (prev + row)[i] == p;
    }
  }

  /** image-as-graph.js:89-94: every ordered pair of pixels, with its distance. */
  method MakePairs(px: seq<Pixel>) returns (pairs: seq<Pair>)
    ensures pairs == PairRows(px, |px|)
  {
    pairs := [];
    var a := 0;
    while a < |px|
      invariant 0 <= a <= |px|
      invariant pairs == PairRows(px, a)
    {
      var b := 0;
      while b < |px|
        invariant 0 <= b <= |px|
        invariant pairs == PairRows(px, a) + PairRow(px, a)[..b]
      {
        var p, q := px[a], px[b];
        var di := if p.i < q.i then q.i - p.i else p.i - q.i;
        var dj := if p.j < q.j then q.j - p.j else p.j - q.j;
        var dist := if di < dj then dj else di;
        pairs := pairs + [Pair(a, b, dist, false)];
        assert PairRow(px, a)[..b + 1] == PairRow(px, a)[..b] + [Pair(a, b, dist, false)];
        b := b + 1;
      }
      assert PairRow(px, a)[..b] == PairRow(px, a);
      a := a + 1;
    }
  }

  /** The two filters of image-as-graph.js:173-175. */
  predicate IsLink(p: Pair)
  {
    p.dist == 1 && p.a < p.b
  }

  /** Link l comes before link m in list order. */
  predicate LinkBefore(l: Link, m: Link)
  {
    l.source < m.source || (l.source == m.source && l.target < m.target)
  }

  /** image-as-graph.js:173-179: the pairs at distance 1 whose first pixel
      has the smaller index, as source and target. */
  function LinksOf(pairs: seq<Pair>): (r: seq<Link>)
    ensures forall l :: l in r <==> exists t :: 0 <= t < |pairs| && IsLink(pairs[t]) && l == Link(pairs[t].a, pairs[t].b)
  {
    if |pairs| == 0 then []
    else
      var rest := LinksOf(pairs[1..]);
      assert forall t :: 1 <= t < |pairs| ==> pairs[t] == pairs[1..][t - 1];
      if IsLink(pairs[0]) then [Link(pairs[0].a, pairs[0].b)] + rest else rest
  }

  /** The links keep the order of their pairs, so none occurs twice. */
  lemma {:induction false} LinksOrdered(pairs: seq<Pair>)
    requires Ordered(pairs)
    ensures forall s, s' :: 0 <= s < s' < |LinksOf(pairs)| ==> LinkBefore(LinksOf(pairs)[s], LinksOf(pairs)[s'])
  {
    if |pairs| > 0 {
      var rest := LinksOf(pairs[1..]);
      LinksOrdered(pairs[1..]);
      if IsLink(pairs[0]) {
        var l := Link(pairs[0].a, pairs[0].b);
        assert LinksOf(pairs) == [l] + rest;
        forall s | 0 <= s < |rest| ensures LinkBefore(l, rest[s]) {
          assert rest[s] in rest;
          var t :| 0 <= t < |pairs[1..]| && IsLink(pairs[1..][t]) && rest[s] == Link(pairs[1..][t].a, pairs[1..][t].b);
          assert Before(pairs[0], pairs[t + 1]);
        }
      }
    }
  }

  /** The links are exactly the pairs of neighbouring pixels, each once,
      from the smaller index to the larger. */
  lemma LinksExactly(px: seq<Pixel>)
    ensures forall x, y :: 0 <= x < |px| && 0 <= y < |px| ==>
      (Link(x, y) in LinksOf(PairRows(px, |px|)) <==> x < y && Dist(px[x], px[y]) == 1)
    ensures forall s, s' :: 0 <= s < s' < |LinksOf(PairRows(px, |px|))| ==>
      LinksOf(PairRows(px, |px|))[s] != LinksOf(PairRows(px, |px|))[s']
  {
    var ps := PairRows(px, |px|);
    forall x, y | 0 <= x < |px| && 0 <= y < |px|
      ensures Link(x, y) in LinksOf(ps) <==> x < y && Dist(px[x], px[y]) == 1
    {
      if x < y && Dist(px[x], px[y]) == 1 {
        PairRowsCover(px, |px|);
        LinkFromPair(ps, Pair(x, y, Dist(px[x], px[y]), false));
      }
      if Link(x, y) in LinksOf(ps) {
        var t :| 0 <= t < |ps| && IsLink(ps[t]) && Link(x, y) == Link(ps[t].a, ps[t].b);
        PairRowsWellFormed(px, |px|);
        assert PairOf(px, ps[t]);
      }
    }
    PairRowsOrdered(px, |px|);
    LinksOrdered(ps);
  }

  /** Every pair that passes the filters gives a link. */
  lemma LinkFromPair(ps: seq<Pair>, p: Pair)
    requires p in ps && IsLink(p)
    ensures Link(p.a, p.b) in LinksOf(ps)
  {
    var t :| 0 <= t < |ps| && ps[t] == p;
  }

  /** The figure's data agree: pixels numbered by position in row-major
      order, pairs in order and well formed, and the links exactly the
      neighbouring pixel pairs. */
  predicate Consistent(px: seq<Pixel>, ps: seq<Pair>, ls: seq<Link>)
  {
    (forall k :: 0 <= k < |px| ==> px[k].pixelIndex == k) &&
    RowMajor(px) &&
    Ordered(ps) &&
    (forall t :: 0 <= t < |ps| ==> PairOf(px, ps[t])) &&
    (forall x, y :: 0 <= x < |px| && 0 <= y < |px| ==>
      (Link(x, y) in ls <==> x < y && Dist(px[x], px[y]) == 1))
  }

  /** The picture of any rows, as first built: pixels numbered by position
      in row-major order, pairs in order and well formed, and the links
      exactly the neighbouring pixel pairs. */
  lemma Built(rows: seq<string>)
    ensures var px := Numbered(GridPixels(rows));
      Consistent(px, PairRows(px, |px|), LinksOf(PairRows(px, |px|)))
  {
    var g := GridPixels(rows);
    var px := Numbered(g);
    GridShape(rows);
    assert forall k :: 0 <= k < |px| ==> px[k].i == g[k].i && px[k].j == g[k].j;
    PairRowsWellFormed(px, |px|);
    PairRowsOrdered(px, |px|);
    LinksExactly(px);
  }

  /** Pixel k flipped (`d.isOn = !d.isOn`). */
  function Flip(px: seq<Pixel>, k: int): (r: seq<Pixel>)
    requires 0 <= k < |px|
    ensures |r| == |px| && r[k].isOn == !px[k].isOn
    ensures forall t :: 0 <= t < |px| ==> r[t].(isOn := px[t].isOn) == px[t]
  {
    px[k := px[k].(isOn := !px[k].isOn)]
  }

  /** Two clicks on a pixel restore the picture. */
  lemma FlipTwice(px: seq<Pixel>, k: int)
    requires 0 <= k < |px|
    ensures Flip(Flip(px, k), k) == px
  {
  }

  /** Pixels at the same positions with the same numbers give the same
      distances, so pairs and links built for one fit the other. */
  lemma SameGeometry(px: seq<Pixel>, r: seq<Pixel>, ps: seq<Pair>, ls: seq<Link>)
    requires Consistent(px, ps, ls) && |r| == |px|
    requires forall t :: 0 <= t < |px| ==> r[t].i == px[t].i && r[t].j == px[t].j && r[t].pixelIndex == px[t].pixelIndex
    ensures Consistent(r, ps, ls)
  {
    forall x, y | 0 <= x < |px| && 0 <= y < |px|
      ensures Dist(r[x], r[y]) == Dist(px[x], px[y])
    {
    }
  }

  /** Pairs between the same pixels at the same distances fit the figure
      whatever their `isActive` flags. */
  lemma SamePairs(px: seq<Pixel>, ps: seq<Pair>, qs: seq<Pair>, ls: seq<Link>)
    requires Consistent(px, ps, ls) && |qs| == |ps|
    requires forall t :: 0 <= t < |ps| ==> qs[t].a == ps[t].a && qs[t].b == ps[t].b && qs[t].dist == ps[t].dist
    ensures Consistent(px, qs, ls)
  {
  }

  /** Flipping a pixel keeps the figure consistent: positions, distances
      and therefore pairs and links do not depend on `isOn`. */
  lemma FlipConsistent(px: seq<Pixel>, ps: seq<Pair>, ls: seq<Link>, k: int)
    requires Consistent(px, ps, ls) && 0 <= k < |px|
    ensures Consistent(Flip(px, k), ps, ls)
  {
    SameGeometry(px, px[k := px[k].(isOn := !px[k].isOn)], ps, ls);
  }

  /** Whether pair p is active when `act` is hovered: it is that pair
      itself, or its reverse (image-as-graph.js:261). */
  function Active(ps: seq<Pair>, t: int, act: int): bool
    requires 0 <= t < |ps| && 0 <= act < |ps|
  {
    t == act || (ps[t].a == ps[act].b && ps[t].b == ps[act].a)
  }

  class Picture {
    var pixels: seq<Pixel>
    var pairs: seq<Pair>
    var links: seq<Link>

    ghost predicate Valid()
      reads this
    {
      Consistent(pixels, pairs, links)
    }

    /** The picture as first built from the image text `img` (before the
        first `updateActivePair`). */
    constructor (img: string)
      ensures pixels == Numbered(GridPixels(Split(Trim(img), '\n')))
      ensures pairs == PairRows(pixels, |pixels|)
      ensures links == LinksOf(pairs)
      ensures Valid()
    {
      var px := ParseImage(Trim(img));
      var ps := MakePairs(px);
      Built(Split(Trim(img), '\n'));
      pixels := px;
      pairs := ps;
      links := LinksOf(ps);
    }

    /** A click on pixel k flips it; the pairs and links stay as they are. */
    method Click(k: int)
      requires Valid() && 0 <= k < |pixels|
      modifies this
      ensures pixels == Flip(old(pixels), k)
      ensures pairs == old(pairs) && links == old(links)
      ensures Valid()
    {
      FlipConsistent(pixels, pairs, links, k);
      pixels := pixels[k := pixels[k].(isOn := !pixels[k].isOn)];
    }

    /** `updateActivePair(pairs[act])`: exactly the hovered pair and its
        reverse are active, and nothing else of the pairs changes. */
    method UpdateActivePair(act: int)
      requires Valid() && 0 <= act < |pairs|
      modifies this
      ensures |pairs| == |old(pairs)|
      ensures forall t :: 0 <= t < |pairs| ==> pairs[t] == old(pairs[t]).(isActive := Active(old(pairs), t, act))
      ensures forall t :: 0 <= t < |pairs| ==>
        (pairs[t].isActive <==>
          (pairs[t].a == pairs[act].a && pairs[t].b == pairs[act].b) ||
          (pairs[t].a == pairs[act].b && pairs[t].b == pairs[act].a))
      ensures pixels == old(pixels) && links == old(links)
      ensures Valid()
    {
      var ps := pairs;
      var j := 0;
      while j < |ps|
        invariant 0 <= j <= |ps| == |pairs|
        invariant forall t :: 0 <= t < j ==> ps[t] == pairs[t].(isActive := Active(pairs, t, act))
        invariant forall t :: j <= t < |ps| ==> ps[t] == pairs[t]
      {
        ps := ps[j := ps[j].(isActive := Active(pairs, j, act))];
        j := j + 1;
      }
      SamePairs(pixels, pairs, ps, links);
      pairs := ps;
    }
  }
}

=== FILE: link_ids.dfy ===
/** The link identifiers of the small illustrations (graph-to-tensor.js,
    shuffle-sm.js): the two node numbers, sorted as JavaScript's default
    `sort()` sorts them (as strings), joined by a space. */
module LinkIds {
  import opened Strings

  /** `var [i, j] = [a, b].sort(); i + ' ' + j` */
  function LinkId(a: nat, b: nat): (id: string)
    ensures ' ' in id
  {
    var (i, j) := SortPair(a, b);
    assert (NatToString(i) + " " + NatToString(j))[|NatToString(i)|] == ' ';
    NatToString(i) + " " + NatToString(j)
  }

  /** Both orientations of a pair share one identifier. */
  lemma LinkIdSymmetric(a: nat, b: nat)
    ensures LinkId(a, b) == LinkId(b, a)
  {
    SortPairSymmetric(a, b);
  }

  /** The identifier names the unordered pair: equal identifiers come from
      the same two nodes, in one order or the other. */
  lemma LinkIdDetermines(a: nat, b: nat, c: nat, d: nat)
    requires LinkId(a, b) == LinkId(c, d)
    ensures (a == c && b == d) || (a == d && b == c)
  {
    var (i, j) := SortPair(a, b);
    var (k, l) := SortPair(c, d);
    var s, t, u, v := NatToString(i), NatToString(j), NatToString(k), NatToString(l);
    assert ' ' !in s && ' ' !in u by {
      assert forall q :: 0 <= q < |s| ==> s[q] != ' ';
      assert forall q :: 0 <= q < |u| ==> u[q] != ' ';
    }
    FirstIndexAt(s, t, ' ');
    FirstIndexAt(u, v, ' ');
    assert s + [' '] + t == u + [' '] + v;
    assert |s| == |u|;
    assert s == (s + [' '] + t)[..|s|] == (u + [' '] + v)[..|u|] == u;
    assert t == (s + [' '] + t)[|s| + 1..] == (u + [' '] + v)[|u| + 1..] == v;
    NatToStringInjective(i, k);
    NatToStringInjective(j, l);
    SortPairMembers(a, b);
    SortPairMembers(c, d);
  }
}

=== FILE: playground_util.dfy ===
/** The playground's data helpers (util.ts): looking a key up by its value,
    and the bookkeeping that `setDataInitPos` does on freshly loaded graphs. */
module PlaygroundUtil {
  import opened Results
  import opened Props
  import opened GraphData

  /** One key of an object with its value, in the object's key order. */
  datatype Entry<V> = Entry(key: string, value: V)

  /** util.ts `getKeyByValue`: the first key, in key order, whose value is
      strictly equal to `value`, or undefined (None) when there is none. The
      page calls it on a map from label indices to label names. */
  function GetKeyByValue<V(==)>(obj: seq<Entry<V>>, value: V): (r: Option<string>)
    ensures r.Some? <==> exists j :: 0 <= j < |obj| && obj[j].value == value
    ensures r.Some? ==> exists j :: 0 <= j < |obj| && obj[j].key == r.value && obj[j].value == value &&
                                    forall i :: 0 <= i < j ==> obj[i].value != value
  {
    if |obj| == 0 then None
    else if obj[0].value == value then Some(obj[0].key)
    else
      var r := GetKeyByValue(obj[1..], value);
      assert forall j :: 1 <= j < |obj| ==> obj[j] == obj[1..][j - 1];
      r
  }

  /** When no value occurs twice, as among distinct label names, looking up
      an entry's value gives back that entry's key. */
  lemma GetKeyOfValue<V>(obj: seq<Entry<V>>, j: int)
    requires 0 <= j < |obj|
    requires forall i, i' :: 0 <= i < i' < |obj| ==> obj[i].value != obj[i'].value
    ensures GetKeyByValue(obj, obj[j].value) == Some(obj[j].key)
  {
    var r := GetKeyByValue(obj, obj[j].value);
    var t :| 0 <= t < |obj| && obj[t].key == r.value && obj[t].value == obj[j].value &&
             forall i :: 0 <= i < t ==> obj[i].value != obj[j].value;
    assert t == j;
  }

  /** A node after `setDataInitPos` has visited it as node j of graph i:
      an unprocessed node gets its start position from `place` (the layout
      arithmetic), sits there, takes id j and is marked processed; a
      processed node is left as it is. */
  function Placed(n: Node, i: int, j: int, place: (int, int, Node) -> (real, real)): Node
  {
    if n.processed then n
    else
      var (x, y) := place(i, j, n);
      n.(initX := x, initY := y, x := x, y := y, id := Some(j), processed := true)
  }

  /** The nodes of graph i after the inner `forEach`. */
  function PlacedNodes(nodes: seq<Node>, i: int, place: (int, int, Node) -> (real, real)): (r: seq<Node>)
    ensures |r| == |nodes|
    ensures forall j :: 0 <= j < |nodes| ==> r[j] == Placed(nodes[j], i, j, place)
  {
    seq(|nodes|, j requires 0 <= j < |nodes| => Placed(nodes[j], i, j, place))
  }

  /** What a processed node looks like: it sits at its start position. */
  predicate Settled(n: Node)
  {
    n.processed && n.x == n.initX && n.y == n.initY
  }

  /** After one pass every node is processed; each node that was not now
      has id j and sits at its start position; the others are unchanged. */
  lemma PlacedNodesSettle(nodes: seq<Node>, i: int, place: (int, int, Node) -> (real, real))
    ensures forall j :: 0 <= j < |nodes| ==> PlacedNodes(nodes, i, place)[j].processed
    ensures forall j :: 0 <= j < |nodes| && !nodes[j].processed ==>
      Settled(PlacedNodes(nodes, i, place)[j]) && PlacedNodes(nodes, i, place)[j].id == Some(j) &&
      PlacedNodes(nodes, i, place)[j].uid == nodes[j].uid && PlacedNodes(nodes, i, place)[j].props == nodes[j].props
    ensures forall j :: 0 <= j < |nodes| && nodes[j].processed ==> PlacedNodes(nodes, i, place)[j] == nodes[j]
  {
  }

  /** A second pass changes nothing. */
  lemma PlacedNodesIdempotent(nodes: seq<Node>, i: int, place: (int, int, Node) -> (real, real))
    ensures PlacedNodes(PlacedNodes(nodes, i, place), i, place) == PlacedNodes(nodes, i, place)
  {
  }

  /** util.ts `setDataInitPos` on a list of graphs. */
  method SetDataInitPos(data: array<GraphData>, place: (int, int, Node) -> (real, real))
    modifies data
    ensures forall i :: 0 <= i < data.Length ==>
      data[i] == old(data[i]).(nodes := PlacedNodes(old(data[i].nodes), i, place))
  {
    var i := 0;
    while i < data.Length
      invariant 0 <= i <= data.Length
      invariant forall k :: 0 <= k < i ==> data[k] == old(data[k]).(nodes := PlacedNodes(old(data[k].nodes), k, place))
      invariant forall k :: i <= k < data.Length ==> data[k] == old(data[k])
    {
      var nodes := data[i].nodes;
      var j := 0;
      while j < |nodes|
        invariant 0 <= j <= |nodes| == |old(data[i].nodes)|
        invariant forall t :: 0 <= t < j ==> nodes[t] == Placed(old(data[i].nodes)[t], i, t, place)
        invariant forall t :: j <= t < |nodes| ==> nodes[t] == old(data[i].nodes)[t]
      {
        var d := nodes[j];
        if !d.processed {
          var (x, y) := place(i, j, d);
          d := d.(initX := x, initY := y);
          d := d.(x := d.initX, y := d.initY);
          d := d.(id := Some(j));
          d := d.(processed := true);
        }
        nodes := nodes[j := d];
        j := j + 1;
      }
      assert nodes == PlacedNodes(old(data[i].nodes), i, place);
      data[i] := data[i].(nodes := nodes);
      i := i + 1;
    }
  }
}

=== FILE: props.dfy ===
/** The playground's property maps: a JavaScript object from category name
    to number whose keys keep their insertion order. A node's properties
    name its atom type, an edge's its bond type, and the maps are one-hot:
    the category in force holds 1 and every other key 0. */
module Props {

  /** One key of a property map with its value. */
  datatype Prop = Prop(key: string, value: int)

  /** The map's entries in key order (`Object.keys` order). */
  type Props = seq<Prop>

  /** `Object.keys(p)`. */
  function Keys(p: Props): (ks: seq<string>)
    ensures |ks| == |p|
    ensures forall j :: 0 <= j < |p| ==> ks[j] == p[j].key
  {
    seq(|p|, j requires 0 <= j < |p| => p[j].key)
  }

  /** `Object.values(p)`. */
  function Values(p: Props): (vs: seq<int>)
    ensures |vs| == |p|
    ensures forall j :: 0 <= j < |p| ==> vs[j] == p[j].value
  {
    seq(|p|, j requires 0 <= j < |p| => p[j].value)
  }

  /** Keys of an object are distinct. */
  predicate DistinctKeys(p: Props)
  {
    forall i, j :: 0 <= i < j < |p| ==> p[i].key != p[j].key
  }

  /** `keys.indexOf(keys.find(k => p[k] == 1))` (graph.ts `oneHotIdx`): the
      position of the first key holding 1, or -1 when none does. */
  function OneHotIdx(p: Props): (r: int)
    ensures -1 <= r < |p|
    ensures r >= 0 ==> p[r].value == 1
    ensures forall j :: 0 <= j < |p| && (r == -1 || j < r) ==> p[j].value != 1
  {
    if |p| == 0 then -1
    else if p[0].value == 1 then 0
    else
      var r := OneHotIdx(p[1..]);
      if r == -1 then -1 else r + 1
  }

  /** p is one-hot at position n: n holds 1 and every other entry 0. */
  predicate OneHotAt(p: Props, n: int)
  {
    0 <= n < |p| && forall j :: 0 <= j < |p| ==> p[j].value == (if j == n then 1 else 0)
  }

  /** Exactly one entry is 1 and the others are 0. */
  predicate IsOneHot(p: Props)
  {
    OneHotAt(p, OneHotIdx(p))
  }

  lemma OneHotAtIdx(p: Props, n: int)
    requires OneHotAt(p, n)
    ensures OneHotIdx(p) == n && IsOneHot(p)
  {
    var r := OneHotIdx(p);
    assert p[n].value == 1;
    if r >= 0 {
      assert p[r].value == 1;
    }
  }

  /** The position after n among m positions, wrapping round to 0; also
      0 from -1, the position of a map with no hot entry. */
  function Succ(n: int, m: int): int
  {
    if n + 1 == m then 0 else n + 1
  }

  /** Succ is `(n + 1) % m` over the positions -1 .. m-1. */
  lemma SuccIsMod(n: int, m: int)
    requires -1 <= n < m && m > 0
    ensures Succ(n, m) == (n + 1) % m
  {
    if n + 1 == m {
      ModUnique(m, m, 1, 0);
    } else {
      ModUnique(n + 1, m, 0, n + 1);
    }
  }

  /** The map after one step of the cycling in graph.ts `progress`: every key
      is zeroed, then the key after the current one (wrapping round) is set.
      An empty map has no keys to index, so `keys[NaN]` is `undefined` and the
      step adds the key "undefined" with value 1. */
  function NextOneHot(p: Props): (q: Props)
    ensures |p| == 0 ==> q == [Prop("undefined", 1)]
    ensures |p| > 0 ==> Keys(q) == Keys(p) && OneHotAt(q, Succ(OneHotIdx(p), |p|))
    ensures |p| > 0 ==> OneHotIdx(q) == Succ(OneHotIdx(p), |p|)
  {
    if |p| == 0 then [Prop("undefined", 1)]
    else
      var n := (OneHotIdx(p) + 1) % |p|;
      SuccIsMod(OneHotIdx(p), |p|);
      var q := seq(|p|, j requires 0 <= j < |p| => Prop(p[j].key, if j == n then 1 else 0));
      OneHotAtIdx(q, n);
      q
  }

  /** Two maps with the same keys that are one-hot at the same position are equal. */
  lemma OneHotDetermined(p: Props, q: Props, n: int)
    requires Keys(p) == Keys(q) && OneHotAt(p, n) && OneHotAt(q, n)
    ensures p == q
  {
    assert forall j :: 0 <= j < |p| ==> p[j].key == Keys(p)[j] == Keys(q)[j] == q[j].key;
  }

  /** k progress steps applied to p. */
  function Iterate(p: Props, k: nat): Props
  {
    if k == 0 then p else NextOneHot(Iterate(p, k - 1))
  }

  /** The position k steps after r among m positions. */
  function Advance(r: int, k: nat, m: int): int
  {
    if k == 0 then r else Succ(Advance(r, k - 1, m), m)
  }

  /** After k steps a one-hot map at r is one-hot k positions further on, with the same keys. */
  lemma {:induction false} IterateOneHot(p: Props, r: int, k: nat)
    requires OneHotAt(p, r)
    ensures Keys(Iterate(p, k)) == Keys(p)
    ensures OneHotAt(Iterate(p, k), Advance(r, k, |p|))
  {
    if k > 0 {
      var q := Iterate(p, k - 1);
      IterateOneHot(p, r, k - 1);
      assert |q| == |Keys(q)| == |p|;
      IterateStep(q, Advance(r, k - 1, |p|));
    }
  }

  /** Advancing k positions from r is `(r + k) % m`. */
  lemma {:induction false} AdvanceIsMod(r: int, k: nat, m: int)
    requires 0 <= r < m
    ensures Advance(r, k, m) == (r + k) % m
  {
    if k == 0 {
      ModUnique(r, m, 0, r);
    } else {
      AdvanceIsMod(r, k - 1, m);
      ModSucc(r + k - 1, m);
    }
  }

  /** One step from a map one-hot at n: same keys, one-hot at the next
      position, wrapping round. */
  lemma IterateStep(q: Props, n: int)
    requires OneHotAt(q, n)
    ensures Keys(NextOneHot(q)) == Keys(q)
    ensures OneHotAt(NextOneHot(q), Succ(n, |q|))
  {
    OneHotAtIdx(q, n);
  }

  /** The position after a mod m is (a + 1) mod m. */
  lemma ModSucc(a: int, m: int)
    requires a >= 0 && m > 0
    ensures Succ(a % m, m) == (a + 1) % m
  {
    var q, s := a / m, a % m;
    assert a == q * m + s;
    if s + 1 < m {
      ModUnique(a + 1, m, q, s + 1);
    } else {
      assert a + 1 == (q + 1) * m;
      ModUnique(a + 1, m, q + 1, 0);
    }
  }

  /** Euclidean remainder is determined by any quotient-remainder decomposition. */
  lemma ModUnique(a: int, m: int, q: int, t: int)
    requires m > 0 && 0 <= t < m && a == q * m + t
    ensures a % m == t
  {
    var q', t' := a / m, a % m;
    var d := q - q';
    assert q * m - q' * m == d * m;
    assert d * m == t' - t;
    if d >= 1 {
      MulAtLeast(d, m);
    } else if d <= -1 {
      MulAtLeast(-d, m);
    }
  }

  lemma MulAtLeast(d: int, m: int)
    requires d >= 1 && m > 0
    ensures d * m >= m
  {
    assert (d - 1) * m >= 0;
  }

  /** Progressing a one-hot map once per key brings it back to where it was. */
  lemma FullCycle(p: Props)
    requires IsOneHot(p)
    ensures Iterate(p, |p|) == p
  {
    var r := OneHotIdx(p);
    IterateFull(p, r);
    OneHotDetermined(Iterate(p, |p|), p, r);
  }

  /** One step per key returns the one-hot entry to where it started. */
  lemma IterateFull(p: Props, r: int)
    requires OneHotAt(p, r)
    ensures Keys(Iterate(p, |p|)) == Keys(p) && OneHotAt(Iterate(p, |p|), r)
  {
    IterateOneHot(p, r, |p|);
    AdvanceFull(r, |p|);
  }

  /** m positions on from r, among m, is r again. */
  lemma AdvanceFull(r: int, m: int)
    requires 0 <= r < m
    ensures Advance(r, m, m) == r
  {
    AdvanceIsMod(r, m, m);
    ModUnique(r + m, m, 1, r);
  }

  /** A single step never yields the same map from a one-hot map with two or more keys. */
  lemma StepMoves(p: Props)
    requires IsOneHot(p) && |p| >= 2
    ensures NextOneHot(p) != p
  {
    var r := OneHotIdx(p);
    var n := (r + 1) % |p|;
    assert n != r;
    assert NextOneHot(p)[n].value == 1 != p[n].value;
  }
}

=== FILE: results.dfy ===
/** Option and Result values for lookups that may find nothing and for
    decoding that may fail. */
module Results {

  datatype Option<+T> = None | Some(value: T)

  datatype Result<+T, +E> = Success(value: T) | Failure(error: E)
}

=== FILE: shuffle_sm.dfy ===
/** The "shuffle" illustration (shuffle-sm.js): four nodes and a link for
    every ordered pair of them, drawn as a graph and as adjacency-matrix
    thumbnails, one per node order. Clicking a link toggles it in both
    orientations at once; hovering lights up a node or a link. Only the data
    is modelled, not the drawing or the animation. */
module ShuffleSm {
  import opened Strings
  import opened LinkIds

  /** A node: its number, its value (0 or 1), its hover flag and its letter. */
  datatype SNode = SNode(i: nat, v: int, hover: bool, str: char)

  /** A link from node a to node b (by number), with the identifier of the
      unordered pair, its value (0 or 1) and its hover flag. */
  datatype SLink = SLink(a: nat, b: nat, linkId: string, v: int, hover: bool)

  /** The node values and letters the figure starts with (shuffle-sm.js:35). */
  const InitialValues: seq<int> := [0, 1, 1, 0]
  const Letters: string := "ABCD"

  /** The link from a to b as first built: value `(i + j) % 2` of the sorted pair. */
  function NewLink(a: nat, b: nat): SLink
  {
    SLink(a, b, LinkId(a, b), (a + b) % 2, false)
  }

  /** Row a of `d3.cross(nodes, nodes)` over n nodes: the links from a to
      0 .. n-1. */
  function CrossRow(a: nat, n: nat): seq<SLink>
  {
    seq(n, b requires 0 <= b < n => NewLink(a, b))
  }

  /** Rows 0 .. a-1 of the cross product, in order. */
  function CrossRows(a: nat, n: nat): seq<SLink>
  {
    if a == 0 then [] else CrossRows(a - 1, n) + CrossRow(a - 1, n)
  }

  /** `d3.cross(nodes, nodes).map(...)` for n nodes (shuffle-sm.js:38-44). */
  function Cross(n: nat): seq<SLink>
  {
    CrossRows(n, n)
  }

  /** The first a rows hold a * n links, each the fresh link of a pair from
      a row below a to one of the n nodes, and every such pair has one. */
  lemma {:induction false} CrossRowsShape(a: nat, n: nat)
    ensures |CrossRows(a, n)| == a * n
    ensures forall p :: 0 <= p < |CrossRows(a, n)| ==>
      CrossRows(a, n)[p].a < a && CrossRows(a, n)[p].b < n &&
      CrossRows(a, n)[p] == NewLink(CrossRows(a, n)[p].a, CrossRows(a, n)[p].b)
    ensures forall i, j :: 0 <= i < a && 0 <= j < n ==> NewLink(i, j) in CrossRows(a, n)
  {
    if a > 0 {
      CrossRowsShape(a - 1, n);
      var prev, row := CrossRows(a - 1, n), CrossRow(a - 1, n);
      assert CrossRows(a, n) == prev + row;
      assert (a - 1) * n + n == a * n;
      forall i, j | 0 <= i < a && 0 <= j < n ensures NewLink(i, j) in CrossRows(a, n) {
        if i == a - 1 {
          assert row[j] == NewLink(i, j);
        }
      }
    }
  }

  /** Links with one identifier hold one value: the two orientations of a
      pair always agree. */
  predicate Symmetric(ls: seq<SLink>)
  {
    forall p, q :: 0 <= p < |ls| && 0 <= q < |ls| && ls[p].linkId == ls[q].linkId ==> ls[p].v == ls[q].v
  }

  /** A link from a node to itself is off. */
  predicate SelfPairsOff(ls: seq<SLink>)
  {
    forall p :: 0 <= p < |ls| && ls[p].a == ls[p].b ==> ls[p].v == 0
  }

  /** Each link of the figure joins two of the n nodes and carries the
      identifier of its pair and a value 0 or 1. */
  predicate WellLinked(ls: seq<SLink>, n: nat)
  {
    forall p :: 0 <= p < |ls| ==>
      ls[p].a < n && ls[p].b < n && ls[p].linkId == LinkId(ls[p].a, ls[p].b) && 0 <= ls[p].v <= 1
  }

  /** Two links with one identifier join the same two nodes, in one order or
      the other. */
  lemma SameIdSamePair(ls: seq<SLink>, n: nat, p: int, q: int)
    requires WellLinked(ls, n) && 0 <= p < |ls| && 0 <= q < |ls| && ls[p].linkId == ls[q].linkId
    ensures (ls[p].a == ls[q].a && ls[p].b == ls[q].b) || (ls[p].a == ls[q].b && ls[p].b == ls[q].a)
  {
    LinkIdDetermines(ls[p].a, ls[p].b, ls[q].a, ls[q].b);
  }

  /** The links as first built cover every ordered pair, and both
      orientations start equal with every self-pair off. */
  lemma InitialLinks(n: nat)
    ensures WellLinked(Cross(n), n) && Symmetric(Cross(n)) && SelfPairsOff(Cross(n))
    ensures forall a, b :: 0 <= a < n && 0 <= b < n ==> NewLink(a, b) in Cross(n)
  {
    CrossRowsShape(n, n);
    FreshLinks(Cross(n), n);
  }

  /** Links as first built, between any nodes, are symmetric with the
      self-pairs off. */
  lemma FreshLinks(ls: seq<SLink>, n: nat)
    requires forall p :: 0 <= p < |ls| ==> ls[p].a < n && ls[p].b < n && ls[p] == NewLink(ls[p].a, ls[p].b)
    ensures WellLinked(ls, n) && Symmetric(ls) && SelfPairsOff(ls)
  {
    forall p, q | 0 <= p < |ls| && 0 <= q < |ls| && ls[p].linkId == ls[q].linkId
      ensures ls[p].v == ls[q].v
    {
      SameIdSamePair(ls, n, p, q);
    }
  }

  /** `d.v = (d.v + 1) % 2` */
  function NextBit(v: int): (r: int)
    requires 0 <= v <= 1
    ensures 0 <= r <= 1 && r != v
  {
    (v + 1) % 2
  }

  /** The value a clicked link takes: toggled, but a self-pair stays off. */
  function ClickedValue(v: int, selfPair: bool): (r: int)
    requires 0 <= v <= 1
    ensures selfPair ==> r == 0
    ensures !selfPair ==> r == NextBit(v)
  {
    if selfPair then 0 else (v + 1) % 2
  }

  /** Two clicks on a link between distinct nodes turn it back. */
  lemma TwoClicksRestore(v: int)
    requires 0 <= v <= 1
    ensures ClickedValue(ClickedValue(v, false), false) == v
  {
  }

  /** `links.forEach(e => e.v = e.linkId == id ? v : e.v)` */
  method SyncById(links: seq<SLink>, id: string, v: int) returns (ls: seq<SLink>)
    ensures |ls| == |links|
    ensures forall t :: 0 <= t < |links| ==> ls[t] == if links[t].linkId == id then links[t].(v := v) else links[t]
  {
    ls := links;
    var j := 0;
    while j < |ls|
      invariant 0 <= j <= |ls| == |links|
      invariant forall t :: 0 <= t < j ==> ls[t] == if links[t].linkId == id then links[t].(v := v) else links[t]
      invariant forall t :: j <= t < |ls| ==> ls[t] == links[t]
    {
      if ls[j].linkId == id {
        ls := ls[j := ls[j].(v := v)];
      }
      j := j + 1;
    }
  }

  /** Setting every link with link k's identifier to the value k takes
      keeps the links well formed, symmetric and with self-pairs off. */
  lemma SyncKeepsInvariants(ls: seq<SLink>, ls': seq<SLink>, n: nat, k: int, v: int)
    requires WellLinked(ls, n) && Symmetric(ls) && SelfPairsOff(ls) && 0 <= k < |ls|
    requires v == ClickedValue(ls[k].v, ls[k].a == ls[k].b)
    requires |ls'| == |ls|
    requires forall t :: 0 <= t < |ls| ==> ls'[t] == if ls[t].linkId == ls[k].linkId then ls[t].(v := v) else ls[t]
    ensures WellLinked(ls', n) && Symmetric(ls') && SelfPairsOff(ls')
  {
    forall p | 0 <= p < |ls'| && ls'[p].a == ls'[p].b ensures ls'[p].v == 0 {
      if ls[p].linkId == ls[k].linkId {
        SameIdSamePair(ls, n, p, k);
      }
    }
  }

  /** Changing only hover flags keeps the links well formed, symmetric and
      with self-pairs off. */
  lemma RehoverKeeps(ls: seq<SLink>, ls': seq<SLink>, n: nat)
    requires WellLinked(ls, n) && Symmetric(ls) && SelfPairsOff(ls) && |ls'| == |ls|
    requires forall j :: 0 <= j < |ls| ==> ls'[j] == ls[j].(hover := ls'[j].hover)
    ensures WellLinked(ls', n) && Symmetric(ls') && SelfPairsOff(ls')
  {
    assert forall j :: 0 <= j < |ls| ==>
      ls'[j].a == ls[j].a && ls'[j].b == ls[j].b && ls'[j].linkId == ls[j].linkId && ls'[j].v == ls[j].v;
  }

  /** Link j carries link k's identifier exactly when it joins the same two
      nodes, in either order. */
  lemma SameIdIffPair(ls: seq<SLink>, n: nat, j: int, k: int)
    requires WellLinked(ls, n) && 0 <= j < |ls| && 0 <= k < |ls|
    ensures ls[j].linkId == ls[k].linkId <==>
      (ls[j].a == ls[k].a && ls[j].b == ls[k].b) || (ls[j].a == ls[k].b && ls[j].b == ls[k].a)
  {
    if ls[j].linkId == ls[k].linkId {
      SameIdSamePair(ls, n, j, k);
    } else if ls[j].a == ls[k].b && ls[j].b == ls[k].a {
      LinkIdSymmetric(ls[k].a, ls[k].b);
    }
  }

  /** `nodes.forEach(d => d.hover = f(d))` with f given by the node's number. */
  method HoverNodes(nodes: seq<SNode>, hovered: nat -> bool) returns (ns: seq<SNode>)
    ensures |ns| == |nodes| && forall j :: 0 <= j < |nodes| ==> ns[j] == nodes[j].(hover := hovered(nodes[j].i))
  {
    ns := nodes;
    var j := 0;
    while j < |ns|
      invariant 0 <= j <= |ns| == |nodes|
      invariant forall t :: 0 <= t < j ==> ns[t] == nodes[t].(hover := hovered(nodes[t].i))
      invariant forall t :: j <= t < |ns| ==> ns[t] == nodes[t]
    {
      ns := ns[j := ns[j].(hover := hovered(ns[j].i))];
      j := j + 1;
    }
  }

  /** `links.forEach(e => e.hover = f(e))` */
  method HoverLinks(links: seq<SLink>, hovered: SLink -> bool) returns (ls: seq<SLink>)
    ensures |ls| == |links| && forall j :: 0 <= j < |links| ==> ls[j] == links[j].(hover := hovered(links[j]))
  {
    ls := links;
    var j := 0;
    while j < |ls|
      invariant 0 <= j <= |ls| == |links|
      invariant forall t :: 0 <= t < j ==> ls[t] == links[t].(hover := hovered(links[t]))
      invariant forall t :: j <= t < |ls| ==> ls[t] == links[t]
    {
      ls := ls[j := ls[j].(hover := hovered(ls[j]))];
      j := j + 1;
    }
  }

  /** The nodes as first drawn: numbered 0 .. 3, with the initial values
      and letters, none hovered. */
  function InitialNodes(): (ns: seq<SNode>)
    ensures |ns| == 4
    ensures forall k :: 0 <= k < 4 ==> ns[k] == SNode(k, InitialValues[k], false, Letters[k])
    ensures forall k :: 0 <= k < |ns| ==> ns[k].i == k && 0 <= ns[k].v <= 1
  {
    seq(4, k requires 0 <= k < 4 => SNode(k, InitialValues[k], false, Letters[k]))
  }

  class Figure {
    var nodes: seq<SNode>
    var links: seq<SLink>

    ghost predicate Valid()
      reads this
    {
      (forall k :: 0 <= k < |nodes| ==> nodes[k].i == k && 0 <= nodes[k].v <= 1) &&
      WellLinked(links, |nodes|) && Symmetric(links) && SelfPairsOff(links)
    }

    /** The figure as first drawn (shuffle-sm.js:35-44). */
    constructor ()
      ensures |nodes| == 4
      ensures forall k :: 0 <= k < 4 ==> nodes[k] == SNode(k, InitialValues[k], false, Letters[k])
      ensures links == Cross(4)
      ensures Valid()
    {
      InitialLinks(4);
      nodes := InitialNodes();
      links := Cross(4);
    }

    /** `incClick` on node k: its value toggles; nothing else changes. The
        page binds `click` only on links (shuffle-sm.js:260-265), so this
        branch of `incClick` is never reached from the page. */
    method IncClickNode(k: int)
      requires Valid() && 0 <= k < |nodes|
      modifies this
      ensures nodes == old(nodes)[k := old(nodes[k]).(v := NextBit(old(nodes[k].v)))]
      ensures links == old(links)
      ensures Valid()
    {
      nodes := nodes[k := nodes[k].(v := (nodes[k].v + 1) % 2)];
    }

    /** `incClick` on link k: the link toggles (a self-pair is forced off)
        and every link with its identifier, the reverse orientation among
        them, takes the same value. */
    method IncClickLink(k: int)
      requires Valid() && 0 <= k < |links|
      modifies this
      ensures |links| == |old(links)|
      ensures var d := old(links[k]);
        forall j :: 0 <= j < |links| ==>
          links[j] == if old(links[j]).linkId == d.linkId then old(links[j]).(v := ClickedValue(d.v, d.a == d.b)) else old(links[j])
      ensures nodes == old(nodes)
      ensures Valid()
    {
      var d := links[k];
      d := d.(v := (d.v + 1) % 2);
      if d.a == d.b {
        d := d.(v := 0);
      }
      var ls := SyncById(links[k := d], d.linkId, d.v);
      assert forall t :: 0 <= t < |ls| ==> ls[t] == if links[t].linkId == d.linkId then links[t].(v := d.v) else links[t];
      SyncKeepsInvariants(links, ls, |nodes|, k, d.v);
      links := ls;
    }

    /** `setHover` on node k: k alone among the nodes is hovered, and the
        links hovered are exactly k's self-pair. */
    method SetHoverNode(k: int)
      requires Valid() && 0 <= k < |nodes|
      modifies this
      ensures |nodes| == |old(nodes)| && forall j :: 0 <= j < |nodes| ==> nodes[j] == old(nodes[j]).(hover := j == k)
      ensures |links| == |old(links)| && forall j :: 0 <= j < |links| ==> links[j] == old(links[j]).(hover := links[j].hover)
      ensures forall j :: 0 <= j < |links| ==> (links[j].hover <==> links[j].a == k && links[j].b == k)
      ensures Valid()
    {
      var ns := HoverNodes(nodes, _ => false);
      nodes := ns[k := ns[k].(hover := true)];
      var ls := HoverLinks(links, (e: SLink) => e.a == k && e.b == k);
      RehoverKeeps(links, ls, |nodes|);
      links := ls;
    }

    /** `setHover` on link k: the links hovered are exactly the two
        orientations of k's pair; among the nodes only the node of a
        self-pair is hovered. */
    method SetHoverLink(k: int)
      requires Valid() && 0 <= k < |links|
      modifies this
      ensures |links| == |old(links)| && forall j :: 0 <= j < |links| ==> links[j] == old(links[j]).(hover := links[j].hover)
      ensures var d := old(links[k]);
        forall j :: 0 <= j < |links| ==>
          (links[j].hover <==> (links[j].a == d.a && links[j].b == d.b) || (links[j].a == d.b && links[j].b == d.a))
      ensures |nodes| == |old(nodes)|
      ensures var d := old(links[k]);
        forall j :: 0 <= j < |nodes| ==> nodes[j] == old(nodes[j]).(hover := d.a == d.b && j == d.a)
      ensures Valid()
    {
      var d := links[k];
      var ns := HoverNodes(nodes, _ => false);
      nodes := ns;
      var ls := links[k := d.(hover := true)];
      ls := HoverLinks(ls, (e: SLink) => e.linkId == d.linkId);
      forall j | 0 <= j < |links|
        ensures ls[j].linkId == d.linkId <==> (links[j].a == d.a && links[j].b == d.b) || (links[j].a == d.b && links[j].b == d.a)
      {
        SameIdIffPair(links, |nodes|, j, k);
      }
      RehoverKeeps(links, ls, |nodes|);
      links := ls;
      if d.a == d.b {
        ns := HoverNodes(nodes, i => i == d.a);
        nodes := ns;
      }
    }
  }

  /** Strictly decreasing in JavaScript's default string order. */
  predicate Descending(r: seq<string>)
  {
    forall p, q :: 0 <= p < q < |r| ==> LexLess(r[q], r[p])
  }

  /** s placed into a strictly decreasing list, unless it is already there. */
  function Insert(r: seq<string>, s: string): (r': seq<string>)
    requires Descending(r)
    ensures Descending(r')
    ensures forall x :: x in r' <==> x in r || x == s
  {
    if |r| == 0 then [s]
    else if r[0] == s then r
    else if LexLess(r[0], s) then
      assert forall q :: 0 <= q < |r| ==> LexLess(r[q], s) by {
        forall q | 0 <= q < |r| ensures LexLess(r[q], s) {
          if q > 0 {
            LexLessTransitive(r[q], r[0], s);
          }
        }
      }
      [s] + r
    else
      LexLessTotal(r[0], s);
      var rest := Insert(r[1..], s);
      assert forall x :: x in r[1..] ==> LexLess(x, r[0]);
      [r[0]] + rest
  }

  /** shuffle-sm.js:54-59: the thumbnail orders are the distinct shuffle
      strings, largest first. */
  method Thumbnails(shuffles: seq<string>) returns (r: seq<string>)
    ensures Descending(r)
    ensures forall x :: x in r <==> x in shuffles
  {
    r := [];
    var i := 0;
    while i < |shuffles|
      invariant 0 <= i <= |shuffles|
      invariant Descending(r)
      invariant forall x :: x in r <==> x in shuffles[..i]
    {
      r := Insert(r, shuffles[i]);
      assert shuffles[..i + 1] == shuffles[..i] + [shuffles[i]];
      i := i + 1;
    }
    assert shuffles[..i] == shuffles;
  }

  /** Two strictly decreasing lists with the same entries are the same list:
      the thumbnails are the one reverse-sorted list of distinct shuffles,
      whatever way it is computed. */
  lemma {:induction false} DescendingUnique(r: seq<string>, t: seq<string>)
    requires Descending(r) && Descending(t)
    requires forall x :: x in r <==> x in t
    ensures r == t
    decreases |r|
  {
    if |r| > 0 {
      assert r[0] in t;
    }
    if |t| > 0 {
      assert t[0] in r;
    }
    if |r| > 0 && |t| > 0 {
      if r[0] != t[0] {
        assert t[0] in r && r[0] in t;
        var q :| 0 <= q < |r| && r[q] == t[0];
        var q' :| 0 <= q' < |t| && t[q'] == r[0];
        assert LexLess(t[0], r[0]) && LexLess(r[0], t[0]);
        LexLessAsymmetric(t[0], r[0]);
        assert false;
      }
      forall x ensures x in r[1..] <==> x in t[1..] {
        if x in r[1..] {
          var q :| 1 <= q < |r| && r[q] == x;
          assert r[1..][q - 1] == x;
          LexLessIrreflexive(x);
          assert x in t;
          var w :| 0 <= w < |t| && t[w] == x;
          assert w != 0;
          assert t[1..][w - 1] == x;
        }
        if x in t[1..] {
          var q :| 1 <= q < |t| && t[q] == x;
          assert t[1..][q - 1] == x;
          LexLessIrreflexive(x);
          assert x in r;
          var w :| 0 <= w < |r| && r[w] == x;
          assert w != 0;
          assert r[1..][w - 1] == x;
        }
      }
      DescendingUnique(r[1..], t[1..]);
    }
  }
}

=== FILE: strings.dfy ===
/** String helpers shared by the models: decimal rendering of naturals
    (JavaScript's `String(n)` and template literals), the character order
    that `<` and the default `Array.prototype.sort` use on strings, and
    `trim` / `split` as the image parser applies them. */
module Strings {

  /** The decimal digit character for d. */
  function DigitChar(d: nat): (c: char)
    requires d < 10
    ensures '0' <= c <= '9'
    ensures c as int - '0' as int == d
  {
    (d + '0' as int) as char
  }

  /** The decimal rendering of n, as `String(n)` gives it: no leading zeros. */
  function NatToString(n: nat): (s: string)
    ensures |s| >= 1
    ensures forall k :: 0 <= k < |s| ==> '0' <= s[k] <= '9'
    ensures (|s| == 1) == (n < 10)
    ensures |s| > 1 ==> s[0] != '0'
  {
    if n < 10 then [DigitChar(n)] else NatToString(n / 10) + [DigitChar(n % 10)]
  }

  /** Different numbers render to different strings. */
  lemma {:induction false} NatToStringInjective(m: nat, n: nat)
    requires NatToString(m) == NatToString(n)
    ensures m == n
  {
    if m >= 10 && n >= 10 {
      var sm, sn := NatToString(m), NatToString(n);
      assert sm[|sm| - 1] == sn[|sn| - 1];
      assert m % 10 == n % 10;
      assert sm[..|sm| - 1] == NatToString(m / 10);
      assert sn[..|sn| - 1] == NatToString(n / 10);
      NatToStringInjective(m / 10, n / 10);
    } else if m < 10 && n < 10 {
      assert NatToString(m)[0] == NatToString(n)[0];
    }
  }

  /** JavaScript's `s < t` on strings: the first differing character decides,
      and a proper prefix is smaller. Characters here are Unicode scalar
      values; JavaScript compares UTF-16 code units, and the two orders agree
      below U+10000. */
  predicate LexLess(s: string, t: string)
  {
    |t| > 0 && (|s| == 0 || s[0] < t[0] || (s[0] == t[0] && LexLess(s[1..], t[1..])))
  }

  lemma {:induction false} LexLessIrreflexive(s: string)
    ensures !LexLess(s, s)
  {
    if |s| > 0 {
      LexLessIrreflexive(s[1..]);
    }
  }

  lemma {:induction false} LexLessAsymmetric(s: string, t: string)
    requires LexLess(s, t)
    ensures !LexLess(t, s)
  {
    if |s| > 0 && s[0] == t[0] {
      LexLessAsymmetric(s[1..], t[1..]);
    }
  }

  lemma {:induction false} LexLessTotal(s: string, t: string)
    requires s != t
    ensures LexLess(s, t) || LexLess(t, s)
  {
    if |s| > 0 && |t| > 0 && s[0] == t[0] {
      assert s == [s[0]] + s[1..] && t == [t[0]] + t[1..];
      LexLessTotal(s[1..], t[1..]);
    }
  }

  lemma {:induction false} LexLessTransitive(s: string, t: string, u: string)
    requires LexLess(s, t) && LexLess(t, u)
    ensures LexLess(s, u)
  {
    if |s| > 0 && s[0] == t[0] && t[0] == u[0] {
      LexLessTransitive(s[1..], t[1..], u[1..]);
    }
  }

  /** On one-digit numbers the string order is the numeric order. */
  lemma DigitOrder(m: nat, n: nat)
    requires m < 10 && n < 10
    ensures LexLess(NatToString(m), NatToString(n)) <==> m < n
  {
    assert NatToString(m) == [DigitChar(m)] && NatToString(n) == [DigitChar(n)];
  }

  /** `[x, y].sort()` with the default comparator: both numbers are compared
      as strings and a stable sort keeps x first unless String(y) < String(x). */
  function SortPair(x: nat, y: nat): (nat, nat)
  {
    if LexLess(NatToString(y), NatToString(x)) then (y, x) else (x, y)
  }

  /** Sorting a pair does not depend on the order of its two entries. */
  lemma SortPairSymmetric(x: nat, y: nat)
    ensures SortPair(x, y) == SortPair(y, x)
  {
    if x != y {
      if NatToString(x) == NatToString(y) {
        NatToStringInjective(x, y);
      }
      LexLessTotal(NatToString(x), NatToString(y));
      if LexLess(NatToString(y), NatToString(x)) {
        LexLessAsymmetric(NatToString(y), NatToString(x));
      }
    }
  }

  /** The sorted pair holds the same two numbers. */
  lemma SortPairMembers(x: nat, y: nat)
    ensures var (p, q) := SortPair(x, y); (p == x && q == y) || (p == y && q == x)
  {
  }

  /** Below ten the sorted pair is (smaller, larger). */
  lemma SortPairSmall(x: nat, y: nat)
    requires x < 10 && y < 10
    ensures SortPair(x, y) == (if x <= y then (x, y) else (y, x))
  {
    DigitOrder(y, x);
  }

  /** Characters that `String.prototype.trim` removes: the white space and
      line terminators of ECMAScript (section 12.2 and 12.3 of ECMA-262),
      that is tab, vertical tab, form feed, space, no-break space, the byte
      order mark, the other Unicode space separators (category Zs), line
      feed, carriage return, and the line and paragraph separators. */
  predicate IsSpace(c: char)
  {
    c == '\t' || c == '\U{B}' || c == '\U{C}' || c == ' ' || c == '\U{A0}' || c == '\U{FEFF}' ||
    c == '\U{1680}' || ('\U{2000}' <= c <= '\U{200A}') || c == '\U{202F}' || c == '\U{205F}' || c == '\U{3000}' ||
    c == '\n' || c == '\r' || c == '\U{2028}' || c == '\U{2029}'
  }

  function TrimStart(s: string): (r: string)
    ensures |r| <= |s| && r == s[|s| - |r|..]
    ensures forall k :: 0 <= k < |s| - |r| ==> IsSpace(s[k])
    ensures |r| == 0 || !IsSpace(r[0])
  {
    if |s| > 0 && IsSpace(s[0]) then TrimStart(s[1..]) else s
  }

  function TrimEnd(s: string): (r: string)
    ensures |r| <= |s| && r == s[..|r|]
    ensures forall k :: |r| <= k < |s| ==> IsSpace(s[k])
    ensures |r| == 0 || !IsSpace(r[|r| - 1])
  {
    if |s| > 0 && IsSpace(s[|s| - 1]) then TrimEnd(s[..|s| - 1]) else s
  }

  /** `s.trim()`: drops leading and trailing white space and nothing else. */
  function Trim(s: string): (r: string)
    ensures |r| == 0 || (!IsSpace(r[0]) && !IsSpace(r[|r| - 1]))
    ensures var i := |s| - |TrimStart(s)|;
      i + |r| <= |s| && r == s[i..i + |r|] &&
      (forall k :: 0 <= k < i ==> IsSpace(s[k])) &&
      (forall k :: i + |r| <= k < |s| ==> IsSpace(s[k]))
  {
    var t := TrimStart(s);
    var r := TrimEnd(t);
    TrimInside(s, t, r);
    r
  }

  /** r is a prefix of t, itself a suffix of s, so r sits inside s and what
      follows it in s is what follows it in t. */
  lemma TrimInside(s: string, t: string, r: string)
    requires |t| <= |s| && t == s[|s| - |t|..]
    requires |r| <= |t| && r == t[..|r|]
    requires forall k :: |r| <= k < |t| ==> IsSpace(t[k])
    ensures var i := |s| - |t|;
      r == s[i..i + |r|] && forall k :: i + |r| <= k < |s| ==> IsSpace(s[k])
  {
    var i := |s| - |t|;
    forall k | i + |r| <= k < |s|
      ensures IsSpace(s[k])
    {
      assert s[k] == t[k - i];
    }
  }

  /** Non-ASCII white space goes too: a no-break space in front and an
      ideographic space behind are both removed. */
  lemma TrimUnicodeSpace()
    ensures Trim("\U{A0}0 1\U{3000}") == "0 1"
  {
    var s := "\U{A0}0 1\U{3000}";
    var t := "0 1\U{3000}";
    TrimFront(s, t);
    TrimBack(t, "0 1");
  }

  lemma TrimFront(s: string, t: string)
    requires |s| == |t| + 1 && IsSpace(s[0]) && s[1..] == t && |t| > 0 && !IsSpace(t[0])
    ensures TrimStart(s) == t
  {
  }

  lemma TrimBack(t: string, r: string)
    requires |t| == |r| + 1 && IsSpace(t[|r|]) && t[..|r|] == r && |r| > 0 && !IsSpace(r[|r| - 1])
    ensures TrimEnd(t) == r
  {
  }

  /** Joins parts with sep between consecutive parts: the inverse of Split. */
  function Join(parts: seq<string>, sep: char): string
  {
    if |parts| == 0 then ""
    else if |parts| == 1 then parts[0]
    else parts[0] + [sep] + Join(parts[1..], sep)
  }

  /** Position of the first sep in s, or |s| when there is none. */
  function FirstIndex(s: string, sep: char): (k: nat)
    ensures k <= |s|
    ensures k < |s| ==> s[k] == sep
    ensures sep !in s[..k]
  {
    if |s| == 0 then 0
    else if s[0] == sep then 0
    else 1 + FirstIndex(s[1..], sep)
  }

  /** `s.split(sep)` for a one-character separator: the maximal runs between
      separators, so there is always at least one part. */
  function Split(s: string, sep: char): (parts: seq<string>)
    ensures |parts| >= 1
    ensures forall k :: 0 <= k < |parts| ==> sep !in parts[k]
    ensures Join(parts, sep) == s
    decreases |s|
  {
    var k := FirstIndex(s, sep);
    if k == |s| then
      assert s[..k] == s;
      [s]
    else
      var rest := Split(s[k + 1..], sep);
      assert s == s[..k] + [sep] + s[k + 1..];
      [s[..k]] + rest
  }

  /** Splitting a join gives back the parts when no part holds the separator. */
  lemma {:induction false} SplitJoin(parts: seq<string>, sep: char)
    requires |parts| >= 1
    requires forall k :: 0 <= k < |parts| ==> sep !in parts[k]
    ensures Split(Join(parts, sep), sep) == parts
  {
    if |parts| == 1 {
      FirstIndexAbsent(parts[0], sep);
    } else {
      var s := Join(parts, sep);
      var p := parts[0];
      assert s == p + [sep] + Join(parts[1..], sep);
      FirstIndexAt(p, Join(parts[1..], sep), sep);
      assert s[..|p|] == p;
      assert s[|p| + 1..] == Join(parts[1..], sep);
      SplitJoin(parts[1..], sep);
    }
  }

  lemma {:induction false} FirstIndexAbsent(s: string, sep: char)
    requires sep !in s
    ensures FirstIndex(s, sep) == |s|
  {
    if |s| > 0 {
      assert s[1..] == s[1..] && forall c :: c in s[1..] ==> c in s;
      FirstIndexAbsent(s[1..], sep);
    }
  }

  lemma {:induction false} FirstIndexAt(p: string, rest: string, sep: char)
    requires sep !in p
    ensures FirstIndex(p + [sep] + rest, sep) == |p|
  {
    if |p| > 0 {
      assert (p + [sep] + rest)[1..] == p[1..] + [sep] + rest;
      assert forall c :: c in p[1..] ==> c in p;
      FirstIndexAt(p[1..], rest, sep);
    }
  }
}

=== FILE: utils.dfy ===
/** The graph and array helpers shared by the illustrations (utils.ts). The
    random draws of `makeGraph` and of the shuffles are parameters. */
module Utils {
  import opened Props

  /** A node of a generated graph: its number and its neighbours, by number.
      The circle coordinates and the colour are not modelled. */
  datatype GNode = GNode(i: int, neighbors: seq<int>)

  /** A directed link from node a to node b. */
  datatype Link = Link(a: int, b: int)

  /** No entry of the list occurs twice. */
  predicate NoDup<T(==)>(s: seq<T>)
  {
    forall p, q :: 0 <= p < q < |s| ==> s[p] != s[q]
  }

  /** Neighbour lists and a link list that agree, symmetric or not: entries
      are node numbers, no list repeats an entry, and the links are exactly
      the (a, b) neighbour entries, each once. */
  predicate Sound(n: nat, nbrs: seq<seq<int>>, links: seq<Link>)
  {
    |nbrs| == n &&
    (forall a :: 0 <= a < n ==> NoDup(nbrs[a])) &&
    (forall a, b :: 0 <= a < n && b in nbrs[a] ==> 0 <= b < n) &&
    (forall l :: l in links ==> 0 <= l.a < n && l.b in nbrs[l.a]) &&
    (forall a, b :: 0 <= a < n && b in nbrs[a] ==> Link(a, b) in links) &&
    NoDup(links)
  }

  /** The neighbour lists and link list that `makeGraph` keeps consistent:
      sound, and the neighbour relation is symmetric. */
  predicate Consistent(n: nat, nbrs: seq<seq<int>>, links: seq<Link>)
  {
    Sound(n, nbrs, links) &&
    forall a, b :: 0 <= a < n && 0 <= b < n ==> (b in nbrs[a] <==> a in nbrs[b])
  }

  /** One half of the `addNeighbor` closure: link a to b unless it is
      already there. */
  method AddHalf(n: nat, nbrs: seq<seq<int>>, links: seq<Link>, a: int, b: int)
      returns (nbrs': seq<seq<int>>, links': seq<Link>)
    requires Sound(n, nbrs, links) && 0 <= a < n && 0 <= b < n
    ensures Sound(n, nbrs', links')
    ensures forall c, d :: 0 <= c < n ==> (d in nbrs'[c] <==> d in nbrs[c] || (c, d) == (a, b))
    ensures |links'| == |links| + (if b in nbrs[a] then 0 else 1)
  {
    nbrs', links' := nbrs, links;
    if b !in nbrs[a] {
      nbrs' := nbrs[a := nbrs[a] + [b]];
      links' := links + [Link(a, b)];
    }
  }

  /** The `addNeighbor` closure: link a to b and b to a, each unless it is
      already there. A self-link a = a is added once. */
  method AddNeighbor(n: nat, nbrs: seq<seq<int>>, links: seq<Link>, a: int, b: int)
      returns (nbrs': seq<seq<int>>, links': seq<Link>)
    requires Consistent(n, nbrs, links) && 0 <= a < n && 0 <= b < n
    ensures Consistent(n, nbrs', links')
    ensures b in nbrs'[a] && a in nbrs'[b]
    ensures forall c, d :: 0 <= c < n ==> (d in nbrs'[c] <==> d in nbrs[c] || (c, d) == (a, b) || (c, d) == (b, a))
    ensures |links'| == |links| + (if b in nbrs[a] then 0 else 1) + (if a != b && a !in nbrs[b] then 1 else 0)
  {
    var ns, ls := AddHalf(n, nbrs, links, a, b);
    nbrs', links' := AddHalf(n, ns, ls, b, a);
  }

  /** One pass of the `makeGraph` loop at node idx: a self-link when asked
      for, then a link to the drawn node unless it is idx itself. Only the
      self-link can make a node its own neighbour. */
  method AddEdges(n: nat, nbrs: seq<seq<int>>, links: seq<Link>, idx: int, neighIdx: int, addSelfLoops: bool)
      returns (nbrs': seq<seq<int>>, links': seq<Link>)
    requires Consistent(n, nbrs, links) && 0 <= idx < n && 0 <= neighIdx < n
    ensures Consistent(n, nbrs', links')
    ensures forall c, d :: 0 <= c < n ==>
      (d in nbrs'[c] <==>
        d in nbrs[c] || (addSelfLoops && c == idx && d == idx) ||
        (idx != neighIdx && ((c, d) == (idx, neighIdx) || (c, d) == (neighIdx, idx))))
  {
    nbrs', links' := nbrs, links;
    if addSelfLoops {
      nbrs', links' := AddNeighbor(n, nbrs', links', idx, idx);
    }
    if idx != neighIdx {
      nbrs', links' := AddNeighbor(n, nbrs', links', idx, neighIdx);
    }
  }

  /** utils.ts `makeGraph`, with `draws[i]` for `Math.floor(random[i] * numNodes)`. */
  method MakeGraph(numNodes: nat, expNumEdges: nat, addSelfLoops: bool, draws: seq<int>)
      returns (nodes: seq<GNode>, links: seq<Link>)
    requires numNodes > 0 || expNumEdges == 0
    requires |draws| >= expNumEdges && forall i :: 0 <= i < |draws| ==> 0 <= draws[i] < numNodes
    ensures |nodes| == numNodes && forall k :: 0 <= k < numNodes ==> nodes[k].i == k
    ensures Consistent(numNodes, seq(numNodes, k requires 0 <= k < numNodes => nodes[k].neighbors), links)
    ensures forall c, d :: 0 <= c < numNodes ==>
      (d in nodes[c].neighbors <==> Expected(numNodes, draws, addSelfLoops, expNumEdges, c, d))
    ensures addSelfLoops && expNumEdges >= numNodes ==> forall k :: 0 <= k < numNodes ==> k in nodes[k].neighbors
    ensures !addSelfLoops ==> forall l :: l in links ==> l.a != l.b
  {
    var n := numNodes;
    var nbrs: seq<seq<int>> := seq(n, k => []);
    links := [];
    var i := 0;
    while i < expNumEdges
      invariant 0 <= i <= expNumEdges
      invariant Consistent(n, nbrs, links)
      invariant forall c, d :: 0 <= c < n ==> (d in nbrs[c] <==> Expected(n, draws, addSelfLoops, i, c, d))
    {
      var idx := i % n;
      if i < n {
        ModUnique(i, n, 0, i);
      }
      ghost var before := nbrs;
      nbrs, links := AddEdges(n, nbrs, links, idx, draws[i], addSelfLoops);
      ExpectedStep(n, draws, addSelfLoops, i, before, nbrs);
      i := i + 1;
    }
    nodes := seq(n, k requires 0 <= k < n => GNode(k, nbrs[k]));
    assert seq(n, k requires 0 <= k < n => nodes[k].neighbors) == nbrs;
    if addSelfLoops && expNumEdges >= n {
      forall k | 0 <= k < n ensures k in nbrs[k] {
        assert Expected(n, draws, addSelfLoops, expNumEdges, k, k);
      }
    }
    if !addSelfLoops {
      forall l | l in links ensures l.a != l.b {
        assert l.b in nbrs[l.a];
        assert Expected(n, draws, addSelfLoops, expNumEdges, l.a, l.b);
      }
    }
  }

  /** Pass i of the `makeGraph` loop links c to d: d is drawn for node
      c = i mod n, or c is drawn for node d = i mod n, and the two differ. */
  ghost predicate Drawn(n: nat, draws: seq<int>, i: int, c: int, d: int)
  {
    n > 0 && 0 <= i < |draws| && i % n != draws[i] &&
    ((c == i % n && d == draws[i]) || (c == draws[i] && d == i % n))
  }

  /** After the first m passes, d is a neighbour of node c exactly when c = d
      got its self-link (node c was visited, so c < m) or some pass drew the
      link between them. */
  ghost predicate Expected(n: nat, draws: seq<int>, addSelfLoops: bool, m: nat, c: int, d: int)
  {
    (addSelfLoops && c == d && c < m) || exists i :: 0 <= i < m && Drawn(n, draws, i, c, d)
  }

  /** One more pass adds exactly what the next draw contributes. */
  lemma ExpectedStep(n: nat, draws: seq<int>, addSelfLoops: bool, i: nat,
                     nbrs: seq<seq<int>>, nbrs': seq<seq<int>>)
    requires n > 0 && i < |draws| && 0 <= draws[i] < n && (i < n ==> i % n == i)
    requires |nbrs| == n && |nbrs'| == n
    requires forall c, d :: 0 <= c < n ==> (d in nbrs[c] <==> Expected(n, draws, addSelfLoops, i, c, d))
    requires forall c, d :: 0 <= c < n ==>
      (d in nbrs'[c] <==>
        d in nbrs[c] || (addSelfLoops && c == i % n && d == i % n) ||
        (i % n != draws[i] && ((c, d) == (i % n, draws[i]) || (c, d) == (draws[i], i % n))))
    ensures forall c, d :: 0 <= c < n ==> (d in nbrs'[c] <==> Expected(n, draws, addSelfLoops, i + 1, c, d))
  {
    forall c, d | 0 <= c < n
      ensures d in nbrs'[c] <==> Expected(n, draws, addSelfLoops, i + 1, c, d)
    {
      assert d in nbrs[c] <==> Expected(n, draws, addSelfLoops, i, c, d);
      if exists t :: 0 <= t < i + 1 && Drawn(n, draws, t, c, d) {
        var t :| 0 <= t < i + 1 && Drawn(n, draws, t, c, d);
        if t < i {
          assert exists t :: 0 <= t < i && Drawn(n, draws, t, c, d);
        }
      }
      if Drawn(n, draws, i, c, d) {
        assert exists t :: 0 <= t < i + 1 && Drawn(n, draws, t, c, d);
      }
      if exists t :: 0 <= t < i && Drawn(n, draws, t, c, d) {
        var t :| 0 <= t < i && Drawn(n, draws, t, c, d);
        assert exists t :: 0 <= t < i + 1 && Drawn(n, draws, t, c, d);
      }
    }
  }


  /** utils.ts `range`: the keys 0 .. n-1 of an n-element array, in order. */
  function Range(n: nat): (r: seq<int>)
    ensures |r| == n && forall k :: 0 <= k < n ==> r[k] == k
  {
    if n == 0 then [] else Range(n - 1) + [n - 1]
  }

  /** s with the entries at i and j exchanged (`[a[i], a[j]] = [a[j], a[i]]`). */
  function Swap<T>(s: seq<T>, i: int, j: int): seq<T>
    requires 0 <= i < |s| && 0 <= j < |s|
  {
    s[i := s[j]][j := s[i]]
  }

  lemma SwapPermutes<T>(s: seq<T>, i: int, j: int)
    requires 0 <= i < |s| && 0 <= j < |s|
    ensures |Swap(s, i, j)| == |s| && multiset(Swap(s, i, j)) == multiset(s)
  {
  }

  /** The Fisher-Yates passes of `shuffle` for positions i down to 1, with
      draws[i] in place of `Math.floor(Math.random() * (i + 1))`. */
  function Shuffled<T>(s: seq<T>, draws: seq<int>, i: int): seq<T>
    requires -1 <= i < |s| && |draws| == |s|
    requires forall k :: 0 <= k < |draws| ==> 0 <= draws[k] <= k
    decreases i
  {
    if i <= 0 then s else Shuffled(Swap(s, i, draws[i]), draws, i - 1)
  }

  /** Shuffling rearranges the entries and neither loses nor adds any. */
  lemma {:induction false} ShuffledPermutes<T>(s: seq<T>, draws: seq<int>, i: int)
    requires -1 <= i < |s| && |draws| == |s|
    requires forall k :: 0 <= k < |draws| ==> 0 <= draws[k] <= k
    ensures |Shuffled(s, draws, i)| == |s| && multiset(Shuffled(s, draws, i)) == multiset(s)
    decreases i
  {
    if i > 0 {
      SwapPermutes(s, i, draws[i]);
      ShuffledPermutes(Swap(s, i, draws[i]), draws, i - 1);
    }
  }

  /** With every draw at its own position, no swap moves anything. */
  lemma {:induction false} ShuffledIdentity<T>(s: seq<T>, draws: seq<int>, i: int)
    requires -1 <= i < |s| && |draws| == |s|
    requires forall k :: 0 <= k < |draws| ==> draws[k] == k
    ensures Shuffled(s, draws, i) == s
    decreases i
  {
    if i > 0 {
      assert Swap(s, i, draws[i]) == s;
      ShuffledIdentity(s, draws, i - 1);
    }
  }

  /** utils.ts `shuffle`: shuffles `a` in place and returns it. */
  method Shuffle<T>(a: array<T>, draws: seq<int>) returns (r: array<T>)
    requires |draws| == a.Length && forall k :: 0 <= k < |draws| ==> 0 <= draws[k] <= k
    modifies a
    ensures r == a
    ensures a[..] == Shuffled(old(a[..]), draws, a.Length - 1)
    ensures multiset(a[..]) == multiset(old(a[..]))
  {
    var i := a.Length - 1;
    while i > 0
      invariant -1 <= i < a.Length
      invariant Shuffled(a[..], draws, i) == Shuffled(old(a[..]), draws, a.Length - 1)
    {
      var j := draws[i];
      assert a[..][i := a[j]][j := a[i]] == Swap(a[..], i, j);
      a[i], a[j] := a[j], a[i];
      i := i - 1;
    }
    ShuffledPermutes(old(a[..]), draws, a.Length - 1);
    r := a;
  }

  /** utils.ts `oneSwap`: exchanges positions i and j in place and returns
      the array; nothing else moves. */
  method OneSwap<T>(a: array<T>, i: int, j: int) returns (r: array<T>)
    requires 0 <= i < a.Length && 0 <= j < a.Length
    modifies a
    ensures r == a
    ensures a[..] == Swap(old(a[..]), i, j)
    ensures multiset(a[..]) == multiset(old(a[..]))
    ensures forall k :: 0 <= k < a.Length && k != i && k != j ==> a[k] == old(a[k])
  {
    a[i], a[j] := a[j], a[i];
    SwapPermutes(old(a[..]), i, j);
    r := a;
  }

  /** utils.ts `transposeArray`: column i of the input becomes row i. Rows
      shorter than the first would give undefined entries, so every row is
      at least as long as the first. */
  function Transpose<T>(m: seq<seq<T>>): (r: seq<seq<T>>)
    requires |m| > 0 && forall j :: 0 <= j < |m| ==> |m[j]| >= |m[0]|
    ensures |r| == |m[0]|
    ensures forall i :: 0 <= i < |r| ==> |r[i]| == |m| && forall j :: 0 <= j < |m| ==> r[i][j] == m[j][i]
  {
    seq(|m[0]|, i requires 0 <= i < |m[0]| => seq(|m|, j requires 0 <= j < |m| => m[j][i]))
  }

  /** Every row has the same length as the first. */
  predicate Rectangular<T>(m: seq<seq<T>>)
  {
    |m| > 0 && forall j :: 0 <= j < |m| ==> |m[j]| == |m[0]|
  }

  /** Transposing a rectangular array with at least one column twice gives it back. */
  lemma TransposeTwice<T>(m: seq<seq<T>>)
    requires Rectangular(m) && |m[0]| > 0
    ensures Rectangular(Transpose(m)) && Transpose(Transpose(m)) == m
  {
    var t := Transpose(m);
    var tt := Transpose(t);
    assert |tt| == |m|;
    forall j | 0 <= j < |m| ensures tt[j] == m[j] {
      assert |tt[j]| == |t| == |m[j]|;
    }
  }
}
